=== FILE: README.md ===
# Chat backend core — a Dafny model

This project models the chat core of the workchat backend. That core is a NestJS service over MySQL (through TypeORM) and Redis. It holds one-to-one ("private") chat rooms and group chat rooms, each with:

- a membership table, soft-deleted on leave;
- a message table whose rows carry a per-room `messageOrder`;
- a read marker per member (`lastReadMessageOrder`);
- a Redis cache of unread counts per user and room, with a running total per user.

It also models the two route guards, the page-path parser that tells which room a client is looking at, and the paginated notice board list.

Layout:

| file | module | models |
|---|---|---|
| common.dfy | Common | `Option`/`Result`, the error kinds, the LIMIT/OFFSET window, `ORDER BY … DESC` as a sort, `LIKE '%k%'` as a substring test |
| message_store.dfy | Messages | the message row, `COALESCE(MAX(messageOrder),0)`, the log invariant (the n-th message of a room has order n), the visibility window, the message listing, the room-list preview |
| unread_cache.dfy | Unread | the Redis hash and total per user as a class; warm, increment and clear |
| private_chat.dfy | PrivateChat | private rooms: create-or-get, rejoin, send, read, leave, room list, warm |
| group_chat.dfy | GroupChat | groups: create, add users, leave/kick with admin hand-over, send, read, room list, warm |
| guards.dfy | Guards | `GroupChatGuard` and `PrivateChatGuard` |
| room_path.dfy | RoomPath | `parseRoomFromPath` |
| notice.dfy | Notice | `getNoticeList` and the controller's clamping of `page`/`pageSize` |

Each service is a class whose fields are the tables: `seq`s of rows plus a `set`/`map` of room rows. Each service method is one atomic step that reassigns them. A `clock` field stands for `new Date()`/`NOW()` and is advanced by every step that stamps a row. The Redis cache is modelled by `UnreadCache`; each service holds its own, for its own key family (`user:{id}:private:unread` and `user:{id}:group:unread`). Queries are pure functions over the tables, and SQL `NULL` is `None`.

What the model follows, where the code and its documentation differ:

- `readMessage` overwrites the read marker; it does not take a maximum.
- Sending into a private room first reactivates every soft-deleted row of that room and sets their marker to the room's current maximum. The sender's marker then moves to the new order.
- Sending into a group reactivates nobody.
- Adding a user back to a group leaves the old read marker in place (`GroupChat.StaleUnreadAfterRejoin`).
- The private room list compares `createdAt >=` the row's anchor, while the group room list and both message listings use `>`.
- The message listing LEFT JOINs the reader's active rows of the room. A reader with two active rows in one private room (a room opened with oneself has two) gets each message once per row whose window it passes. A group reader has at most one row, so each message appears once.

## Model

| member | source | states |
|---|---|---|
| Common.SqlWindow | src/private-chat/private-chat.service.ts:422-426 | the rows `.offset(o).limit(l)` returns for MySQL: all rows when both are 0; QueryFailed exactly when the limit is negative, an offset comes without a limit, or the offset is negative; otherwise `min(l, n - o)` rows, taken in order from position `o` |
| Common.SqlWindowKeepsOrder | src/private-chat/private-chat.service.ts:422-426 | a page is drawn from the rows and keeps their descending order |
| Common.SortDesc | src/private-chat/private-chat.service.ts:461 | `ORDER BY key DESC`: the result is sorted descending and is a permutation of the input |
| Common.IsInfixIff | src/private-chat/private-chat.service.ts:416-420 | `LIKE '%k%'` holds exactly when `k` occurs at some position of the text |
| Messages.MaxOrder | src/private-chat/private-chat.service.ts:577-588 | `COALESCE(MAX(messageOrder),0)`: 0 for a room without messages, otherwise an upper bound attained by one of the room's messages (the group query at src/group-chat/group-chat.service.ts:573-584 is the same) |
| Messages.MaxOrderIsCount | src/private-chat/private-chat.service.ts:197-215 | while every send stores order MAX + 1, a room's maximum order equals its number of messages |
| Messages.AppendKeepsOrderedLog | src/private-chat/private-chat.service.ts:209-215 | storing a message with order MAX + 1 keeps "the n-th message of a room has order n" |
| Messages.OrdersIncrease | src/private-chat/private-chat.service.ts:197-215 | under that invariant, orders strictly increase along a room's messages |
| Messages.CountRoomZero | src/private-chat/private-chat.service.ts:583 | a room has no messages exactly when its count is 0 |
| Messages.WithoutRoom | src/private-chat/private-chat.service.ts:633 | `DELETE … WHERE roomId = r` keeps every message of other rooms and none of `r` |
| Messages.CountWithoutRoom | src/private-chat/private-chat.service.ts:633 | deleting one room's messages leaves every other room's count unchanged |
| Messages.WithoutRoomKeepsOrderedLog | src/group-chat/group-chat.service.ts:496-500 | deleting one room's messages keeps the order invariant of the rest |
| Messages.ListMessages | src/private-chat/private-chat.service.ts:379-427 | getMessagesByRoomId: fails exactly on a negative limit or on page < 1 with a positive limit. Every row is a message of the room, after the anchor of one of the reader's joined rows, matching the keyword; with no active row of the reader the page is empty. Rows are ordered by order descending. For a positive limit the page has exactly `max(0, min(limit, n - (page-1)*limit))` rows of the n joined rows, and row i is the joined row at position (page-1)*limit + i. With limit 0 each message appears once per joined row that lets it through. The group query at src/group-chat/group-chat.service.ts:53-97 is the same |
| Messages.PageOffset | src/private-chat/private-chat.service.ts:424 | the offset `(page-1)*limit` is negative exactly when page < 1, for a positive limit |
| Messages.ListedDescMembers | src/private-chat/private-chat.service.ts:412-423 | the ordered listing holds exactly the messages that pass the WHERE clause |
| Messages.Copies | src/private-chat/private-chat.service.ts:389-396 | how many of the reader's joined rows let a message through: at most the number of rows, and none exactly when the message is not after any row's anchor |
| Messages.JoinedRows | src/private-chat/private-chat.service.ts:386-420 | the rows of the LEFT JOIN and WHERE: a matching message appears as often as it is stored times the number of joined rows that let it through; a non-matching one never |
| Messages.NoCopiesNoRows | src/private-chat/private-chat.service.ts:386-420 | when no joined row lets any stored message through, the listing is empty |
| Messages.NothingAfterAnchors | src/private-chat/private-chat.service.ts:413 | when every stored message is no later than every joined row's anchor, the listing is empty |
| Messages.OneRowListsOnce | src/private-chat/private-chat.service.ts:389-413 | with a single joined row, each message passing its window is listed exactly as often as it is stored |
| Messages.TwoRowsListTwice | src/private-chat/private-chat.service.ts:389-413 | with two joined rows of the same anchor, every message is listed twice as often as with one |
| Messages.MaxWindowOrder | src/private-chat/private-chat.service.ts:436-440 | the correlated `SELECT MAX(messageOrder)` over the window: None exactly when the window is empty, otherwise the largest order in it, attained |
| Messages.NewestInWindow | src/private-chat/private-chat.service.ts:435-440 | the joined messages are the room's messages whose order is that maximum, every one of them and each as often as the log holds it; none when there is no maximum |
| Messages.NewestInWindowIsUnique | src/private-chat/private-chat.service.ts:435-440 | under the order invariant the join attaches exactly one message, the one inside the window |
| Unread.SumUpdate | src/private-chat/private-chat.service.ts:180-181 | writing one hash field moves the field sum by the difference |
| Unread.RowsHash | src/private-chat/private-chat.service.ts:126-129 | one HSET per warm row: the hash holds exactly the rooms of the rows, each with the value of one of its rows |
| Unread.WarmTotalIsSum | src/private-chat/private-chat.service.ts:126-131 | with no repeated room, the total warm stores is the sum of the hash it stores |
| Unread.RepeatedRoomBreaksSum | src/private-chat/private-chat.service.ts:126-131 | with a repeated room, the stored total exceeds the hash sum |
| Unread.UnreadRows | src/private-chat/private-chat.service.ts:103-122 | the warm query yields, for each active row of the user and nothing else, its room and `GREATEST(COALESCE(max,0) - lastRead, 0)` |
| Unread.UnreadRowsCount | src/private-chat/private-chat.service.ts:103-122 | the warm query yields exactly one row per active row of the user |
| Unread.UnreadRowsPerRoom | src/private-chat/private-chat.service.ts:103-122 | a room appears in the warm rows as often as the user has active rows in it |
| Unread.OneRowPerRoomDistinct | src/private-chat/private-chat.service.ts:103-131 | when the user has at most one row per room, the warm rows name distinct rooms, so the cache hash gets one field per room |
| Unread.WarmedRooms | src/private-chat/private-chat.service.ts:97-131 | after warm, the cached rooms are exactly the user's rooms with an active row |
| Unread.WarmedCount | src/private-chat/private-chat.service.ts:97-131 | after warm, each cached count is `max(MAX(order) - lastRead, 0)` of an active row of that room |
| Unread.BumpSum | src/private-chat/private-chat.service.ts:146-149 | raising one field by n raises the sum by n |
| Unread.UnreadCache.Warm | src/private-chat/private-chat.service.ts:97-131 | DEL both keys, one HSET per row, SET the total. Only the warming user's keys change. Hash and total agree when no room repeats |
| Unread.UnreadCache.IncUnreadForMessage | src/private-chat/private-chat.service.ts:137-150 | each receiver other than the sender gets +1 per occurrence in the room's field and in the total; agreement of hash and total is preserved |
| Unread.UnreadCache.ClearUnreadForRoom | src/private-chat/private-chat.service.ts:173-184 | a positive field is zeroed and subtracted from the total; otherwise nothing changes; agreement is preserved |
| PrivateChat.FindRoomUser | src/private-chat/private-chat.service.ts:641-645 | getRoomUser: the first active row of the user in the room, None exactly when there is none |
| PrivateChat.RoomUsers | src/private-chat/private-chat.service.ts:647-654 | getRoomUsers: every entry is the user of an active row of the room, every active row's user is listed, and there are at most as many entries as rows |
| PrivateChat.RoomUsersCount | src/private-chat/private-chat.service.ts:647-654 | getRoomUsers returns one entry per active row: as many entries as the room has active rows, and each user as often as they have active rows there |
| PrivateChat.NewRoomUsers | src/private-chat/private-chat.service.ts:89-92 | a room without active rows that gets the two rows of createOrGetPrivateRoom has exactly the user and the friend as its users, in that order |
| PrivateChat.RoomUsersEmpty | src/private-chat/private-chat.service.ts:628-631 | no remaining users exactly when no active row of the room is left |
| PrivateChat.ReaderAnchors | src/private-chat/private-chat.service.ts:389-396 | the rows the listing joins for the reader: empty exactly when the reader has no active row in the room; each entry is the anchor of an active row of the reader, and every such row's anchor is there |
| PrivateChat.ReaderAnchorsCount | src/private-chat/private-chat.service.ts:389-396 | the listing joins exactly one row per active row of the reader in the room |
| PrivateChat.RoomsOf | src/private-chat/private-chat.service.ts:480-485 | the sub-query's rooms of a user, one per row, deleted rows included |
| PrivateChat.RoomsOfCount | src/private-chat/private-chat.service.ts:480-485 | the sub-query yields one room per row of the user: as many entries as the user has rows, and each room as often as the user has rows in it |
| PrivateChat.RoomIfExistsAsWritten | src/private-chat/private-chat.service.ts:472-491 | getPrivateRoomIfExists as written: the scalar sub-query fails when the friend has more than one membership row (two rooms, or two rows in one self-room), yields no room when there is none, and with exactly one friend row yields its room exactly when the user also has a row there |
| PrivateChat.SharedRoom | src/private-chat/private-chat.service.ts:472-491 | the intended lookup: a room in which both users have a row, None exactly when there is none |
| PrivateChat.AsWrittenAgreesWithOneFriendRow | src/private-chat/private-chat.service.ts:472-491 | while the friend has at most one row, the query as written returns what the intended lookup returns |
| PrivateChat.LookupFailsForFriendWithTwoRooms | src/private-chat/private-chat.service.ts:480-487 | a friend with rooms 1 and 2 makes the lookup fail, though room 1 is shared |
| PrivateChat.LookupFailsForSelfRoomFriend | src/private-chat/private-chat.service.ts:480-487 | a friend whose only room holds two of their own rows (a self-room) makes the lookup fail, though only one room is involved |
| PrivateChat.MembersWithoutRoom | src/private-chat/private-chat.service.ts:634 | `DELETE … WHERE roomId = r` on the rows keeps every row of other rooms and none of `r` |
| PrivateChat.SetLastRead | src/private-chat/private-chat.service.ts:602-617 | readMessage: every row of (room, user), deleted or not, takes the given order; no other row changes |
| PrivateChat.RoomLastMessages | src/private-chat/private-chat.service.ts:429-463 | the room list: sorted by message time descending. Every row comes from an active row of the user, the newest message inside that row's `>=` window, and another member of the room with a user record. Every such triple yields its row |
| PrivateChat.PrivateChatService.InsertRoom | src/private-chat/private-chat.service.ts:520-522 | createPrivateRoom: a room row with the next id is added; no member row belongs to it and nothing else changes |
| PrivateChat.PrivateChatService.AddUserToRoom | src/private-chat/private-chat.service.ts:531-540 | addUserToRoom: one row with the column defaults and a fresh clock reading is appended; nothing else changes |
| PrivateChat.PrivateChatService.InsertMessage | src/private-chat/private-chat.service.ts:209-215 | the saved message gets the next id, order MAX + 1 and a fresh clock reading; the log invariant is kept; no row and no room changes |
| PrivateChat.PrivateChatService.DeleteRoom | src/private-chat/private-chat.service.ts:632-636 | the three DELETEs: the room's messages, its rows and its room row are removed, everything else is kept |
| PrivateChat.PrivateChatService.OpenRoom | src/private-chat/private-chat.service.ts:80-94 | the transaction of createOrGetPrivateRoom once the lookup has answered: a found room is returned after every row takes its rejoin step; otherwise a new room gets exactly two fresh rows, the user's then the friend's, and its users are exactly those two |
| PrivateChat.PrivateChatService.CreateOrGetPrivateRoom | src/private-chat/private-chat.service.ts:70-95 | as written: an unknown friend gives NotFound with nothing changed. When the lookup as written fails (the friend has more than one membership row) the call fails with nothing changed. A room the lookup finds is returned and rejoined. When it finds none, a new room gets exactly two fresh rows, the user's then the friend's |
| PrivateChat.PrivateChatService.CreateOrGetPrivateRoomCorrected | src/private-chat/private-chat.service.ts:70-95 | with the corrected lookup: a known friend never makes the call fail. A room both users share is returned and rejoined, and a new room with the two rows is created only when there is none |
| PrivateChat.PrivateChatService.RejoinIfDeleted | src/private-chat/private-chat.service.ts:542-562 | every deleted row of the room becomes active with leftAt NULL, a fresh rejoinedAt and marker = the room's maximum order; other rows are unchanged; older messages fall before the new anchor |
| PrivateChat.PrivateChatService.ReadMessage | src/private-chat/private-chat.service.ts:602-617 | the rows of (room, user) take the order; nothing else changes |
| PrivateChat.PrivateChatService.SendMessage | src/private-chat/private-chat.service.ts:191-229 | a missing room gives NotFound with nothing changed. Otherwise every row of the room is rejoined, the sender's marker becomes MAX + 1, and the message is stored with order MAX + 1. Every row of the room is then active, and the new message is in each member's listing; the message id counter advances by one and the room counter is kept. Image and card sends (231-317) are the same step |
| PrivateChat.PrivateChatService.Leave | src/private-chat/private-chat.service.ts:619-639 | no active row gives NotFound. Otherwise the row is soft-deleted (leftAt set, rejoinedAt NULL). When no active row remains, the room's messages, rows and room row are deleted |
| PrivateChat.PrivateChatService.WarmUnread | src/private-chat/private-chat.service.ts:97-135 | the cache is warmed with the query's rows; the returned total is their sum |
| PrivateChat.PrivateChatService.UpdateReadLastMessage | src/private-chat/private-chat.service.ts:564-575 | a missing room gives NotFound with nothing changed. Otherwise the user's marker becomes the room's maximum, and in the cache only the user's field for the room and the user's total change (a positive field is zeroed and subtracted); every other user's cache, the clock and the id counters are kept |
| GroupChat.FindGroupUser | src/group-chat/group-chat.service.ts:417-421 | getGroupUser: an active row of the user in the group, None exactly when there is none |
| GroupChat.RowIndex | src/group-chat/group-chat.service.ts:424-435 | the row `find` picks among the fetched rows, deleted or not, None exactly when there is none |
| GroupChat.ReaderAnchors | src/group-chat/group-chat.service.ts:63-67 | the rows the group listing joins for the reader: empty exactly when the reader has no active row; each entry is the anchor of an active row, and every such row's anchor is there |
| GroupChat.UniqueKeyOneAnchor | src/group-chat/entities/groupUsers.entity.ts:16 | under UNIQUE(groupId, contactId) the group listing joins at most one row, so no message is listed twice |
| GroupChat.EarliestActive | src/group-chat/group-chat.service.ts:491-494 | remainingUsers[0]: an active row of the group with the least createdAt, None exactly when none is active |
| GroupChat.AdminGoneAfterDeparture | src/group-chat/group-chat.service.ts:506-508 | after leaveGroup/kickUser cleared the flag, the unique key leaves isAdminGone always true |
| GroupChat.SetLastRead | src/group-chat/group-chat.service.ts:586-609 | readMessage: every row of (group, user) takes the order; no other row changes |
| GroupChat.Newcomers | src/group-chat/group-chat.service.ts:434-444 | the listed users without a row in the group, repeats kept: exactly those get new rows |
| GroupChat.NewcomersCount | src/group-chat/group-chat.service.ts:434-444 | a listed user without a row in the group is a newcomer exactly as many times as listed; a user with a row never is |
| GroupChat.NewcomersDistinct | src/group-chat/group-chat.service.ts:434-446 | the new rows keep the (groupId, contactId) key unique exactly when no user without a row is listed twice |
| GroupChat.InitialRows | src/group-chat/group-chat.service.ts:522-541 | the creator's row first and then one row per listed user; the creator's row is the only admin row |
| GroupChat.AppendKeepsUnique | src/group-chat/entities/groupUsers.entity.ts:16 | appending rows for distinct users without a row in the group keeps UNIQUE(groupId, contactId) |
| GroupChat.InitialRowsUnique | src/group-chat/group-chat.service.ts:522-541 | creation keeps the unique key when the creator is not listed, no user is listed twice and the new id has no rows |
| GroupChat.SetLastReadKeeps | src/group-chat/group-chat.service.ts:586-609 | moving read markers keeps the unique key and every row's timestamps |
| GroupChat.MembersWithoutGroup | src/group-chat/group-chat.service.ts:498 | deleting the group's rows keeps every other row and the unique key |
| GroupChat.CleanedUp | src/group-chat/group-chat.service.ts:490-512 | after a departure: when none is active, every row of the group goes and every row of other groups stays; otherwise the earliest active row becomes admin and no other row changes |
| GroupChat.PromotionCanMakeTwoAdmins | src/group-chat/group-chat.service.ts:506-511 | promotion ignores a sitting admin. The creator leaves and the next member is promoted. The creator is added back and a third member leaves. The creator is then promoted too, leaving two active admins |
| GroupChat.StaleUnreadAfterRejoin | src/group-chat/group-chat.service.ts:445-452 | a member added back keeps their old marker, so warm counts unread messages that their listing window hides |
| GroupChat.HiddenAfterRejoin | src/group-chat/group-chat.service.ts:53-97 | for a member added back after the last message, every page with a positive limit of their group listing is empty |
| GroupChat.StaleUnreadExample | src/group-chat/group-chat.service.ts:445-452 | a concrete instance: an unread count of 2 and an empty listing |
| GroupChat.RowPreviews | src/group-chat/group-chat.service.ts:102-113 | the LEFT JOIN for one row: a single row with NULL message columns when the `>` window is empty, otherwise exactly the messages with the window's maximum order |
| GroupChat.RowPreviewsNewest | src/group-chat/group-chat.service.ts:102-113 | under the order invariant a non-empty window gives the row exactly one preview, built from the single newest message |
| GroupChat.RoomLastMessages | src/group-chat/group-chat.service.ts:99-131 | the group room list: ordered by message time descending with message-less rows last. Every row belongs to an active row of the user. Every active row contributes its empty row or all of its joined messages |
| GroupChat.AddStepGrow | src/group-chat/group-chat.service.ts:434-453 | a row's reactivation step stays valid as the loop moves on to the next user |
| GroupChat.ReactivateOne | src/group-chat/group-chat.service.ts:435-452 | one pass of the loop for one user. A deleted row is reactivated; its leaveType, kickedBy and leftAt become NULL, it gets a fresh rejoinedAt and keeps its marker. A user with no row is reported new |
| GroupChat.ReactivateListed | src/group-chat/group-chat.service.ts:434-453 | the whole loop: each row takes its reactivation step for the listed users, and the newcomers are collected |
| GroupChat.GroupChatService.CreateGroupRoom | src/group-chat/group-chat.service.ts:227-242 | any unknown user gives NotFound with nothing created. Otherwise a fresh group row is inserted and the initial rows are saved when the unique key allows. When it does not, QueryFailed, with the group row left behind and no member row |
| GroupChat.GroupChatService.AddUsersToGroup | src/group-chat/group-chat.service.ts:423-461 | an empty list gives QueryFailed (the empty `IN ()`). A newcomer listed twice gives QueryFailed and nothing is saved. Otherwise deleted rows of listed users are reactivated with their marker kept, new non-admin rows are appended for the newcomers, and no other row changes |
| GroupChat.GroupChatService.HandlePostLeaveCleanup | src/group-chat/group-chat.service.ts:490-512 | with no active row, the group's messages, rows and group row are deleted. Otherwise, when the leaver holds no admin row, the earliest active row becomes admin |
| GroupChat.GroupChatService.Depart | src/group-chat/group-chat.service.ts:463-488 | no active row gives NotFound. Otherwise the row is marked departed (not admin, deleted, leaveType, kickedBy, leftAt; rejoinedAt kept) and the cleanup outcome follows |
| GroupChat.GroupChatService.LeaveGroup | src/group-chat/group-chat.service.ts:463-474 | SELF departure, kickedBy untouched; NotFound leaves everything unchanged; otherwise the members are the cleaned-up rows, the group's messages and group row are deleted exactly when no active row remains and kept otherwise, and the id counters are kept |
| GroupChat.GroupChatService.KickUser | src/group-chat/group-chat.service.ts:476-488 | KICK departure recording the admin in kickedBy; NotFound leaves everything unchanged; otherwise the members are the cleaned-up rows, the group's messages and group row are deleted exactly when no active row remains and kept otherwise, and the id counters are kept |
| GroupChat.GroupChatService.InsertMessage | src/group-chat/group-chat.service.ts:260-266 | the saved message gets the next id, order MAX + 1 and a fresh clock reading; no row and no group changes |
| GroupChat.GroupChatService.SendMessage | src/group-chat/group-chat.service.ts:244-282 | a missing group gives NotFound with nothing changed. Otherwise the sender's rows take order MAX + 1 and the message is stored with it; no row is reactivated; the message id counter advances by one and the group counter is kept. Image and card sends (283-365) are the same step |
| GroupChat.GroupChatService.WarmUnread | src/group-chat/group-chat.service.ts:133-171 | the group cache is warmed with the query's rows, which name distinct groups, so the cached total always equals the sum of the fields |
| GroupChat.WarmRowsDistinct | src/group-chat/entities/groupUsers.entity.ts:16 | the (groupId, contactId) unique key makes the warm rows of a user name distinct groups |
| GroupChat.GroupChatService.UpdateReadLastMessage | src/group-chat/group-chat.service.ts:560-571 | a missing group gives NotFound with nothing changed. Otherwise the user's marker becomes the group's maximum, and in the cache only the user's field for the group and the user's total change (a positive field is zeroed and subtracted); every other user's cache, the clock and the id counters are kept |
| Guards.GroupGuard | src/group-chat/group-chat.guard.ts:25-52 | Forbidden without an active row, or when the route needs an admin and the row is not one. Under the unique key it passes exactly when an active row (an admin row when required) exists. The payload copies that row's admin flag and rejoinedAt, with isDeleted false |
| Guards.PrivateGuard | src/private-chat/private-chat.guard.ts:21-38 | passes exactly when the caller has an active row in the room, otherwise Forbidden; the payload carries that row's rejoinedAt and isDeleted false |
| Guards.DepartedMemberIsForbidden | src/group-chat/group-chat.service.ts:463-512 | after leaving or being kicked, whatever the cleanup did, the member fails the group guard |
| Guards.LeaverPassesOnlyWithAnotherRow | src/private-chat/private-chat.service.ts:619-639 | after leaving a private room, the user still passes the guard exactly when another active row of theirs remains; nobody passes once the room is deleted |
| RoomPath.BeforeQuery | src/utils/parseRoomFromPath.ts:8 | `path.split('?')[0]`: a prefix of the path without '?', ended by the first '?' if there is one |
| RoomPath.ParseRoomFromPath | src/utils/parseRoomFromPath.ts:1-17 | the empty path names no room; kind and roomId are present together; a group comes from a path starting `/group-chat/` and a private room from one starting `/private-chat/` |
| RoomPath.ParseShaped | src/utils/parseRoomFromPath.ts:1-17 | `/group-chat/<digits>` and `/private-chat/<digits>`, optionally followed by a query string, name that room with the digits' value |
| RoomPath.ParseSound | src/utils/parseRoomFromPath.ts:1-17 | a recognised room always comes from a path of exactly that shape, and its id is the digits' value; kind and id are absent together |
| RoomPath.QueryIgnored | src/utils/parseRoomFromPath.ts:8 | anything after the first '?' does not change the result |
| RoomPath.Decimal | src/utils/parseRoomFromPath.ts:11 | decimal digits whose `Number(...)` is n |
| RoomPath.RoomIdRoundTrip | src/utils/parseRoomFromPath.ts:1-17 | a room id written into a page path is read back with its kind |
| Notice.ShopOf | src/notice/notice.service.ts:19 | `userId.slice(0, 5)`: the first five characters, or all of a shorter id |
| Notice.Matching | src/notice/notice.service.ts:23-41 | sorted by updatedAt descending. It holds exactly the notices for the user's plant/shop or for everyone, with useYN 'Y', not yet ended, and titles containing a non-blank keyword |
| Notice.TotalPages | src/notice/notice.service.ts:52 | `ceil(total / pageSize)`: the least page count covering the total, 0 for pageSize <= 0 |
| Notice.MatchingIsPermutation | src/notice/notice.service.ts:23-41 | the matching notices are the visible ones, each as often as it is stored, and nothing else |
| Notice.PageOf | src/notice/notice.service.ts:20-60 | fails exactly for a negative pageSize or page < 1 with a positive pageSize. Otherwise page and pageSize are echoed, totalPages is `ceil(total / pageSize)`, hasNext is `page * pageSize < total`. The items are the LIMIT/OFFSET window of the rows; a positive pageSize gives exactly `max(0, min(pageSize, total - (page-1)*pageSize))` items, pageSize 0 gives all. A descending input gives a descending page |
| Notice.GetNoticeList | src/notice/notice.service.ts:13-61 | fails exactly for a negative pageSize or page < 1 with a positive pageSize. Otherwise page and pageSize are echoed, totalPages and hasNext are computed from the number of matching notices, and a positive pageSize gives exactly `max(0, min(pageSize, total - (page-1)*pageSize))` items |
| Notice.NoticeListVisible | src/notice/notice.service.ts:13-61 | every item of a page is a notice the user may see, and the page is ordered newest update first |
| Notice.HasNextIffBeforeLastPage | src/notice/notice.service.ts:52-59 | `hasNext` (`page * pageSize < total`) holds exactly when page < totalPages |
| Notice.PageHoldsItsPositions | src/notice/notice.service.ts:20-43 | item m of page p is the matching notice at position (p-1)*pageSize + m |
| Notice.ClampPage | src/notice/notice.controller.ts:21 | `Number(page) \|\| 1`: never 0; NaN and 0 become 1; any other value passes, negative ones too |
| Notice.ClampPageSize | src/notice/notice.controller.ts:22 | always within 1..100: NaN and 0 become 20, values below 1 become 1, values above 100 become 100, the rest pass |
| Notice.List | src/notice/notice.controller.ts:15-24 | the endpoint fails exactly for a negative page number; otherwise at most 100 items, and hasNext holds exactly before the last page |

## Left out

- Transport is not modelled: HTTP controllers other than the notice list, the socket gateway, `emitToUser`, the Redis pipelines' failure modes, and the `success`/response shapes.
- Concurrency is not modelled. Each service method is one atomic step, so two sends racing for the same `MAX + 1`, or a warm racing an increment, are outside the model.
- Clock precision is not modelled. Time is an abstract counter. `rejoinedAt`/`leftAt` are second-precision `timestamp` columns while `createdAt` has microseconds, so a message sent in the same second as a rejoin can fall on either side of the window in the real system.
- Image storage is not modelled: `saveImage`, the file names and the image endpoint's write to disk. The image endpoints are the same state step as a text send.
- Card payloads are stored as given. The DTO validation of a card is not modelled.
- `roomUsers`, `getRoomNotification`, `updateRoomNotification`, `isRoomExists`, `getLastReadMessage`, `findRoomId`, `getRoomInfo`, `noticeDetail` and the group `getRoomUsers` are not part of the core modelled here.
- User records are a set of ids (`findById`). The room list's join with `users` is a name map, and `senderName`/`isMe` columns are left out.
- MySQL collation is not modelled. Comparisons and `LIKE` are exact and case-sensitive, `%`/`_` inside a keyword are literal characters, and `useYN = 'Y'` does not also match `'y'`.
- JavaScript numbers are integers. NaN only appears in the notice controller (`JsNumber`), route parameters are already converted (`+request.params.roomId`), and `Number(...)` of a long digit string loses no precision.
- The service's default arguments `page = 1`, `pageSize = 20` are not modelled; the controller always passes both.
- PrivateChat.RoomIfExistsAsWritten: the scalar sub-query fails whenever the friend has more than one membership row, including two rows in one self-room. MySQL may evaluate the sub-query lazily and not fail on an empty user side; that evaluation order is not modelled.
- RoomPath.ParseRoomFromPath: `Number` of a digit string is its exact value, so ids beyond 2^53 are not rounded.
- EarliestActive: `ORDER BY createdAt ASC` leaves ties open; the model takes the first tied row in table order. Rows created together share one createdAt.
- The private room list's inner join with another member yields one preview per other member; a room opened with oneself yields none. Both cases follow from the join as modelled, and no separate lemma states them.
- Unread counts in Redis are unbounded integers; `Number(...)` of a missing field is 0.

## Findings

| source | as written | input that shows it | evidently intended | confidence | as-written member | corrected member |
|---|---|---|---|---|---|---|
| src/private-chat/private-chat.service.ts:480-487 | `pcu1.roomId = (SELECT pcu2.roomId … WHERE contactId = friend)` is a scalar sub-query; MySQL rejects it (error 1242) once the friend has more than one membership row, so createOrGetPrivateRoom fails for any friend who chats with two people or once opened a room with themself | user "a" and friend "b" share room 1, and "b" also shares room 2 with "c" | find a room where both users have a row (`IN`, or a join) | medium, not executed | PrivateChat.RoomIfExistsAsWritten (counterexamples PrivateChat.LookupFailsForFriendWithTwoRooms, PrivateChat.LookupFailsForSelfRoomFriend) | PrivateChat.SharedRoom (PrivateChat.AsWrittenAgreesWithOneFriendRow), used by PrivateChat.PrivateChatService.CreateOrGetPrivateRoomCorrected |

=== FILE: common.dfy ===
/**
  Shared vocabulary of the chat backend model: optional values, the error
  kinds the services raise, the row window that MySQL's LIMIT/OFFSET clause
  selects, a descending sort standing for ORDER BY ... DESC, and the substring
  test that a LIKE '%keyword%' filter performs.
 */
module Common {

  datatype Option<T> = None | Some(value: T)

  /** NotFound and Forbidden are the framework exceptions the services throw;
      QueryFailed is a statement the database rejects. */
  datatype Error = NotFound | Forbidden | QueryFailed

  datatype Result<T> = Ok(value: T) | Err(error: Error)

  /** Outcome of an operation that returns nothing on success. */
  datatype Outcome = Done | Fail(error: Error)

  type UserId = string
  type RoomId = int
  /** Readings of the abstract clock that replaces `new Date()` and NOW(). */
  type Time = nat

  function Min(a: int, b: int): int { if a <= b then a else b }
  function Max(a: int, b: int): int { if a >= b then a else b }

  // ---------------------------------------------------------------------------
  // LIMIT / OFFSET

  /** The rows that `... LIMIT limit OFFSET offset` keeps of `s`, as the query
      builder emits the clause for MySQL: no clause at all when both numbers
      are 0, a refused query for an OFFSET without a LIMIT, and a statement
      the database refuses when either number is negative. */
  function SqlWindow<T>(s: seq<T>, offset: int, limit: int): (r: Result<seq<T>>)
    ensures r.Err? <==> limit < 0 || (limit == 0 && offset != 0) || (limit > 0 && offset < 0)
    ensures r.Err? ==> r.error == QueryFailed
    ensures r.Ok? && limit == 0 ==> r.value == s
    ensures r.Ok? && limit > 0 ==>
      |r.value| == Max(0, Min(limit, |s| - offset)) &&
      forall i :: 0 <= i < |r.value| ==> r.value[i] == s[offset + i]
  {
    if limit < 0 then Err(QueryFailed)
    else if limit == 0 then (if offset == 0 then Ok(s) else Err(QueryFailed))
    else if offset < 0 then Err(QueryFailed)
    else if offset >= |s| then Ok([])
    else Ok(s[offset..Min(offset + limit, |s|)])
  }

  /** A window of a sequence keeps its elements and its order. */
  lemma SqlWindowKeepsOrder<T>(s: seq<T>, offset: int, limit: int, key: T -> int)
    ensures var r := SqlWindow(s, offset, limit);
      r.Ok? ==> (forall i :: 0 <= i < |r.value| ==> r.value[i] in s) &&
                (SortedDesc(s, key) ==> SortedDesc(r.value, key))
  {
    var r := SqlWindow(s, offset, limit);
    if r.Ok? && limit > 0 && SortedDesc(s, key) {
      forall i, j | 0 <= i < j < |r.value| ensures key(r.value[i]) >= key(r.value[j]) {
        assert r.value[i] == s[offset + i] && r.value[j] == s[offset + j];
      }
    }
  }

  // ---------------------------------------------------------------------------
  // WHERE

  /** The elements of `s` that satisfy `p`, in their original order. */
  function Filter<T(!new)>(s: seq<T>, p: T -> bool): (r: seq<T>)
    ensures |r| <= |s|
    ensures forall i :: 0 <= i < |r| ==> r[i] in s && p(r[i])
    ensures forall i :: 0 <= i < |s| && p(s[i]) ==> s[i] in r
    ensures forall x :: multiset(r)[x] == if p(x) then multiset(s)[x] else 0
  {
    if s == [] then []
    else
      var rest := Filter(s[..|s| - 1], p);
      assert s == s[..|s| - 1] + [s[|s| - 1]];
      if p(s[|s| - 1]) then rest + [s[|s| - 1]] else rest
  }

  /** COUNT(*) of the elements of `s` that satisfy `p`: as many as Filter
      keeps, and none exactly when no element qualifies. */
  function Count<T(!new)>(s: seq<T>, p: T -> bool): (n: nat)
    ensures n == |Filter(s, p)|
    ensures n == 0 <==> forall i :: 0 <= i < |s| ==> !p(s[i])
  {
    if s == [] then 0
    else
      var prev := s[..|s| - 1];
      assert forall i :: 0 <= i < |prev| ==> prev[i] == s[i];
      Count(prev, p) + (if p(s[|s| - 1]) then 1 else 0)
  }

  // ---------------------------------------------------------------------------
  // ORDER BY key DESC

  ghost predicate SortedDesc<T>(s: seq<T>, key: T -> int) {
    forall i, j :: 0 <= i < j < |s| ==> key(s[i]) >= key(s[j])
  }

  /** Inserts `x` into a descending sequence, after every element whose key
      is at least key(x). */
  function InsertDesc<T>(x: T, s: seq<T>, key: T -> int): (r: seq<T>)
    requires SortedDesc(s, key)
    ensures SortedDesc(r, key)
    ensures multiset(r) == multiset(s) + multiset{x}
    ensures |r| == |s| + 1
  {
    if s == [] then [x]
    else if key(s[0]) >= key(x) then
      var rest := InsertDesc(x, s[1..], key);
      assert s == [s[0]] + s[1..];
      HeadBoundsInsert(x, s, rest, key);
      ConsSorted(s[0], rest, key);
      [s[0]] + rest
    else
      assert s == [s[0]] + s[1..];
      ConsSorted(x, s, key);
      [x] + s
  }

  /** Every row of a descending sequence with `x` inserted after its head has
      a key no greater than the head's. */
  lemma HeadBoundsInsert<T>(x: T, s: seq<T>, rest: seq<T>, key: T -> int)
    requires SortedDesc(s, key) && s != [] && key(s[0]) >= key(x)
    requires multiset(rest) == multiset(s[1..]) + multiset{x}
    ensures forall i :: 0 <= i < |rest| ==> key(rest[i]) <= key(s[0])
  {
    forall i | 0 <= i < |rest| ensures key(rest[i]) <= key(s[0]) {
      var y := rest[i];
      assert y in multiset(rest);
      if y != x {
        assert y in multiset(s[1..]);
        var k :| 0 <= k < |s[1..]| && s[1..][k] == y;
        assert s[k + 1] == y;
      }
    }
  }

  lemma ConsSorted<T>(a: T, rest: seq<T>, key: T -> int)
    requires SortedDesc(rest, key)
    requires forall i :: 0 <= i < |rest| ==> key(rest[i]) <= key(a)
    ensures SortedDesc([a] + rest, key)
  {
    var r := [a] + rest;
    forall i, j | 0 <= i < j < |r| ensures key(r[i]) >= key(r[j]) {
      assert r[j] == rest[j - 1];
      if i > 0 {
        assert r[i] == rest[i - 1];
      }
    }
  }

  /** The rows of `s` in descending order of `key`; rows with equal keys may
      come in any order, as ORDER BY leaves them. */
  function SortDesc<T>(s: seq<T>, key: T -> int): (r: seq<T>)
    ensures SortedDesc(r, key)
    ensures multiset(r) == multiset(s)
    ensures |r| == |s|
  {
    if s == [] then []
    else
      assert s == [s[0]] + s[1..];
      InsertDesc(s[0], SortDesc(s[1..], key), key)
  }

  lemma SortDescElements<T>(s: seq<T>, key: T -> int, x: T)
    ensures x in SortDesc(s, key) <==> x in s
  {
    var r := SortDesc(s, key);
    assert x in r <==> x in multiset(r);
    assert x in s <==> x in multiset(s);
  }

  // ---------------------------------------------------------------------------
  // LIKE '%needle%'

  /** `needle` occurs somewhere in `hay` as a contiguous piece. */
  function IsInfix(needle: string, hay: string): (b: bool)
    decreases |hay|
  {
    if needle <= hay then true
    else if hay == [] then false
    else IsInfix(needle, hay[1..])
  }

  /** `needle` starts at position `i` of `hay`. */
  predicate OccursAt(needle: string, hay: string, i: int) {
    0 <= i <= |hay| - |needle| && hay[i..i + |needle|] == needle
  }

  /** IsInfix is exactly the existence of a position where `needle` starts. */
  lemma {:induction false} IsInfixIff(needle: string, hay: string)
    ensures IsInfix(needle, hay) <==> exists i :: OccursAt(needle, hay, i)
    decreases |hay|
  {
    if needle <= hay {
      assert OccursAt(needle, hay, 0);
    } else if hay == [] {
    } else {
      IsInfixIff(needle, hay[1..]);
      if IsInfix(needle, hay[1..]) {
        var i :| OccursAt(needle, hay[1..], i);
        assert hay[1..][i..i + |needle|] == hay[i + 1..i + 1 + |needle|];
        assert OccursAt(needle, hay, i + 1);
      } else {
        assert OccursAt(needle, hay, 0) ==> needle <= hay;
        forall i | OccursAt(needle, hay, i) && i > 0
          ensures OccursAt(needle, hay[1..], i - 1)
        {
          assert hay[1..][i - 1..i - 1 + |needle|] == hay[i..i + |needle|];
        }
      }
    }
  }
}

=== FILE: group_chat.dfy ===
/**
  The group chat service: the groups table, the membership table
  group_users (unique on (groupId, contactId), soft-deleted on leave or kick,
  with an admin flag) and the message table, with the operations that
  create groups, add, remove and promote members, send, read and list.
  Each service method body is one atomic step over the tables.
 */
module GroupChat {
  import opened Common
  import opened Messages
  import opened Unread

  datatype LeaveType = SelfLeave | Kick

  /** A group_users row. */
  datatype GroupMember = GroupMember(groupId: RoomId, contactId: UserId, isAdmin: bool, createdAt: Time,
                                     isDeleted: bool, leaveType: Option<LeaveType>, kickedBy: Option<UserId>,
                                     leftAt: Option<Time>, rejoinedAt: Option<Time>, lastRead: int,
                                     allowNotification: bool)

  /** A row as inserted with only groupId, contactId and isAdmin given: the
      column defaults isDeleted = false, lastReadMessageOrder = 0,
      allowNotification = 1, the nullable columns NULL. */
  function NewGroupMember(g: RoomId, u: UserId, isAdmin: bool, now: Time): GroupMember {
    GroupMember(g, u, isAdmin, now, false, None, None, None, None, 0, true)
  }

  predicate IsRowOf(m: GroupMember, g: RoomId, u: UserId) {
    m.groupId == g && m.contactId == u
  }

  predicate ActiveRowOf(m: GroupMember, g: RoomId, u: UserId) {
    IsRowOf(m, g, u) && !m.isDeleted
  }

  predicate ActiveIn(m: GroupMember, g: RoomId) {
    m.groupId == g && !m.isDeleted
  }

  function AnchorOf(m: GroupMember): Time {
    Anchor(m.createdAt, m.rejoinedAt)
  }

  /** The row's timestamps are clock readings already handed out. */
  predicate Stamped(m: GroupMember, clock: Time) {
    m.createdAt <= clock && (m.rejoinedAt.Some? ==> m.rejoinedAt.value <= clock)
  }

  /** The UNIQUE (groupId, contactId) constraint. */
  predicate UniqueKey(rows: seq<GroupMember>) {
    forall i, j :: 0 <= i < j < |rows| ==>
      !(rows[i].groupId == rows[j].groupId && rows[i].contactId == rows[j].contactId)
  }

  predicate Distinct(us: seq<UserId>) {
    forall i, j :: 0 <= i < j < |us| ==> us[i] != us[j]
  }

  // ---------------------------------------------------------------------------
  // Lookups

  /** getGroupUser: the first active row of `u` in group `g` (its index). */
  function FindGroupUser(members: seq<GroupMember>, g: RoomId, u: UserId): (r: Option<nat>)
    ensures r.None? <==> forall i :: 0 <= i < |members| ==> !ActiveRowOf(members[i], g, u)
    ensures r.Some? ==> r.value < |members| && ActiveRowOf(members[r.value], g, u)
  {
    if members == [] then None
    else
      var prev := members[..|members| - 1];
      assert forall i :: 0 <= i < |prev| ==> prev[i] == members[i];
      var found := FindGroupUser(prev, g, u);
      if found.Some? then found
      else if ActiveRowOf(members[|members| - 1], g, u) then Some(|members| - 1)
      else None
  }

  /** The first row of `u` in group `g`, deleted or not (the `find` over the
      rows addUsersToGroup fetched). */
  function RowIndex(members: seq<GroupMember>, g: RoomId, u: UserId): (r: Option<nat>)
    ensures r.None? <==> forall i :: 0 <= i < |members| ==> !IsRowOf(members[i], g, u)
    ensures r.Some? ==> r.value < |members| && IsRowOf(members[r.value], g, u)
  {
    if members == [] then None
    else
      var prev := members[..|members| - 1];
      assert forall i :: 0 <= i < |prev| ==> prev[i] == members[i];
      var found := RowIndex(prev, g, u);
      if found.Some? then found
      else if IsRowOf(members[|members| - 1], g, u) then Some(|members| - 1)
      else None
  }

  /** The rows the group listing LEFT JOINs for reader `u`: the anchor of
      every active row of `u` in `g`, one per row. No row
      means the join yields NULL and no message passes. */
  function ReaderAnchors(members: seq<GroupMember>, g: RoomId, u: UserId): (r: seq<Time>)
    ensures |r| <= |members|
    ensures r == [] <==> FindGroupUser(members, g, u).None?
    ensures forall k :: 0 <= k < |r| ==>
      exists i :: 0 <= i < |members| && ActiveRowOf(members[i], g, u) && r[k] == AnchorOf(members[i])
    ensures forall i :: 0 <= i < |members| && ActiveRowOf(members[i], g, u) ==> AnchorOf(members[i]) in r
  {
    if members == [] then []
    else
      var prev := members[..|members| - 1];
      var last := members[|members| - 1];
      assert forall i :: 0 <= i < |prev| ==> prev[i] == members[i];
      var rest := ReaderAnchors(prev, g, u);
      if ActiveRowOf(last, g, u) then rest + [AnchorOf(last)] else rest
  }

  /** Under the unique key a reader joins at most one row, so the group
      listing shows each message at most once. */
  lemma {:induction false} UniqueKeyOneAnchor(members: seq<GroupMember>, g: RoomId, u: UserId)
    requires UniqueKey(members)
    ensures |ReaderAnchors(members, g, u)| <= 1
  {
    if members != [] {
      var prev := members[..|members| - 1];
      var last := members[|members| - 1];
      assert forall i :: 0 <= i < |prev| ==> prev[i] == members[i];
      UniqueKeyOneAnchor(prev, g, u);
      if ActiveRowOf(last, g, u) {
        assert forall i :: 0 <= i < |prev| ==> !ActiveRowOf(prev[i], g, u) by {
          forall i | 0 <= i < |prev| ensures !ActiveRowOf(prev[i], g, u) {
            assert !(members[i].groupId == members[|members| - 1].groupId &&
                     members[i].contactId == members[|members| - 1].contactId);
          }
        }
      }
    }
  }

  /** remainingUsers[0] of handlePostLeaveCleanup: an active row of the group
      with the earliest createdAt (ORDER BY createdAt ASC leaves ties open;
      the model takes the first in table order). */
  function EarliestActive(members: seq<GroupMember>, g: RoomId): (r: Option<nat>)
    ensures r.None? <==> forall i :: 0 <= i < |members| ==> !ActiveIn(members[i], g)
    ensures r.Some? ==> r.value < |members| && ActiveIn(members[r.value], g)
    ensures r.Some? ==> forall i :: 0 <= i < |members| && ActiveIn(members[i], g) ==>
      members[r.value].createdAt <= members[i].createdAt
  {
    if members == [] then None
    else
      var prev := members[..|members| - 1];
      var last := members[|members| - 1];
      assert forall i :: 0 <= i < |prev| ==> prev[i] == members[i];
      var best := EarliestActive(prev, g);
      if !ActiveIn(last, g) then best
      else if best.None? || last.createdAt < members[best.value].createdAt then Some(|members| - 1)
      else best
  }

  /** isAdminGone: no row of `u` in `g` has isAdmin set. */
  predicate AdminGone(members: seq<GroupMember>, g: RoomId, u: UserId) {
    forall i :: 0 <= i < |members| && IsRowOf(members[i], g, u) ==> !members[i].isAdmin
  }

  /** leaveGroup and kickUser clear the leaver's isAdmin before
      handlePostLeaveCleanup asks whether the leaver is still an admin, and the
      unique key leaves the leaver no other row: the answer is always "gone". */
  lemma AdminGoneAfterDeparture(members: seq<GroupMember>, k: nat)
    requires UniqueKey(members) && k < |members| && !members[k].isAdmin
    ensures AdminGone(members, members[k].groupId, members[k].contactId)
  {
  }

  // ---------------------------------------------------------------------------
  // Row updates

  /** readMessage: every row of (g, u), deleted or not, takes exactly
      `order`; no other row changes. */
  function SetLastRead(members: seq<GroupMember>, g: RoomId, u: UserId, order: int): (r: seq<GroupMember>)
    ensures |r| == |members|
    ensures forall i :: 0 <= i < |r| && IsRowOf(members[i], g, u) ==> r[i] == members[i].(lastRead := order)
    ensures forall i :: 0 <= i < |r| && !IsRowOf(members[i], g, u) ==> r[i] == members[i]
  {
    if members == [] then []
    else
      var prev := members[..|members| - 1];
      var last := members[|members| - 1];
      SetLastRead(prev, g, u, order) + [if IsRowOf(last, g, u) then last.(lastRead := order) else last]
  }

  /** Moving read markers changes neither the keys nor the timestamps. */
  lemma SetLastReadKeeps(members: seq<GroupMember>, g: RoomId, u: UserId, order: int, clock: Time)
    requires UniqueKey(members) && forall i :: 0 <= i < |members| ==> Stamped(members[i], clock)
    ensures var r := SetLastRead(members, g, u, order);
      UniqueKey(r) && forall i :: 0 <= i < |r| ==> Stamped(r[i], clock)
  {
    var r := SetLastRead(members, g, u, order);
    assert forall i :: 0 <= i < |r| ==> (r[i].groupId == members[i].groupId && r[i].contactId == members[i].contactId &&
      r[i].createdAt == members[i].createdAt && r[i].rejoinedAt == members[i].rejoinedAt);
  }

  /** The row leaveGroup (SELF) or kickUser (KICK, kickedBy = the admin)
      saves: isAdmin = false, isDeleted = true, leftAt = now. rejoinedAt is
      left as it was. */
  function Departed(m: GroupMember, how: LeaveType, kickedBy: Option<UserId>, now: Time): GroupMember {
    m.(isAdmin := false, isDeleted := true, leaveType := Some(how), kickedBy := kickedBy, leftAt := Some(now))
  }

  /** One row across addUsersToGroup: a deleted row of a listed user is
      reactivated (isDeleted = false, leaveType, kickedBy and leftAt NULL,
      rejoinedAt = a clock reading taken during the call) and keeps its
      lastReadMessageOrder; every other row is unchanged. */
  predicate AddStep(before: GroupMember, after: GroupMember, g: RoomId, us: seq<UserId>, t0: Time, t1: Time) {
    if before.groupId == g && before.contactId in us && before.isDeleted then
      && after.rejoinedAt.Some? && t0 < after.rejoinedAt.value <= t1
      && after == before.(isDeleted := false, leaveType := None, kickedBy := None, leftAt := None,
                          rejoinedAt := after.rejoinedAt)
    else after == before
  }

  /** The listed users without any row in the group, in list order and with
      repeats kept: the rows addUsersToGroup creates. */
  function Newcomers(members: seq<GroupMember>, g: RoomId, us: seq<UserId>): (r: seq<UserId>)
    ensures forall k :: 0 <= k < |r| ==> r[k] in us && RowIndex(members, g, r[k]).None?
    ensures forall k :: 0 <= k < |us| && RowIndex(members, g, us[k]).None? ==> us[k] in r
  {
    if us == [] then []
    else
      var prev := us[..|us| - 1];
      var last := us[|us| - 1];
      assert forall k :: 0 <= k < |prev| ==> prev[k] == us[k];
      Newcomers(members, g, prev) + (if RowIndex(members, g, last).None? then [last] else [])
  }

  /** Repeats are kept: each user without a row occurs among the newcomers
      as often as in the list, a user with a row never. */
  lemma {:induction false} NewcomersCount(members: seq<GroupMember>, g: RoomId, us: seq<UserId>)
    ensures forall v :: (multiset(Newcomers(members, g, us))[v] ==
                         if RowIndex(members, g, v).None? then multiset(us)[v] else 0)
  {
    if us != [] {
      var prev := us[..|us| - 1];
      assert us == prev + [us[|us| - 1]];
      NewcomersCount(members, g, prev);
    }
  }

  /** The one save of addUsersToGroup breaks UNIQUE(groupId, contactId)
      exactly when some user without a row in the group is listed more than
      once. */
  lemma NewcomersDistinct(members: seq<GroupMember>, g: RoomId, us: seq<UserId>)
    ensures Distinct(Newcomers(members, g, us)) <==>
      forall v :: RowIndex(members, g, v).None? ==> multiset(us)[v] <= 1
  {
    NewcomersCount(members, g, us);
    DistinctIffOnce(Newcomers(members, g, us));
  }

  /** No user repeats exactly when each occurs at most once. */
  lemma {:induction false} DistinctIffOnce(s: seq<UserId>)
    ensures Distinct(s) <==> forall v :: multiset(s)[v] <= 1
  {
    if s != [] {
      var prev := s[..|s| - 1];
      var x := s[|s| - 1];
      assert s == prev + [x];
      DistinctIffOnce(prev);
      assert forall v :: multiset(s)[v] == multiset(prev)[v] + (if v == x then 1 else 0);
      if Distinct(s) {
        forall i | 0 <= i < |prev| ensures prev[i] != x {
          assert prev[i] == s[i];
        }
        assert Distinct(prev) by {
          forall i, j | 0 <= i < j < |prev| ensures prev[i] != prev[j] {
            assert prev[i] == s[i] && prev[j] == s[j];
          }
        }
        assert multiset(prev)[x] == 0;
      }
      if forall v :: multiset(s)[v] <= 1 {
        assert forall v :: multiset(prev)[v] <= 1;
        assert multiset(prev)[x] == 0;
        forall i, j | 0 <= i < j < |s| ensures s[i] != s[j] {
          assert s[i] == prev[i];
          if j < |prev| {
            assert s[j] == prev[j];
          }
        }
      }
    }
  }

  /** Non-admin rows with the column defaults for each listed user. */
  function NewRows(us: seq<UserId>, g: RoomId, now: Time): (r: seq<GroupMember>)
    ensures |r| == |us|
    ensures forall k :: 0 <= k < |r| ==> r[k] == NewGroupMember(g, us[k], false, now)
  {
    seq(|us|, k requires 0 <= k < |us| => NewGroupMember(g, us[k], false, now))
  }

  /** initializeGroupMembers: the creator's admin row, then a non-admin row
      per listed user, all in one save. The creator's row is the only admin
      row. */
  function InitialRows(g: RoomId, creator: UserId, us: seq<UserId>, now: Time): (r: seq<GroupMember>)
    ensures |r| == |us| + 1
    ensures r[0] == NewGroupMember(g, creator, true, now)
    ensures forall k :: 0 <= k < |us| ==> r[k + 1] == NewGroupMember(g, us[k], false, now)
    ensures forall k :: 0 <= k < |r| ==> (r[k].isAdmin <==> k == 0)
  {
    [NewGroupMember(g, creator, true, now)] + NewRows(us, g, now)
  }

  /** Appending rows for distinct users who have no row in the group keeps
      the unique key. */
  lemma AppendKeepsUnique(rows: seq<GroupMember>, newcomers: seq<GroupMember>, g: RoomId)
    requires UniqueKey(rows) && UniqueKey(newcomers)
    requires forall k :: 0 <= k < |newcomers| ==> newcomers[k].groupId == g
    requires forall k, i :: 0 <= k < |newcomers| && 0 <= i < |rows| ==> !IsRowOf(rows[i], g, newcomers[k].contactId)
    ensures UniqueKey(rows + newcomers)
  {
    var s := rows + newcomers;
    forall i, j | 0 <= i < j < |s| ensures !(s[i].groupId == s[j].groupId && s[i].contactId == s[j].contactId) {
      if j >= |rows| && i < |rows| {
        assert !IsRowOf(rows[i], g, newcomers[j - |rows|].contactId);
      }
    }
  }

  /** A creation with a creator who is not listed, no repeated user and no
      row already in the new group satisfies the unique key. */
  lemma InitialRowsUnique(members: seq<GroupMember>, g: RoomId, creator: UserId, us: seq<UserId>, now: Time)
    requires UniqueKey(members) && Distinct(us) && creator !in us
    requires forall i :: 0 <= i < |members| ==> members[i].groupId != g
    ensures UniqueKey(members + InitialRows(g, creator, us, now))
  {
    var init := InitialRows(g, creator, us, now);
    forall i, j | 0 <= i < j < |init| ensures !(init[i].groupId == init[j].groupId && init[i].contactId == init[j].contactId) {
      if i == 0 {
        assert init[j].contactId == us[j - 1];
      } else {
        assert init[i].contactId == us[i - 1] && init[j].contactId == us[j - 1];
      }
    }
    AppendKeepsUnique(members, init, g);
  }

  /** The rows left once the group's rows are deleted; the unique key
      survives the deletion. */
  function MembersWithoutGroup(members: seq<GroupMember>, g: RoomId): (r: seq<GroupMember>)
    ensures forall i :: 0 <= i < |r| ==> r[i] in members && r[i].groupId != g
    ensures forall i :: 0 <= i < |members| && members[i].groupId != g ==> members[i] in r
    ensures UniqueKey(members) ==> UniqueKey(r)
  {
    if members == [] then []
    else
      var prev := members[..|members| - 1];
      var last := members[|members| - 1];
      assert forall i :: 0 <= i < |prev| ==> prev[i] == members[i];
      var rest := MembersWithoutGroup(prev, g);
      if last.groupId == g then rest
      else
        assert UniqueKey(members) ==> forall i :: 0 <= i < |rest| ==> !IsRowOf(rest[i], last.groupId, last.contactId);
        rest + [last]
  }

  /** The columns the warm query reads. */
  function MarkerOf(m: GroupMember): ReadMarker {
    ReadMarker(m.groupId, m.contactId, m.isDeleted, m.lastRead)
  }

  /** Under UNIQUE(groupId, contactId) the group warm query names each group
      at most once, so the warmed total is the sum of the warmed hash. */
  lemma WarmRowsDistinct(members: seq<GroupMember>, msgs: seq<Message>, u: UserId)
    requires UniqueKey(members)
    ensures DistinctRooms(UnreadRows(Markers(members, MarkerOf), msgs, u))
  {
    var ms := Markers(members, MarkerOf);
    assert forall i, j :: 0 <= i < j < |ms| && ms[i].contactId == ms[j].contactId ==> ms[i].roomId != ms[j].roomId by {
      forall i, j | 0 <= i < j < |ms| && ms[i].contactId == ms[j].contactId ensures ms[i].roomId != ms[j].roomId {
        assert ms[i] == MarkerOf(members[i]) && ms[j] == MarkerOf(members[j]);
      }
    }
    OneRowPerRoomDistinct(ms, msgs, u);
  }

  /** The rows handlePostLeaveCleanup leaves once the departed member is
      known to hold no admin row: none of the group's rows when no active
      row remains, otherwise the earliest active row made admin, whether or
      not another admin is still active. */
  function CleanedUp(left: seq<GroupMember>, g: RoomId): (r: seq<GroupMember>)
    ensures EarliestActive(left, g).None? ==> forall i :: 0 <= i < |r| ==> r[i].groupId != g && r[i] in left
    ensures EarliestActive(left, g).None? ==> forall i :: 0 <= i < |left| && left[i].groupId != g ==> left[i] in r
    ensures EarliestActive(left, g).Some? ==> (
      var e := EarliestActive(left, g).value;
      |r| == |left| && ActiveIn(r[e], g) && r[e].isAdmin &&
      forall i :: 0 <= i < |left| && i != e ==> r[i] == left[i])
  {
    match EarliestActive(left, g)
    case None => MembersWithoutGroup(left, g)
    case Some(e) => left[e := left[e].(isAdmin := true)]
  }

  /** Promotion does not look for a sitting admin: the creator leaves, the
      next member is promoted, the creator is added back (the row keeps its
      original createdAt) and a third member leaves; the creator, first in
      createdAt order again, is promoted too and the group has two active
      admins. */
  lemma PromotionCanMakeTwoAdmins()
    ensures var s0 := InitialRows(1, "a", ["b", "c"], 1);
      var s1 := CleanedUp(s0[0 := Departed(s0[0], SelfLeave, None, 2)], 1);
      var back := s1[0].(isDeleted := false, leaveType := None, kickedBy := None, leftAt := None, rejoinedAt := Some(3));
      var s2 := s1[0 := back];
      var s3 := CleanedUp(s2[2 := Departed(s2[2], SelfLeave, None, 4)], 1);
      && s1[1].isAdmin
      && AddStep(s1[0], s2[0], 1, ["a"], 2, 3)
      && |s3| == 3 && ActiveIn(s3[0], 1) && s3[0].isAdmin && ActiveIn(s3[1], 1) && s3[1].isAdmin
  {
    var s0 := InitialRows(1, "a", ["b", "c"], 1);
    var l1 := s0[0 := Departed(s0[0], SelfLeave, None, 2)];
    assert EarliestActive(l1[..2], 1) == Some(1) by {
      assert l1[..2][..1] == [l1[0]];
      assert l1[..2][..1][..0] == [];
    }
    assert EarliestActive(l1, 1) == Some(1);
    var s1 := CleanedUp(l1, 1);
    var back := s1[0].(isDeleted := false, leaveType := None, kickedBy := None, leftAt := None, rejoinedAt := Some(3));
    var s2 := s1[0 := back];
    var l3 := s2[2 := Departed(s2[2], SelfLeave, None, 4)];
    assert EarliestActive(l3[..2], 1) == Some(0) by {
      assert l3[..2][..1] == [l3[0]];
      assert l3[..2][..1][..0] == [];
    }
    assert EarliestActive(l3, 1) == Some(0);
  }

  /** A group rejoin keeps the old marker, so a member who comes back after
      messages were sent is counted unread for messages their window hides:
      the warm count is positive while the window admits none of them. */
  lemma StaleUnreadAfterRejoin(p: GroupMember, msgs: seq<Message>, keyword: string)
    requires p.rejoinedAt.Some?
    requires forall j :: 0 <= j < |msgs| ==> msgs[j].createdAt <= p.rejoinedAt.value
    requires p.lastRead < MaxOrder(msgs, p.groupId)
    ensures UnreadRowOf(MarkerOf(p), msgs).unread > 0
    ensures forall j :: 0 <= j < |msgs| ==> !Listed(msgs[j], p.groupId, AnchorOf(p), keyword)
  {
  }

  /** ... and every page of the listing that member reads is empty. */
  lemma HiddenAfterRejoin(p: GroupMember, msgs: seq<Message>, keyword: string)
    requires p.rejoinedAt.Some?
    requires forall j :: 0 <= j < |msgs| ==> msgs[j].createdAt <= p.rejoinedAt.value
    ensures forall page, limit :: page >= 1 && limit > 0 ==>
      ListMessages(msgs, p.groupId, ReaderAnchors([p], p.groupId, p.contactId), page, limit, keyword) == Ok([])
  {
    var anchors := ReaderAnchors([p], p.groupId, p.contactId);
    assert forall k :: 0 <= k < |anchors| ==> anchors[k] == AnchorOf(p);
    NothingAfterAnchors(msgs, p.groupId, anchors, keyword);
    forall page, limit | page >= 1 && limit > 0
      ensures ListMessages(msgs, p.groupId, anchors, page, limit, keyword) == Ok([])
    {
      var r := ListMessages(msgs, p.groupId, anchors, page, limit, keyword);
      assert r.Ok?;
      assert |r.value| == 0;
    }
  }

  /** The sequence that shows it: a member read order 1, left, two messages
      were sent, and the member was added back afterwards. */
  function StaleLog(): seq<Message> {
    [Message(1, 5, "a", TextKind, TextBody("hi"), 1, 1),
     Message(2, 5, "a", TextKind, TextBody("x"), 2, 3),
     Message(3, 5, "a", TextKind, TextBody("y"), 3, 4)]
  }

  function StaleRow(): GroupMember {
    GroupMember(5, "b", false, 0, false, None, None, None, Some(6), 1, true)
  }

  lemma StaleUnreadExample()
    ensures UnreadRowOf(MarkerOf(StaleRow()), StaleLog()).unread == 2
    ensures ListMessages(StaleLog(), 5, ReaderAnchors([StaleRow()], 5, "b"), 1, 20, "") == Ok([])
  {
    StaleCount();
    StaleUnreadAfterRejoin(StaleRow(), StaleLog(), "");
    HiddenAfterRejoin(StaleRow(), StaleLog(), "");
  }

  lemma StaleCount()
    ensures MaxOrder(StaleLog(), 5) == 3
  {
    var msgs := StaleLog();
    assert msgs[..2][..1][..0] == [];
    assert msgs[..2][..1] == msgs[..1];
    assert MaxOrder(msgs[..1], 5) == 1;
    assert MaxOrder(msgs[..2], 5) == 2;
  }

  // ---------------------------------------------------------------------------
  // The room list

  /** One row of getRoomLastMessages (group): NULL message columns when the
      window holds no message. */
  datatype GroupPreview = GroupPreview(roomId: RoomId, roomName: Option<string>, message: Option<string>,
                                       kind: Option<MessageKind>, unreadCount: Option<int>,
                                       createdAt: Option<Time>)

  /** ORDER BY gm.createdAt DESC, where MySQL puts NULL last. */
  function PreviewKey(x: GroupPreview): int {
    if x.createdAt.Some? then x.createdAt.value else -1
  }

  /** LEFT JOIN groups: the name, NULL for a missing group row. */
  function NameOf(groups: map<RoomId, string>, g: RoomId): Option<string> {
    if g in groups then Some(groups[g]) else None
  }

  /** The message the LEFT JOIN attaches to row p: one of p's group whose
      order is the largest inside p's window (createdAt > anchor). */
  predicate JoinsMessage(p: GroupMember, m: Message, msgs: seq<Message>) {
    m.roomId == p.groupId && MaxWindowOrder(msgs, p.groupId, AnchorOf(p), false) == Some(m.order)
  }

  function EmptyPreview(p: GroupMember, groups: map<RoomId, string>): GroupPreview {
    GroupPreview(p.groupId, NameOf(groups, p.groupId), None, None, None, None)
  }

  function GroupPreviewOf(p: GroupMember, m: Message, groups: map<RoomId, string>): GroupPreview {
    GroupPreview(p.groupId, NameOf(groups, p.groupId), PreviewText(m), Some(m.kind),
                 Some(m.order - p.lastRead), Some(m.createdAt))
  }

  function JoinedMessages(p: GroupMember, ms: seq<Message>, msgs: seq<Message>, groups: map<RoomId, string>): (r: seq<GroupPreview>)
    ensures forall x :: x in r ==> exists j :: 0 <= j < |ms| && JoinsMessage(p, ms[j], msgs) && x == GroupPreviewOf(p, ms[j], groups)
    ensures forall j :: 0 <= j < |ms| && JoinsMessage(p, ms[j], msgs) ==> GroupPreviewOf(p, ms[j], groups) in r
  {
    if ms == [] then []
    else
      var prev := ms[..|ms| - 1];
      var last := ms[|ms| - 1];
      assert forall j :: 0 <= j < |prev| ==> prev[j] == ms[j];
      JoinedMessages(p, prev, msgs, groups) + (if JoinsMessage(p, last, msgs) then [GroupPreviewOf(p, last, groups)] else [])
  }

  /** The LEFT JOIN for one membership row: the joined messages, or a single
      row with NULL message columns when the window holds none. */
  function RowPreviews(p: GroupMember, msgs: seq<Message>, groups: map<RoomId, string>): (r: seq<GroupPreview>)
    ensures MaxWindowOrder(msgs, p.groupId, AnchorOf(p), false).None? ==> r == [EmptyPreview(p, groups)]
    ensures MaxWindowOrder(msgs, p.groupId, AnchorOf(p), false).Some? ==>
      (forall x :: x in r ==> exists j :: 0 <= j < |msgs| && JoinsMessage(p, msgs[j], msgs) && x == GroupPreviewOf(p, msgs[j], groups)) &&
      (forall j :: 0 <= j < |msgs| && JoinsMessage(p, msgs[j], msgs) ==> GroupPreviewOf(p, msgs[j], groups) in r)
  {
    if MaxWindowOrder(msgs, p.groupId, AnchorOf(p), false).None? then [EmptyPreview(p, groups)]
    else JoinedMessages(p, msgs, msgs, groups)
  }

  /** Under the log invariant, a row whose window holds a message gets
      exactly one preview: the one built from the newest message inside
      its window. */
  lemma RowPreviewsNewest(p: GroupMember, msgs: seq<Message>, groups: map<RoomId, string>)
    requires OrderedLog(msgs)
    requires MaxWindowOrder(msgs, p.groupId, AnchorOf(p), false).Some?
    ensures |NewestInWindow(msgs, p.groupId, AnchorOf(p), false)| == 1
    ensures RowPreviews(p, msgs, groups) ==
      [GroupPreviewOf(p, NewestInWindow(msgs, p.groupId, AnchorOf(p), false)[0], groups)]
  {
    NewestInWindowIsUnique(msgs, p.groupId, AnchorOf(p), false);
    var m := NewestInWindow(msgs, p.groupId, AnchorOf(p), false)[0];
    var k :| 0 <= k < |msgs| && msgs[k] == m;
    forall j | 0 <= j < |msgs| && JoinsMessage(p, msgs[j], msgs) ensures j == k {
      if j < k { OrdersIncrease(msgs, j, k); }
      if k < j { OrdersIncrease(msgs, k, j); }
    }
    JoinedMessagesSingle(p, msgs, msgs, groups, k);
  }

  lemma {:induction false} JoinedMessagesSingle(p: GroupMember, ms: seq<Message>, msgs: seq<Message>,
                                                groups: map<RoomId, string>, k: int)
    requires 0 <= k < |ms| && JoinsMessage(p, ms[k], msgs)
    requires forall j :: 0 <= j < |ms| && JoinsMessage(p, ms[j], msgs) ==> j == k
    ensures JoinedMessages(p, ms, msgs, groups) == [GroupPreviewOf(p, ms[k], groups)]
  {
    var prev := ms[..|ms| - 1];
    if k == |ms| - 1 {
      JoinedMessagesNone(p, prev, msgs, groups);
    } else {
      JoinedMessagesSingle(p, prev, msgs, groups, k);
    }
  }

  lemma {:induction false} JoinedMessagesNone(p: GroupMember, ms: seq<Message>, msgs: seq<Message>,
                                              groups: map<RoomId, string>)
    requires forall j :: 0 <= j < |ms| ==> !JoinsMessage(p, ms[j], msgs)
    ensures JoinedMessages(p, ms, msgs, groups) == []
  {
    if ms != [] {
      JoinedMessagesNone(p, ms[..|ms| - 1], msgs, groups);
    }
  }

  ghost predicate IsPreviewOfRow(x: GroupPreview, p: GroupMember, msgs: seq<Message>, groups: map<RoomId, string>) {
    || (MaxWindowOrder(msgs, p.groupId, AnchorOf(p), false).None? && x == EmptyPreview(p, groups))
    || (exists j :: 0 <= j < |msgs| && JoinsMessage(p, msgs[j], msgs) && x == GroupPreviewOf(p, msgs[j], groups))
  }

  function JoinRows(ps: seq<GroupMember>, msgs: seq<Message>, u: UserId, groups: map<RoomId, string>): (r: seq<GroupPreview>)
    ensures forall x :: x in r ==> exists i :: (0 <= i < |ps| && ps[i].contactId == u && !ps[i].isDeleted &&
      IsPreviewOfRow(x, ps[i], msgs, groups))
    ensures forall i :: 0 <= i < |ps| && ps[i].contactId == u && !ps[i].isDeleted ==>
      (MaxWindowOrder(msgs, ps[i].groupId, AnchorOf(ps[i]), false).None? ==> EmptyPreview(ps[i], groups) in r) &&
      (forall j :: 0 <= j < |msgs| && JoinsMessage(ps[i], msgs[j], msgs) ==> GroupPreviewOf(ps[i], msgs[j], groups) in r)
  {
    if ps == [] then []
    else
      var prev := ps[..|ps| - 1];
      var last := ps[|ps| - 1];
      assert forall i :: 0 <= i < |prev| ==> prev[i] == ps[i];
      var rest := JoinRows(prev, msgs, u, groups);
      if last.contactId == u && !last.isDeleted then
        var mine := RowPreviews(last, msgs, groups);
        assert forall x :: x in mine ==> IsPreviewOfRow(x, ps[|ps| - 1], msgs, groups);
        rest + mine
      else rest
  }

  /** getRoomLastMessages (group): one row per active row of `u` and message
      joined to it (or one row with NULL message columns), latest message
      first and message-less rows last. */
  function RoomLastMessages(members: seq<GroupMember>, msgs: seq<Message>, u: UserId,
                            groups: map<RoomId, string>): (r: seq<GroupPreview>)
    ensures SortedDesc(r, PreviewKey)
    ensures forall x :: x in r ==> exists i :: (0 <= i < |members| && members[i].contactId == u &&
      !members[i].isDeleted && IsPreviewOfRow(x, members[i], msgs, groups))
    ensures forall i :: 0 <= i < |members| && members[i].contactId == u && !members[i].isDeleted ==>
      (MaxWindowOrder(msgs, members[i].groupId, AnchorOf(members[i]), false).None? ==> EmptyPreview(members[i], groups) in r) &&
      (forall j :: 0 <= j < |msgs| && JoinsMessage(members[i], msgs[j], msgs) ==> GroupPreviewOf(members[i], msgs[j], groups) in r)
  {
    var joined := JoinRows(members, msgs, u, groups);
    var r := SortDesc(joined, PreviewKey);
    assert forall x :: x in r <==> x in joined by {
      forall x ensures x in r <==> x in joined {
        SortDescElements(joined, PreviewKey, x);
      }
    }
    r
  }

  /** A row's step stays valid when one more user is listed and the clock
      moves on, unless that user's deleted row is the one still deleted. */
  lemma AddStepGrow(before: GroupMember, after: GroupMember, g: RoomId, us: seq<UserId>, u: UserId,
                    clock: Time, t0: Time, t1: Time)
    requires AddStep(before, after, g, us, clock, t0) && t0 <= t1
    requires !(IsRowOf(before, g, u) && before.isDeleted && after.isDeleted)
    ensures AddStep(before, after, g, us + [u], clock, t1)
  {
    assert before.contactId in us + [u] <==> before.contactId in us || before.contactId == u;
  }

  /** One pass of that loop, for user `u`. */
  method ReactivateOne(members: seq<GroupMember>, rows: seq<GroupMember>, g: RoomId, listed: seq<UserId>,
                       u: UserId, clock: Time, t: Time)
    returns (rows2: seq<GroupMember>, t2: Time, isNew: bool)
    requires UniqueKey(members) && |rows| == |members| && clock <= t
    requires forall k :: 0 <= k < |rows| ==> AddStep(members[k], rows[k], g, listed, clock, t)
    requires forall k :: 0 <= k < |rows| ==> Stamped(rows[k], t)
    ensures |rows2| == |members| && t <= t2
    ensures forall k :: 0 <= k < |rows2| ==> AddStep(members[k], rows2[k], g, listed + [u], clock, t2)
    ensures forall k :: 0 <= k < |rows2| ==> Stamped(rows2[k], t2)
    ensures isNew <==> RowIndex(members, g, u).None?
  {
    var idx := RowIndex(members, g, u);
    rows2, t2, isNew := rows, t, idx.None?;
    if idx.Some? && rows[idx.value].isDeleted {
      var k := idx.value;
      assert rows[k] == members[k] && members[k].contactId !in listed by {
        assert AddStep(members[k], rows[k], g, listed, clock, t);
      }
      t2 := t + 1;
      rows2 := rows[k := rows[k].(isDeleted := false, leaveType := None, kickedBy := None,
                                  leftAt := None, rejoinedAt := Some(t2))];
    }
    forall k | 0 <= k < |rows2| ensures AddStep(members[k], rows2[k], g, listed + [u], clock, t2) {
      if idx.Some? && k == idx.value && rows2[k] != rows[k] {
      } else {
        assert rows2[k] == rows[k];
        if idx.Some? && k != idx.value {
          assert !IsRowOf(members[k], g, u);
        }
        AddStepGrow(members[k], rows[k], g, listed, u, clock, t, t2);
      }
    }
  }

  /** The loop of addUsersToGroup over the listed users, on the rows it
      fetched: each deleted row of a listed user is reactivated with its own
      clock reading, and the users without a row are collected. A user listed
      again after being reactivated finds the row active and is skipped. */
  method ReactivateListed(members: seq<GroupMember>, g: RoomId, groupUsers: seq<UserId>, clock: Time)
    returns (rows: seq<GroupMember>, t: Time, newcomers: seq<UserId>)
    requires UniqueKey(members)
    requires forall k :: 0 <= k < |members| ==> Stamped(members[k], clock)
    ensures |rows| == |members| && clock <= t
    ensures forall k :: 0 <= k < |rows| ==> AddStep(members[k], rows[k], g, groupUsers, clock, t)
    ensures forall k :: 0 <= k < |rows| ==> Stamped(rows[k], t)
    ensures newcomers == Newcomers(members, g, groupUsers)
  {
    rows := members;
    t := clock;
    newcomers := [];
    var i := 0;
    while i < |groupUsers|
      invariant 0 <= i <= |groupUsers|
      invariant |rows| == |members| && clock <= t
      invariant forall k :: 0 <= k < |rows| ==> AddStep(members[k], rows[k], g, groupUsers[..i], clock, t)
      invariant forall k :: 0 <= k < |rows| ==> Stamped(rows[k], t)
      invariant newcomers == Newcomers(members, g, groupUsers[..i])
    {
      var u := groupUsers[i];
      assert groupUsers[..i + 1] == groupUsers[..i] + [u];
      assert groupUsers[..i + 1][..i] == groupUsers[..i];
      var isNew;
      rows, t, isNew := ReactivateOne(members, rows, g, groupUsers[..i], u, clock, t);
      if isNew {
        newcomers := newcomers + [u];
      }
      i := i + 1;
    }
    assert groupUsers[..i] == groupUsers;
  }

  /** After the loop, appending rows for distinct newcomers keeps the unique
      key, every timestamp stays a reading already handed out, and each row's
      step still holds at the later clock. */
  lemma AddedRowsKeep(members: seq<GroupMember>, rows: seq<GroupMember>, g: RoomId, us: seq<UserId>,
                      clock: Time, t: Time, t2: Time, newcomers: seq<UserId>)
    requires UniqueKey(members) && |rows| == |members| && t <= t2
    requires forall k :: 0 <= k < |rows| ==> AddStep(members[k], rows[k], g, us, clock, t)
    requires forall k :: 0 <= k < |rows| ==> Stamped(rows[k], t)
    requires Distinct(newcomers) && newcomers == Newcomers(members, g, us)
    ensures var all := rows + NewRows(newcomers, g, t2);
      && UniqueKey(all)
      && (forall k :: 0 <= k < |all| ==> Stamped(all[k], t2))
      && (forall k :: 0 <= k < |rows| ==> AddStep(members[k], all[k], g, us, clock, t2))
  {
    assert UniqueKey(rows) by {
      forall a, b | 0 <= a < b < |rows| ensures !(rows[a].groupId == rows[b].groupId && rows[a].contactId == rows[b].contactId) {
        assert AddStep(members[a], rows[a], g, us, clock, t);
        assert AddStep(members[b], rows[b], g, us, clock, t);
      }
    }
    var added := NewRows(newcomers, g, t2);
    assert UniqueKey(added) by {
      forall a, b | 0 <= a < b < |added| ensures !(added[a].groupId == added[b].groupId && added[a].contactId == added[b].contactId) {
        assert added[a].contactId == newcomers[a] && added[b].contactId == newcomers[b];
      }
    }
    forall k, i | 0 <= k < |added| && 0 <= i < |rows| ensures !IsRowOf(rows[i], g, added[k].contactId) {
      assert RowIndex(members, g, newcomers[k]).None?;
      assert AddStep(members[i], rows[i], g, us, clock, t);
    }
    AppendKeepsUnique(rows, added, g);
    var all := rows + added;
    forall k | 0 <= k < |all| ensures Stamped(all[k], t2) {
      if k < |rows| {
        assert all[k] == rows[k];
      } else {
        assert all[k] == added[k - |rows|];
      }
    }
    forall k | 0 <= k < |rows| ensures AddStep(members[k], all[k], g, us, clock, t2) {
      assert all[k] == rows[k];
      assert AddStep(members[k], rows[k], g, us, clock, t);
    }
  }

  // ---------------------------------------------------------------------------
  // The service

  class GroupChatService {
    /** groups: id -> name */
    var groups: map<RoomId, string>
    /** group_users */
    var members: seq<GroupMember>
    /** group_message */
    var messages: seq<Message>
    var nextGroupId: RoomId
    var nextMessageId: nat
    /** the last clock reading handed out */
    var clock: Time
    /** the user:{id}:group:unread keys */
    const unread: UnreadCache

    ghost predicate Valid()
      reads this
    {
      && OrderedLog(messages)
      && UniqueKey(members)
      && (forall g :: g in groups ==> g < nextGroupId)
      && (forall i :: 0 <= i < |messages| ==> messages[i].createdAt <= clock)
      && (forall i :: 0 <= i < |members| ==> Stamped(members[i], clock))
    }

    constructor (cache: UnreadCache)
      ensures Valid() && unread == cache
      ensures groups == map[] && members == [] && messages == []
    {
      groups := map[];
      members := [];
      messages := [];
      nextGroupId := 1;
      nextMessageId := 1;
      clock := 0;
      unread := cache;
    }

    /** createGroupRoom: every listed user must exist (else NotFound and
        nothing is created); then the group row is inserted, and then the
        creator's admin row and one non-admin row per listed user in one save.
        That save violates the unique key, and stores no row, when the creator
        is listed, a user is listed twice, or a row of the new id is already
        there; the group row stays and the call fails. `users` is the users
        table. */
    method CreateGroupRoom(creator: UserId, name: string, groupUsers: seq<UserId>, users: set<UserId>)
      returns (r: Result<RoomId>)
      requires Valid()
      modifies this
      ensures Valid()
      ensures (exists k :: 0 <= k < |groupUsers| && groupUsers[k] !in users) ==> r == Err(NotFound) && unchanged(this)
      ensures (forall k :: 0 <= k < |groupUsers| ==> groupUsers[k] in users) ==>
        && old(nextGroupId) !in old(groups)
        && groups == old(groups)[old(nextGroupId) := name] && nextGroupId == old(nextGroupId) + 1
        && messages == old(messages) && clock == old(clock) + 1 && nextMessageId == old(nextMessageId)
        && (UniqueKey(old(members) + InitialRows(old(nextGroupId), creator, groupUsers, clock)) ==>
              r == Ok(old(nextGroupId)) && members == old(members) + InitialRows(old(nextGroupId), creator, groupUsers, clock))
        && (!UniqueKey(old(members) + InitialRows(old(nextGroupId), creator, groupUsers, clock)) ==>
              r == Err(QueryFailed) && members == old(members))
    {
      var i := 0;
      while i < |groupUsers|
        invariant 0 <= i <= |groupUsers|
        invariant forall k :: 0 <= k < i ==> groupUsers[k] in users
      {
        if groupUsers[i] !in users {
          return Err(NotFound);
        }
        i := i + 1;
      }
      var g := nextGroupId;
      var t := clock + 1;
      var entries := InitialRows(g, creator, groupUsers, t);
      assert forall i :: 0 <= i < |members| ==> Stamped(members[i], t);
      if UniqueKey(members + entries) {
        var rows := members + entries;
        assert forall i :: 0 <= i < |rows| ==> Stamped(rows[i], t) by {
          forall i | 0 <= i < |rows| ensures Stamped(rows[i], t) {
            if i < |members| {
              assert rows[i] == members[i];
            } else {
              assert rows[i] == entries[i - |members|];
            }
          }
        }
        members := rows;
        r := Ok(g);
      } else {
        r := Err(QueryFailed);
      }
      nextGroupId, groups, clock := nextGroupId + 1, groups[g := name], t;
    }

    /** addUsersToGroup: an empty list is a malformed IN () and fails. Each
        listed user without a row gets a new non-admin row; a deleted row of a
        listed user is reactivated and keeps its old lastReadMessageOrder; an
        active row is untouched. A user without a row listed twice makes the
        insert violate the unique key, and nothing is saved. The group itself
        is not checked. */
    method AddUsersToGroup(g: RoomId, groupUsers: seq<UserId>) returns (o: Outcome)
      requires Valid()
      modifies this
      ensures Valid()
      ensures groupUsers == [] ==> o == Fail(QueryFailed) && unchanged(this)
      ensures groupUsers != [] && !Distinct(Newcomers(old(members), g, groupUsers)) ==>
        o == Fail(QueryFailed) && unchanged(this)
      ensures groupUsers != [] && Distinct(Newcomers(old(members), g, groupUsers)) ==>
        && o == Done && old(clock) <= clock
        && groups == old(groups) && messages == old(messages)
        && nextGroupId == old(nextGroupId) && nextMessageId == old(nextMessageId)
        && |members| == |old(members)| + |Newcomers(old(members), g, groupUsers)|
        && (forall i :: 0 <= i < |old(members)| ==> AddStep(old(members)[i], members[i], g, groupUsers, old(clock), clock))
        && members[|old(members)|..] == NewRows(Newcomers(old(members), g, groupUsers), g, clock)
    {
      if |groupUsers| == 0 {
        return Fail(QueryFailed);
      }
      var rows, t, newcomers := ReactivateListed(members, g, groupUsers, clock);
      if |newcomers| > 0 && !Distinct(newcomers) {
        return Fail(QueryFailed);
      }
      var t2 := if |newcomers| > 0 then t + 1 else t;
      AddedRowsKeep(members, rows, g, groupUsers, clock, t, t2, newcomers);
      rows, t := rows + NewRows(newcomers, g, t2), t2;
      members := rows;
      clock := t;
      o := Done;
    }

    /** handlePostLeaveCleanup: with no active row left, the group's messages,
        rows and group row are deleted; otherwise, if the leaver holds no
        admin row, the earliest remaining active member becomes admin and
        nothing else changes. */
    method HandlePostLeaveCleanup(g: RoomId, u: UserId)
      requires Valid()
      modifies this
      ensures Valid()
      ensures clock == old(clock) && nextGroupId == old(nextGroupId) && nextMessageId == old(nextMessageId)
      ensures EarliestActive(old(members), g).None? ==>
        members == MembersWithoutGroup(old(members), g) && messages == WithoutRoom(old(messages), g) &&
        groups == old(groups) - {g}
      ensures EarliestActive(old(members), g).Some? ==>
        messages == old(messages) && groups == old(groups) &&
        (AdminGone(old(members), g, u) ==> members == CleanedUp(old(members), g)) &&
        (!AdminGone(old(members), g, u) ==> members == old(members))
    {
      var first := EarliestActive(members, g);
      if first.None? {
        WithoutRoomKeepsOrderedLog(messages, g);
        messages := WithoutRoom(messages, g);
        members := MembersWithoutGroup(members, g);
        groups := groups - {g};
        return;
      }
      if AdminGone(members, g, u) {
        members := members[first.value := members[first.value].(isAdmin := true)];
      }
    }

    /** leaveGroup (SELF) and kickUser (KICK by `admin`): a target without an
        active row gets NotFound; otherwise the row is marked departed and the
        cleanup runs. Because the admin check always finds the leaver gone,
        the earliest remaining active member is promoted on every departure
        that leaves someone behind. */
    method Depart(target: UserId, g: RoomId, how: LeaveType, kicker: Option<UserId>) returns (o: Outcome)
      requires Valid()
      modifies this
      ensures Valid()
      ensures FindGroupUser(old(members), g, target).None? ==> o == Fail(NotFound) && unchanged(this)
      ensures FindGroupUser(old(members), g, target).Some? ==>
        var k := FindGroupUser(old(members), g, target).value;
        var left := old(members)[k := Departed(old(members)[k], how, kicker, clock)];
        && o == Done && clock == old(clock) + 1
        && nextGroupId == old(nextGroupId) && nextMessageId == old(nextMessageId)
        && members == CleanedUp(left, g)
        && (EarliestActive(left, g).None? ==> messages == WithoutRoom(old(messages), g) && groups == old(groups) - {g})
        && (EarliestActive(left, g).Some? ==> messages == old(messages) && groups == old(groups))
    {
      var found := FindGroupUser(members, g, target);
      if found.None? {
        return Fail(NotFound);
      }
      var k := found.value;
      clock := clock + 1;
      members := members[k := Departed(members[k], how, kicker, clock)];
      AdminGoneAfterDeparture(members, k);
      HandlePostLeaveCleanup(g, target);
      o := Done;
    }

    /** leaveGroup: kickedBy is left as it was. */
    method LeaveGroup(u: UserId, g: RoomId) returns (o: Outcome)
      requires Valid()
      modifies this
      ensures Valid()
      ensures FindGroupUser(old(members), g, u).None? ==> o == Fail(NotFound) && unchanged(this)
      ensures FindGroupUser(old(members), g, u).Some? ==>
        var k := FindGroupUser(old(members), g, u).value;
        var left := old(members)[k := Departed(old(members)[k], SelfLeave, old(members)[k].kickedBy, clock)];
        && o == Done && clock == old(clock) + 1
        && nextGroupId == old(nextGroupId) && nextMessageId == old(nextMessageId)
        && members == CleanedUp(left, g)
        && (EarliestActive(left, g).None? ==> messages == WithoutRoom(old(messages), g) && groups == old(groups) - {g})
        && (EarliestActive(left, g).Some? ==> messages == old(messages) && groups == old(groups))
    {
      var found := FindGroupUser(members, g, u);
      var kicker := if found.Some? then members[found.value].kickedBy else None;
      o := Depart(u, g, SelfLeave, kicker);
    }

    /** kickUser: kickedBy records the admin. Whether `admin` is an admin is
        the guard's business, not this method's. */
    method KickUser(admin: UserId, target: UserId, g: RoomId) returns (o: Outcome)
      requires Valid()
      modifies this
      ensures Valid()
      ensures FindGroupUser(old(members), g, target).None? ==> o == Fail(NotFound) && unchanged(this)
      ensures FindGroupUser(old(members), g, target).Some? ==>
        var k := FindGroupUser(old(members), g, target).value;
        var left := old(members)[k := Departed(old(members)[k], Kick, Some(admin), clock)];
        && o == Done && clock == old(clock) + 1
        && nextGroupId == old(nextGroupId) && nextMessageId == old(nextMessageId)
        && members == CleanedUp(left, g)
        && (EarliestActive(left, g).None? ==> messages == WithoutRoom(old(messages), g) && groups == old(groups) - {g})
        && (EarliestActive(left, g).Some? ==> messages == old(messages) && groups == old(groups))
    {
      o := Depart(target, g, Kick, Some(admin));
    }

    /** msgRepo.save of a new message row with order MAX + 1, stamped with
        the next clock reading. */
    method InsertMessage(g: RoomId, sender: UserId, kind: MessageKind, body: Body) returns (m: Message)
      requires Valid()
      modifies this
      ensures Valid()
      ensures clock == old(clock) + 1
      ensures m == Message(old(nextMessageId), g, sender, kind, body, MaxOrder(old(messages), g) + 1, clock)
      ensures messages == old(messages) + [m]
      ensures members == old(members) && groups == old(groups)
      ensures nextGroupId == old(nextGroupId) && nextMessageId == old(nextMessageId) + 1
    {
      var t := clock + 1;
      m := Message(nextMessageId, g, sender, kind, body, MaxOrder(messages, g) + 1, t);
      AppendKeepsOrderedLog(messages, m);
      var msgs := messages + [m];
      assert forall i :: 0 <= i < |msgs| ==> msgs[i].createdAt <= t by {
        forall i | 0 <= i < |msgs| ensures msgs[i].createdAt <= t {
          if i < |messages| {
            assert msgs[i] == messages[i];
          }
        }
      }
      assert forall i :: 0 <= i < |members| ==> Stamped(members[i], t);
      clock, messages, nextMessageId := t, msgs, nextMessageId + 1;
    }

    /** createTextMessage / createImageMessage / createCardMessage (group): a
        missing group fails with NotFound and stores nothing; otherwise the
        sender's marker moves to the new order and the message is stored with
        order MAX + 1. Deleted rows stay deleted, and the sender is not
        checked for membership. */
    method SendMessage(sender: UserId, g: RoomId, kind: MessageKind, body: Body) returns (r: Result<Message>)
      requires Valid()
      modifies this
      ensures Valid()
      ensures g !in old(groups) ==> r == Err(NotFound) && unchanged(this)
      ensures g in old(groups) ==>
        && r.Ok?
        && r.value == Message(old(nextMessageId), g, sender, kind, body, MaxOrder(old(messages), g) + 1, clock)
        && clock == old(clock) + 1
        && messages == old(messages) + [r.value]
        && members == SetLastRead(old(members), g, sender, r.value.order)
        && groups == old(groups)
        && nextGroupId == old(nextGroupId) && nextMessageId == old(nextMessageId) + 1
    {
      var maxOrder := MaxOrder(messages, g);
      if g !in groups {
        return Err(NotFound);
      }
      SetLastReadKeeps(members, g, sender, maxOrder + 1, clock);
      members := SetLastRead(members, g, sender, maxOrder + 1);
      var m := InsertMessage(g, sender, kind, body);
      r := Ok(m);
    }

    /** warmUnreadGroupCache(u). */
    method WarmUnread(u: UserId) returns (total: int)
      requires Valid()
      modifies unread
      ensures total == RowsTotal(UnreadRows(Markers(members, MarkerOf), messages, u))
      ensures unread.Hash(u) == RowsHash(UnreadRows(Markers(members, MarkerOf), messages, u)) && unread.Total(u) == total
      ensures forall v :: v != u ==> unread.Hash(v) == old(unread.Hash(v)) && unread.Total(v) == old(unread.Total(v))
      ensures DistinctRooms(UnreadRows(Markers(members, MarkerOf), messages, u))
      ensures unread.Consistent(u)
    {
      WarmRowsDistinct(members, messages, u);
      total := unread.Warm(u, UnreadRows(Markers(members, MarkerOf), messages, u));
    }

    /** updateReadLastMessage (group): NotFound for a missing group;
        otherwise u's marker is set to the group's maximum order and u's
        cached count for the group is cleared. */
    method UpdateReadLastMessage(u: UserId, g: RoomId) returns (o: Outcome)
      requires Valid()
      modifies this, unread
      ensures Valid()
      ensures g !in old(groups) ==> o == Fail(NotFound) && unchanged(this) && unchanged(unread)
      ensures g in old(groups) ==>
        && o == Done
        && members == SetLastRead(old(members), g, u, MaxOrder(messages, g))
        && messages == old(messages) && groups == old(groups)
        && clock == old(clock) && nextGroupId == old(nextGroupId) && nextMessageId == old(nextMessageId)
        && unread.Hash(u) == (if old(unread.Count(u, g)) > 0 then old(unread.Hash(u))[g := 0] else old(unread.Hash(u)))
        && unread.Count(u, g) == (if old(unread.Count(u, g)) > 0 then 0 else old(unread.Count(u, g)))
        && unread.Total(u) == old(unread.Total(u)) - Max(old(unread.Count(u, g)), 0)
        && (forall v :: v != u ==> unread.Hash(v) == old(unread.Hash(v)) && unread.Total(v) == old(unread.Total(v)))
        && forall v :: old(unread.Consistent(v)) ==> unread.Consistent(v)
    {
      if g !in groups {
        return Fail(NotFound);
      }
      members := SetLastRead(members, g, u, MaxOrder(messages, g));
      var _ := unread.ClearUnreadForRoom(u, g);
      o := Done;
    }
  }
}

=== FILE: guards.dfy ===
/**
  The two route guards: a request on /group-chat/:roomId or
  /private-chat/:roomId passes only for a caller with an active membership
  row in that room (and, on group routes marked for admins, an admin row),
  and the row's state is attached to the request.
 */
module Guards {
  import opened Common
  import GroupChat
  import PrivateChat

  /** request.groupMember */
  datatype GroupPayload = GroupPayload(groupId: RoomId, userId: UserId, isAdmin: bool, isDeleted: bool,
                                       rejoinedAt: Option<Time>)

  /** request.roomMember */
  datatype RoomPayload = RoomPayload(roomId: RoomId, userId: UserId, isDeleted: bool, rejoinedAt: Option<Time>)

  /** GroupChatGuard.canActivate for caller `u` on group `g`;
      `requireAdmin` is the route's requireGroupAdmin mark. */
  function GroupGuard(members: seq<GroupChat.GroupMember>, g: RoomId, u: UserId, requireAdmin: bool): (r: Result<GroupPayload>)
    ensures r.Err? ==> r.error == Forbidden
    ensures (forall i :: 0 <= i < |members| ==> !GroupChat.ActiveRowOf(members[i], g, u)) ==> r.Err?
    ensures r.Ok? ==> exists i :: (0 <= i < |members| && GroupChat.ActiveRowOf(members[i], g, u) &&
      r.value == GroupPayload(g, u, members[i].isAdmin, false, members[i].rejoinedAt))
    ensures r.Ok? && requireAdmin ==> r.value.isAdmin
    ensures GroupChat.UniqueKey(members) ==>
      (r.Ok? <==> exists i :: (0 <= i < |members| && GroupChat.ActiveRowOf(members[i], g, u) &&
        (requireAdmin ==> members[i].isAdmin)))
  {
    match GroupChat.FindGroupUser(members, g, u)
    case None => Err(Forbidden)
    case Some(i) =>
      if requireAdmin && !members[i].isAdmin then Err(Forbidden)
      else Ok(GroupPayload(g, u, members[i].isAdmin, members[i].isDeleted, members[i].rejoinedAt))
  }

  /** PrivateChatGuard.canActivate for caller `u` on room `room`. */
  function PrivateGuard(members: seq<PrivateChat.Member>, room: RoomId, u: UserId): (r: Result<RoomPayload>)
    ensures r.Err? ==> r.error == Forbidden
    ensures r.Ok? <==> exists i :: 0 <= i < |members| && PrivateChat.ActiveRowOf(members[i], room, u)
    ensures r.Ok? ==> exists i :: (0 <= i < |members| && PrivateChat.ActiveRowOf(members[i], room, u) &&
      r.value == RoomPayload(room, u, false, members[i].rejoinedAt))
  {
    match PrivateChat.FindRoomUser(members, room, u)
    case None => Err(Forbidden)
    case Some(i) => Ok(RoomPayload(room, u, members[i].isDeleted, members[i].rejoinedAt))
  }

  /** After leaving or being kicked, the departed member no longer passes the
      group guard, whatever the cleanup did with the group. */
  lemma DepartedMemberIsForbidden(members: seq<GroupChat.GroupMember>, g: RoomId, u: UserId,
                                  how: GroupChat.LeaveType, kicker: Option<UserId>, now: Time, requireAdmin: bool)
    requires GroupChat.UniqueKey(members)
    requires GroupChat.FindGroupUser(members, g, u).Some?
    ensures var k := GroupChat.FindGroupUser(members, g, u).value;
      var left := members[k := GroupChat.Departed(members[k], how, kicker, now)];
      GroupGuard(GroupChat.CleanedUp(left, g), g, u, requireAdmin) == Err(Forbidden)
  {
    var k := GroupChat.FindGroupUser(members, g, u).value;
    var left := members[k := GroupChat.Departed(members[k], how, kicker, now)];
    var after := GroupChat.CleanedUp(left, g);
    forall i | 0 <= i < |after| ensures !GroupChat.ActiveRowOf(after[i], g, u) {
      if GroupChat.EarliestActive(left, g).Some? {
        var e := GroupChat.EarliestActive(left, g).value;
        if i != e {
          assert after[i] == left[i];
          if i != k {
            assert !GroupChat.IsRowOf(members[i], g, u);
          }
        }
      }
    }
  }

  /** A private room member who leaves still passes the guard exactly when
      another active row of theirs remains in the room (a room opened with
      oneself holds two), and no one passes once the room is deleted. */
  lemma LeaverPassesOnlyWithAnotherRow(members: seq<PrivateChat.Member>, room: RoomId, u: UserId, now: Time)
    requires PrivateChat.FindRoomUser(members, room, u).Some?
    ensures var k := PrivateChat.FindRoomUser(members, room, u).value;
      var left := members[k := PrivateChat.LeftRow(members[k], now)];
      && (PrivateGuard(left, room, u).Ok? <==>
           exists i :: 0 <= i < |members| && i != k && PrivateChat.ActiveRowOf(members[i], room, u))
      && PrivateGuard(PrivateChat.MembersWithoutRoom(left, room), room, u) == Err(Forbidden)
  {
    var k := PrivateChat.FindRoomUser(members, room, u).value;
    var left := members[k := PrivateChat.LeftRow(members[k], now)];
    if PrivateGuard(left, room, u).Ok? {
      var i :| 0 <= i < |left| && PrivateChat.ActiveRowOf(left[i], room, u);
      assert i != k && PrivateChat.ActiveRowOf(members[i], room, u);
    }
    if exists i :: 0 <= i < |members| && i != k && PrivateChat.ActiveRowOf(members[i], room, u) {
      var i :| 0 <= i < |members| && i != k && PrivateChat.ActiveRowOf(members[i], room, u);
      assert PrivateChat.ActiveRowOf(left[i], room, u);
    }
    var gone := PrivateChat.MembersWithoutRoom(left, room);
    forall i | 0 <= i < |gone| ensures !PrivateChat.ActiveRowOf(gone[i], room, u) {
      assert gone[i].roomId != room;
    }
  }
}

=== FILE: message_store.dfy ===
/**
  The message table both room kinds keep (private_chat_message and
  group_message share one shape) and the queries both services run over it:
  the per-room maximum order, the ordering invariant of the log, the
  visibility window of a membership row, the paginated listing and the
  room-list preview of the newest message.
 */
module Messages {
  import opened Common

  /** The `type` column: 'text' | 'image' | 'card'. The send endpoints store
      whatever kind the client names, whichever body they store. */
  datatype MessageKind = TextKind | ImageKind | CardKind

  datatype Button = Button(kind: string, title: string, action: string)
  datatype CardImage = CardImage(url: string, alt: string)
  /** The JSON `payload` of a card message. */
  datatype Card = Card(title: string, subtitle: Option<string>, text: Option<string>,
                       buttons: Option<seq<Button>>, image: Option<CardImage>)

  /** Which column a send fills: `message` (text endpoint), `fileUpload`
      (image endpoint, the stored image's name) or `payload` (card endpoint). */
  datatype Body = TextBody(text: string) | ImageBody(file: string) | CardBody(card: Card)

  datatype Message = Message(id: nat, roomId: RoomId, senderId: UserId, kind: MessageKind,
                             body: Body, order: int, createdAt: Time)

  /** The `message` column; NULL unless the text endpoint stored the row. */
  function TextOf(m: Message): Option<string> {
    if m.body.TextBody? then Some(m.body.text) else None
  }

  function OrderOf(m: Message): int { m.order }

  // ---------------------------------------------------------------------------
  // Order assignment

  predicate HasRoom(msgs: seq<Message>, room: RoomId) {
    exists i :: 0 <= i < |msgs| && msgs[i].roomId == room
  }

  /** SELECT COALESCE(MAX(messageOrder), 0) WHERE roomId = room. */
  function MaxOrder(msgs: seq<Message>, room: RoomId): (m: int)
    ensures !HasRoom(msgs, room) ==> m == 0
    ensures forall i :: 0 <= i < |msgs| && msgs[i].roomId == room ==> msgs[i].order <= m
    ensures HasRoom(msgs, room) ==>
      exists i :: 0 <= i < |msgs| && msgs[i].roomId == room && msgs[i].order == m
  {
    if msgs == [] then 0
    else
      var prev := msgs[..|msgs| - 1];
      var last := msgs[|msgs| - 1];
      assert msgs == prev + [last];
      if last.roomId != room then MaxOrder(prev, room)
      else if HasRoom(prev, room) then Max(MaxOrder(prev, room), last.order)
      else last.order
  }

  /** Number of messages the table holds for `room`. */
  function CountRoom(msgs: seq<Message>, room: RoomId): nat {
    if msgs == [] then 0
    else CountRoom(msgs[..|msgs| - 1], room) + (if msgs[|msgs| - 1].roomId == room then 1 else 0)
  }

  /** The log invariant: the n-th message stored for a room carries order n,
      so orders of a room run 1, 2, 3, ... with no gap and no repeat. */
  ghost predicate OrderedLog(msgs: seq<Message>) {
    forall i :: 0 <= i < |msgs| ==> msgs[i].order == CountRoom(msgs[..i], msgs[i].roomId) + 1
  }

  lemma OrderedLogPrefix(msgs: seq<Message>, k: nat)
    requires OrderedLog(msgs) && k <= |msgs|
    ensures OrderedLog(msgs[..k])
  {
    forall i | 0 <= i < k ensures msgs[..k][i].order == CountRoom(msgs[..k][..i], msgs[..k][i].roomId) + 1 {
      assert msgs[..k][..i] == msgs[..i];
    }
  }

  lemma {:induction false} CountRoomZero(msgs: seq<Message>, room: RoomId)
    ensures CountRoom(msgs, room) == 0 <==> !HasRoom(msgs, room)
  {
    if msgs != [] {
      var prev := msgs[..|msgs| - 1];
      CountRoomZero(prev, room);
      assert forall i :: 0 <= i < |prev| ==> prev[i] == msgs[i];
      if HasRoom(prev, room) {
        var i :| 0 <= i < |prev| && prev[i].roomId == room;
        assert msgs[i].roomId == room;
      }
    }
  }

  /** Under the log invariant the maximum order of a room is the number of its
      messages, so the next send gets CountRoom + 1. */
  lemma {:induction false} MaxOrderIsCount(msgs: seq<Message>, room: RoomId)
    requires OrderedLog(msgs)
    ensures MaxOrder(msgs, room) == CountRoom(msgs, room)
  {
    if msgs != [] {
      var prev := msgs[..|msgs| - 1];
      var last := msgs[|msgs| - 1];
      OrderedLogPrefix(msgs, |msgs| - 1);
      MaxOrderIsCount(prev, room);
      if last.roomId == room {
        assert last.order == CountRoom(prev, room) + 1;
        CountRoomZero(prev, room);
      }
    }
  }

  /** Appending a message whose order is MaxOrder + 1 keeps the invariant. */
  lemma AppendKeepsOrderedLog(msgs: seq<Message>, m: Message)
    requires OrderedLog(msgs)
    requires m.order == MaxOrder(msgs, m.roomId) + 1
    ensures OrderedLog(msgs + [m])
  {
    MaxOrderIsCount(msgs, m.roomId);
    var s := msgs + [m];
    forall i | 0 <= i < |s| ensures s[i].order == CountRoom(s[..i], s[i].roomId) + 1 {
      if i < |msgs| {
        assert s[..i] == msgs[..i];
      } else {
        assert s[..i] == msgs;
      }
    }
  }

  /** Orders strictly increase along the table within a room. */
  lemma OrdersIncrease(msgs: seq<Message>, i: int, j: int)
    requires OrderedLog(msgs)
    requires 0 <= i < j < |msgs| && msgs[i].roomId == msgs[j].roomId
    ensures msgs[i].order < msgs[j].order
  {
    CountGrows(msgs[..j], i + 1, msgs[i].roomId);
    assert msgs[..j][..i + 1] == msgs[..i + 1];
    assert msgs[..i + 1][..i] == msgs[..i];
  }

  lemma {:induction false} CountGrows(msgs: seq<Message>, k: nat, room: RoomId)
    requires k <= |msgs|
    ensures CountRoom(msgs[..k], room) <= CountRoom(msgs, room)
    decreases |msgs|
  {
    if k < |msgs| {
      var prev := msgs[..|msgs| - 1];
      assert prev[..k] == msgs[..k];
      CountGrows(prev, k, room);
    } else {
      assert msgs[..k] == msgs;
    }
  }

  /** The message table after `DELETE ... WHERE roomId = room`. */
  function WithoutRoom(msgs: seq<Message>, room: RoomId): (r: seq<Message>)
    ensures forall i :: 0 <= i < |r| ==> r[i] in msgs && r[i].roomId != room
    ensures forall i :: 0 <= i < |msgs| && msgs[i].roomId != room ==> msgs[i] in r
  {
    if msgs == [] then []
    else
      var prev := msgs[..|msgs| - 1];
      var last := msgs[|msgs| - 1];
      assert msgs == prev + [last];
      if last.roomId == room then WithoutRoom(prev, room) else WithoutRoom(prev, room) + [last]
  }

  lemma {:induction false} CountWithoutRoom(msgs: seq<Message>, room: RoomId, other: RoomId)
    requires other != room
    ensures CountRoom(WithoutRoom(msgs, room), other) == CountRoom(msgs, other)
  {
    if msgs != [] {
      var prev := msgs[..|msgs| - 1];
      var last := msgs[|msgs| - 1];
      CountWithoutRoom(prev, room, other);
      if last.roomId != room {
        var w := WithoutRoom(prev, room) + [last];
        assert w[..|w| - 1] == WithoutRoom(prev, room);
      }
    }
  }

  /** Deleting every message of one room keeps the invariant for the others. */
  lemma {:induction false} WithoutRoomKeepsOrderedLog(msgs: seq<Message>, room: RoomId)
    requires OrderedLog(msgs)
    ensures OrderedLog(WithoutRoom(msgs, room))
  {
    if msgs != [] {
      var prev := msgs[..|msgs| - 1];
      var last := msgs[|msgs| - 1];
      OrderedLogPrefix(msgs, |msgs| - 1);
      WithoutRoomKeepsOrderedLog(prev, room);
      if last.roomId != room {
        var w := WithoutRoom(prev, room);
        var s := w + [last];
        CountWithoutRoom(prev, room, last.roomId);
        forall i | 0 <= i < |s| ensures s[i].order == CountRoom(s[..i], s[i].roomId) + 1 {
          if i < |w| {
            assert s[..i] == w[..i];
          } else {
            assert s[..i] == w;
          }
        }
      }
    }
  }

  // ---------------------------------------------------------------------------
  // Listing

  /** COALESCE(rejoinedAt, createdAt) of a membership row: the instant after
      which the member sees the room's messages. */
  function Anchor(createdAt: Time, rejoinedAt: Option<Time>): (t: Time)
    ensures rejoinedAt.Some? ==> t == rejoinedAt.value
    ensures rejoinedAt.None? ==> t == createdAt
  {
    match rejoinedAt
    case Some(r) => r
    case None => createdAt
  }

  /** The part of the listing's WHERE clause that does not involve the
      joined membership row: the room and, for a non-empty keyword,
      `message LIKE '%keyword%'` (a NULL text column never matches). */
  predicate Matches(m: Message, room: RoomId, keyword: string) {
    && m.roomId == room
    && (keyword == "" || (TextOf(m).Some? && IsInfix(keyword, TextOf(m).value)))
  }

  /** The whole WHERE clause for one joined membership row whose
      COALESCE(rejoinedAt, createdAt) is `anchor`. */
  predicate Listed(m: Message, room: RoomId, anchor: Time, keyword: string) {
    Matches(m, room, keyword) && m.createdAt > anchor
  }

  /** How many of the joined rows, given by their anchors, let `m` through
      the window: the LEFT JOIN yields `m` once per joined row, and a
      message with no joined row (the NULL side) never passes. */
  function Copies(m: Message, anchors: seq<Time>): (n: nat)
    ensures n <= |anchors|
    ensures n > 0 <==> exists k :: 0 <= k < |anchors| && m.createdAt > anchors[k]
  {
    if anchors == [] then 0
    else
      var prev := anchors[..|anchors| - 1];
      assert forall k :: 0 <= k < |prev| ==> prev[k] == anchors[k];
      Copies(m, prev) + (if m.createdAt > anchors[|anchors| - 1] then 1 else 0)
  }

  /** `n` copies of `m`. */
  function Repeat(m: Message, n: nat): (r: seq<Message>)
    ensures |r| == n
    ensures forall x :: multiset(r)[x] == if x == m then n else 0
  {
    if n == 0 then [] else Repeat(m, n - 1) + [m]
  }

  /** The rows of the join, before ORDER BY: every message that matches, as
      many times as joined rows let it through. */
  function JoinedRows(msgs: seq<Message>, room: RoomId, anchors: seq<Time>, keyword: string): (r: seq<Message>)
    ensures forall x :: (multiset(r)[x] ==
                         if Matches(x, room, keyword) then multiset(msgs)[x] * Copies(x, anchors) else 0)
  {
    if msgs == [] then []
    else
      var prev := msgs[..|msgs| - 1];
      var last := msgs[|msgs| - 1];
      assert msgs == prev + [last];
      var rest := JoinedRows(prev, room, anchors, keyword);
      var tail := if Matches(last, room, keyword) then Repeat(last, Copies(last, anchors)) else [];
      JoinedRowsStep(prev, last, rest, tail, x => Matches(x, room, keyword), x => Copies(x, anchors));
      rest + tail
  }

  lemma JoinedRowsStep(prev: seq<Message>, last: Message, rest: seq<Message>, tail: seq<Message>,
                       ok: Message -> bool, copies: Message -> nat)
    requires forall x :: multiset(rest)[x] == (if ok(x) then multiset(prev)[x] * copies(x) else 0)
    requires tail == if ok(last) then Repeat(last, copies(last)) else []
    ensures forall x :: multiset(rest + tail)[x] == (if ok(x) then multiset(prev + [last])[x] * copies(x) else 0)
  {
    forall x ensures multiset(rest + tail)[x] == (if ok(x) then multiset(prev + [last])[x] * copies(x) else 0) {
      JoinedRowsStepAt(x, prev, last, rest, tail, ok, copies);
    }
  }

  lemma JoinedRowsStepAt(x: Message, prev: seq<Message>, last: Message, rest: seq<Message>, tail: seq<Message>,
                         ok: Message -> bool, copies: Message -> nat)
    requires multiset(rest)[x] == (if ok(x) then multiset(prev)[x] * copies(x) else 0)
    requires tail == if ok(last) then Repeat(last, copies(last)) else []
    ensures multiset(rest + tail)[x] == (if ok(x) then multiset(prev + [last])[x] * copies(x) else 0)
  {
    var a := multiset(prev)[x];
    var c := copies(x);
    var t := if x == last && ok(x) then c else 0;
    assert multiset(tail)[x] == t;
    assert multiset(rest + tail)[x] == multiset(rest)[x] + t;
    assert multiset(prev + [last])[x] == a + (if x == last then 1 else 0);
    if x == last && ok(x) {
      MulSucc(a, c);
    }
  }

  lemma MulSucc(a: int, c: int)
    ensures (a + 1) * c == a * c + c
  {
  }

  /** The joined rows, newest order first. */
  function ListedDesc(msgs: seq<Message>, room: RoomId, anchors: seq<Time>, keyword: string): seq<Message> {
    SortDesc(JoinedRows(msgs, room, anchors, keyword), OrderOf)
  }

  /** The OFFSET of page `page`: (page - 1) * limit. */
  function PageOffset(page: int, limit: int): (o: int)
    ensures limit > 0 ==> (o < 0 <==> page < 1)
  {
    (page - 1) * limit
  }

  /** getMessagesByRoomId: the membership table is LEFT JOINed on the
      reader's active rows of the room (`anchors`, one per row), the WHERE
      clause keeps a message after the joined row's anchor, rows are
      ordered by order descending and the page starts at
      (page - 1) * limit. */
  function ListMessages(msgs: seq<Message>, room: RoomId, anchors: seq<Time>,
                        page: int, limit: int, keyword: string): (r: Result<seq<Message>>)
    ensures r.Err? <==> limit < 0 || (limit > 0 && page < 1)
    ensures r.Ok? ==> forall i :: 0 <= i < |r.value| ==>
      r.value[i] in msgs && exists k :: 0 <= k < |anchors| && Listed(r.value[i], room, anchors[k], keyword)
    ensures r.Ok? ==> SortedDesc(r.value, OrderOf)
    ensures r.Ok? && limit > 0 ==>
      var all := ListedDesc(msgs, room, anchors, keyword);
      var o := PageOffset(page, limit);
      && |r.value| == Max(0, Min(limit, |all| - o))
      && forall i :: 0 <= i < |r.value| ==> r.value[i] == all[o + i]
    ensures r.Ok? && limit == 0 ==>
      forall x :: (multiset(r.value)[x] ==
                   if Matches(x, room, keyword) then multiset(msgs)[x] * Copies(x, anchors) else 0)
    ensures anchors == [] && r.Ok? ==> r.value == []
  {
    var all := ListedDesc(msgs, room, anchors, keyword);
    ListedDescMembers(msgs, room, anchors, keyword);
    SqlWindowKeepsOrder(all, PageOffset(page, limit), limit, OrderOf);
    SqlWindow(all, PageOffset(page, limit), limit)
  }

  /** A message is listed exactly when it is in the log and some joined row
      lets it through. */
  lemma ListedDescMembers(msgs: seq<Message>, room: RoomId, anchors: seq<Time>, keyword: string)
    ensures forall x :: x in ListedDesc(msgs, room, anchors, keyword) <==>
      x in msgs && exists k :: 0 <= k < |anchors| && Listed(x, room, anchors[k], keyword)
    ensures anchors == [] ==> ListedDesc(msgs, room, anchors, keyword) == []
  {
    forall x ensures x in ListedDesc(msgs, room, anchors, keyword) <==>
      x in msgs && exists k :: 0 <= k < |anchors| && Listed(x, room, anchors[k], keyword)
    {
      ListedAt(x, msgs, room, anchors, keyword);
    }
    if anchors == [] {
      NoCopiesNoRows(msgs, room, anchors, keyword);
    }
  }

  lemma ListedAt(x: Message, msgs: seq<Message>, room: RoomId, anchors: seq<Time>, keyword: string)
    ensures x in ListedDesc(msgs, room, anchors, keyword) <==>
      x in msgs && exists k :: 0 <= k < |anchors| && Listed(x, room, anchors[k], keyword)
  {
    var all := ListedDesc(msgs, room, anchors, keyword);
    assert x in all <==> multiset(all)[x] > 0;
    assert x in msgs <==> multiset(msgs)[x] > 0;
    if Matches(x, room, keyword) {
      MulPositive(multiset(msgs)[x], Copies(x, anchors));
    }
  }

  /** When no message of the log passes any joined row, nothing is listed. */
  lemma NoCopiesNoRows(msgs: seq<Message>, room: RoomId, anchors: seq<Time>, keyword: string)
    requires forall x :: x in msgs ==> Copies(x, anchors) == 0
    ensures ListedDesc(msgs, room, anchors, keyword) == []
  {
    var all := ListedDesc(msgs, room, anchors, keyword);
    forall x ensures multiset(all)[x] == 0 {
      if x !in msgs {
        assert multiset(msgs)[x] == 0;
      }
    }
    assert multiset(all) == multiset{};
    assert |all| == |multiset(all)| == 0;
  }

  /** No message after every joined row's anchor: nothing is listed. */
  lemma NothingAfterAnchors(msgs: seq<Message>, room: RoomId, anchors: seq<Time>, keyword: string)
    requires forall j, k :: 0 <= j < |msgs| && 0 <= k < |anchors| ==> msgs[j].createdAt <= anchors[k]
    ensures ListedDesc(msgs, room, anchors, keyword) == []
  {
    forall x | x in msgs ensures Copies(x, anchors) == 0 {
      var j :| 0 <= j < |msgs| && msgs[j] == x;
      assert forall k :: 0 <= k < |anchors| ==> msgs[j].createdAt <= anchors[k];
    }
    NoCopiesNoRows(msgs, room, anchors, keyword);
  }

  lemma MulPositive(a: nat, b: nat)
    ensures a * b > 0 <==> a > 0 && b > 0
  {
  }

  /** With one joined row, as the unique key guarantees for a group, every
      listed message appears once. */
  lemma OneRowListsOnce(msgs: seq<Message>, room: RoomId, anchor: Time, keyword: string)
    ensures forall x :: (multiset(ListedDesc(msgs, room, [anchor], keyword))[x] ==
                         if Listed(x, room, anchor, keyword) then multiset(msgs)[x] else 0)
  {
    forall x ensures Copies(x, [anchor]) == if x.createdAt > anchor then 1 else 0 {
      assert [anchor][..0] == [];
    }
  }

  /** Two active rows of the reader with the same anchor list every message
      twice. */
  lemma TwoRowsListTwice(msgs: seq<Message>, room: RoomId, anchor: Time, keyword: string)
    ensures forall x :: (multiset(ListedDesc(msgs, room, [anchor, anchor], keyword))[x] ==
                         2 * multiset(ListedDesc(msgs, room, [anchor], keyword))[x])
  {
    forall x ensures Copies(x, [anchor, anchor]) == 2 * Copies(x, [anchor]) {
      assert [anchor, anchor][..1] == [anchor];
      assert [anchor][..0] == [];
    }
    forall x ensures multiset(ListedDesc(msgs, room, [anchor, anchor], keyword))[x] ==
      2 * multiset(ListedDesc(msgs, room, [anchor], keyword))[x]
    {
      var a := multiset(msgs)[x];
      assert a * (2 * Copies(x, [anchor])) == 2 * (a * Copies(x, [anchor]));
    }
  }

  // ---------------------------------------------------------------------------
  // Room-list preview

  /** The CASE of the room-list query: text rows show their text column,
      image and card rows a fixed placeholder. */
  function PreviewText(m: Message): (r: Option<string>)
    ensures m.kind == TextKind ==> r == TextOf(m)
    ensures m.kind == ImageKind ==> r == Some("새로운 이미지")
    ensures m.kind == CardKind ==> r == Some("새로운 카드 메세지")
  {
    match m.kind
    case TextKind => TextOf(m)
    case ImageKind => Some("새로운 이미지")
    case CardKind => Some("새로운 카드 메세지")
  }

  /** Inside the room-list window: the private query compares createdAt with
      `>=`, the group query with `>`. */
  predicate InWindow(m: Message, room: RoomId, anchor: Time, inclusive: bool) {
    m.roomId == room && (if inclusive then m.createdAt >= anchor else m.createdAt > anchor)
  }

  /** The correlated sub-query SELECT MAX(messageOrder) over the window;
      None stands for SQL NULL (no message inside the window). */
  function MaxWindowOrder(msgs: seq<Message>, room: RoomId, anchor: Time, inclusive: bool): (r: Option<int>)
    ensures r.None? <==> forall i :: 0 <= i < |msgs| ==> !InWindow(msgs[i], room, anchor, inclusive)
    ensures r.Some? ==> forall i :: 0 <= i < |msgs| && InWindow(msgs[i], room, anchor, inclusive) ==> msgs[i].order <= r.value
    ensures r.Some? ==> exists i :: 0 <= i < |msgs| && InWindow(msgs[i], room, anchor, inclusive) && msgs[i].order == r.value
  {
    if msgs == [] then None
    else
      var prev := msgs[..|msgs| - 1];
      var last := msgs[|msgs| - 1];
      assert msgs == prev + [last];
      var rest := MaxWindowOrder(prev, room, anchor, inclusive);
      if !InWindow(last, room, anchor, inclusive) then rest
      else if rest.None? then Some(last.order)
      else Some(Max(rest.value, last.order))
  }

  /** The messages the room-list query joins for one membership row: those of
      the room whose order equals the window's maximum. */
  function NewestInWindow(msgs: seq<Message>, room: RoomId, anchor: Time, inclusive: bool): (r: seq<Message>)
    ensures forall i :: 0 <= i < |r| ==> r[i] in msgs && r[i].roomId == room
    ensures MaxWindowOrder(msgs, room, anchor, inclusive).None? ==> r == []
    ensures MaxWindowOrder(msgs, room, anchor, inclusive).Some? ==>
      forall i :: 0 <= i < |r| ==> r[i].order == MaxWindowOrder(msgs, room, anchor, inclusive).value
    ensures MaxWindowOrder(msgs, room, anchor, inclusive).Some? ==>
      forall i :: (0 <= i < |msgs| && msgs[i].roomId == room &&
                   msgs[i].order == MaxWindowOrder(msgs, room, anchor, inclusive).value) ==> msgs[i] in r
    ensures MaxWindowOrder(msgs, room, anchor, inclusive).Some? ==>
      forall x :: (multiset(r)[x] ==
                   if x.roomId == room && x.order == MaxWindowOrder(msgs, room, anchor, inclusive).value
                   then multiset(msgs)[x] else 0)
  {
    match MaxWindowOrder(msgs, room, anchor, inclusive)
    case None => []
    case Some(top) => Filter(msgs, (m: Message) => m.roomId == room && m.order == top)
  }

  /** Under the log invariant the preview join finds exactly one message per
      room with a message inside the window: the newest one inside it. */
  lemma NewestInWindowIsUnique(msgs: seq<Message>, room: RoomId, anchor: Time, inclusive: bool)
    requires OrderedLog(msgs)
    requires MaxWindowOrder(msgs, room, anchor, inclusive).Some?
    ensures |NewestInWindow(msgs, room, anchor, inclusive)| == 1
    ensures var m := NewestInWindow(msgs, room, anchor, inclusive)[0];
      InWindow(m, room, anchor, inclusive) &&
      forall i :: 0 <= i < |msgs| && InWindow(msgs[i], room, anchor, inclusive) ==> msgs[i].order <= m.order
  {
    var top := MaxWindowOrder(msgs, room, anchor, inclusive).value;
    var k :| 0 <= k < |msgs| && InWindow(msgs[k], room, anchor, inclusive) && msgs[k].order == top;
    var p := (m: Message) => m.roomId == room && m.order == top;
    var r := Filter(msgs, p);
    forall i | 0 <= i < |msgs| && p(msgs[i]) ensures i == k {
      if i < k { OrdersIncrease(msgs, i, k); }
      if k < i { OrdersIncrease(msgs, k, i); }
    }
    assert msgs[k] in r;
    FilterSingle(msgs, p, k);
  }

  /** A filter that only one position of `s` passes keeps exactly that element. */
  lemma {:induction false} FilterSingle<T(!new)>(s: seq<T>, p: T -> bool, k: int)
    requires 0 <= k < |s| && p(s[k])
    requires forall i :: 0 <= i < |s| && p(s[i]) ==> i == k
    ensures Filter(s, p) == [s[k]]
  {
    var prev := s[..|s| - 1];
    if k == |s| - 1 {
      FilterNone(prev, p);
    } else {
      FilterSingle(prev, p, k);
    }
  }

  lemma {:induction false} FilterNone<T(!new)>(s: seq<T>, p: T -> bool)
    requires forall i :: 0 <= i < |s| ==> !p(s[i])
    ensures Filter(s, p) == []
  {
    if s != [] {
      FilterNone(s[..|s| - 1], p);
    }
  }
}

=== FILE: notice.dfy ===
/**
  The notice board list: the notices a user may see (their plant/shop's and
  the global ones, switched on, not yet expired, optionally matching a title
  keyword), newest update first, one page at a time, with the page count and
  whether a next page exists; and the controller's clamping of the page and
  page-size query values.
 */
module Notice {
  import opened Common

  /** A notice row; plantShop NULL marks a notice for everyone. */
  datatype Notice = Notice(id: int, title: string, useYN: string, plantShop: Option<string>,
                           endDate: Time, updatedAt: Time)

  /** A selected row: COALESCE(plantShop, 'ALL_NOTICE'). */
  datatype NoticeItem = NoticeItem(id: int, title: string, updatedAt: Time, plantShop: string)

  datatype NoticePage = NoticePage(items: seq<NoticeItem>, page: int, pageSize: int, totalPages: int, hasNext: bool)

  const AllNotice: string := "ALL_NOTICE"

  /** userId.slice(0, 5) */
  function ShopOf(userId: UserId): (shop: string)
    ensures shop <= userId && |shop| == Min(5, |userId|)
  {
    userId[..Min(5, |userId|)]
  }

  /** The characters String.prototype.trim removes: white space and line
      terminators. */
  predicate IsJsSpace(c: char) {
    c in {'\U{0009}', '\U{000A}', '\U{000B}', '\U{000C}', '\U{000D}', '\U{0020}', '\U{00A0}', '\U{1680}',
          '\U{2000}', '\U{2001}', '\U{2002}', '\U{2003}', '\U{2004}', '\U{2005}', '\U{2006}', '\U{2007}',
          '\U{2008}', '\U{2009}', '\U{200A}', '\U{2028}', '\U{2029}', '\U{202F}', '\U{205F}', '\U{3000}',
          '\U{FEFF}'}
  }

  /** keyword.trim() === '' */
  predicate IsBlank(keyword: string) {
    forall i :: 0 <= i < |keyword| ==> IsJsSpace(keyword[i])
  }

  /** The WHERE clause: the user's plant/shop or everyone's, useYN = 'Y',
      end_date after now, and the title containing the keyword unless the
      keyword is blank. */
  predicate Visible(n: Notice, shop: string, now: Time, keyword: string) {
    && (n.plantShop == Some(shop) || n.plantShop.None?)
    && n.useYN == "Y"
    && n.endDate > now
    && (IsBlank(keyword) || IsInfix(keyword, n.title))
  }

  function UpdatedAtOf(n: Notice): int { n.updatedAt }

  function ItemOf(n: Notice): NoticeItem {
    NoticeItem(n.id, n.title, n.updatedAt, if n.plantShop.Some? then n.plantShop.value else AllNotice)
  }

  /** All matching notices, newest update first (ties in any order). */
  function Matching(notices: seq<Notice>, shop: string, now: Time, keyword: string): (r: seq<Notice>)
    ensures SortedDesc(r, UpdatedAtOf)
    ensures forall i :: 0 <= i < |r| ==> r[i] in notices && Visible(r[i], shop, now, keyword)
    ensures forall i :: 0 <= i < |notices| && Visible(notices[i], shop, now, keyword) ==> notices[i] in r
  {
    var f := Filter(notices, n => Visible(n, shop, now, keyword));
    var r := SortDesc(f, UpdatedAtOf);
    forall i | 0 <= i < |r| ensures r[i] in notices && Visible(r[i], shop, now, keyword) {
      SortDescElements(f, UpdatedAtOf, r[i]);
      var k :| 0 <= k < |f| && f[k] == r[i];
    }
    forall i | 0 <= i < |notices| && Visible(notices[i], shop, now, keyword) ensures notices[i] in r {
      SortDescElements(f, UpdatedAtOf, notices[i]);
    }
    r
  }

  /** The matching notices are a permutation of the visible rows: each
      visible notice as often as the table holds it, nothing else. */
  lemma MatchingIsPermutation(notices: seq<Notice>, shop: string, now: Time, keyword: string)
    ensures forall n :: (multiset(Matching(notices, shop, now, keyword))[n] ==
                         if Visible(n, shop, now, keyword) then multiset(notices)[n] else 0)
  {
  }

  lemma {:induction false} MulNonnegative(a: nat, b: nat)
    ensures a * b >= 0
  {
    if a > 0 {
      MulNonnegative(a - 1, b);
      assert a * b == (a - 1) * b + b;
    }
  }

  /** The sign of the OFFSET (page - 1) * pageSize. */
  lemma OffsetSign(page: int, pageSize: int)
    ensures pageSize == 0 ==> (page - 1) * pageSize == 0
    ensures pageSize > 0 ==> ((page - 1) * pageSize < 0 <==> page < 1)
  {
    if pageSize > 0 {
      if page < 1 {
        MulNonnegative(-page, pageSize);
        assert (page - 1) * pageSize == -((-page) * pageSize) - pageSize;
      } else {
        MulNonnegative(page - 1, pageSize);
      }
    }
  }

  /** The selected columns of each row. */
  function Items(rows: seq<Notice>): (items: seq<NoticeItem>)
    ensures |items| == |rows|
    ensures forall i :: 0 <= i < |items| ==> items[i] == ItemOf(rows[i])
  {
    seq(|rows|, i requires 0 <= i < |rows| => ItemOf(rows[i]))
  }

  /** pageSize > 0 ? Math.ceil(total / pageSize) : 0 */
  function TotalPages(total: nat, pageSize: int): (pages: int)
    ensures pageSize <= 0 ==> pages == 0
    ensures pageSize > 0 ==> pages >= 0 && (pages - 1) * pageSize < total <= pages * pageSize
  {
    if pageSize > 0 then (total + pageSize - 1) / pageSize else 0
  }

  /** The page getNoticeList builds from the matching rows `all`: the
      selected columns of the rows at offset (page - 1) * pageSize, the page
      count and whether more rows follow. The query fails as the
      LIMIT/OFFSET clause does. */
  function PageOf(all: seq<Notice>, page: int, pageSize: int): (r: Result<NoticePage>)
    ensures r.Err? <==> pageSize < 0 || (pageSize > 0 && page < 1)
    ensures r.Ok? ==> r.value.page == page && r.value.pageSize == pageSize
    ensures r.Ok? ==> r.value.totalPages == TotalPages(|all|, pageSize)
    ensures r.Ok? ==> r.value.hasNext == (page * pageSize < |all|)
    ensures r.Ok? ==>
      var w := SqlWindow(all, (page - 1) * pageSize, pageSize);
      w.Ok? && r.value.items == Items(w.value)
    ensures r.Ok? && pageSize > 0 ==> |r.value.items| == Max(0, Min(pageSize, |all| - (page - 1) * pageSize))
    ensures r.Ok? && pageSize == 0 ==> r.value.items == Items(all)
    ensures r.Ok? && SortedDesc(all, UpdatedAtOf) ==>
      forall i, j :: 0 <= i < j < |r.value.items| ==> r.value.items[i].updatedAt >= r.value.items[j].updatedAt
  {
    var offset := (page - 1) * pageSize;
    OffsetSign(page, pageSize);
    match SqlWindow(all, offset, pageSize)
    case Err(e) => Err(e)
    case Ok(rows) =>
      SqlWindowKeepsOrder(all, offset, pageSize, UpdatedAtOf);
      Ok(NoticePage(Items(rows), page, pageSize, TotalPages(|all|, pageSize), page * pageSize < |all|))
  }

  /** getNoticeList: the page of the notices `userId` may see. */
  function GetNoticeList(notices: seq<Notice>, userId: UserId, page: int, pageSize: int, keyword: string,
                         now: Time): (r: Result<NoticePage>)
    ensures r.Err? <==> pageSize < 0 || (pageSize > 0 && page < 1)
    ensures r.Ok? ==>
      var total := |Matching(notices, ShopOf(userId), now, keyword)|;
      && r.value.page == page && r.value.pageSize == pageSize
      && r.value.totalPages == TotalPages(total, pageSize)
      && r.value.hasNext == (page * pageSize < total)
      && (pageSize > 0 ==> |r.value.items| == Max(0, Min(pageSize, total - (page - 1) * pageSize)))
  {
    PageOf(Matching(notices, ShopOf(userId), now, keyword), page, pageSize)
  }

  /** Every item of a page is a visible notice, and the page is ordered
      newest update first. */
  lemma NoticeListVisible(notices: seq<Notice>, userId: UserId, page: int, pageSize: int, keyword: string,
                          now: Time)
    ensures var r := GetNoticeList(notices, userId, page, pageSize, keyword, now);
      r.Ok? ==>
        && (forall i :: 0 <= i < |r.value.items| ==>
              exists n :: n in notices && Visible(n, ShopOf(userId), now, keyword) && r.value.items[i] == ItemOf(n))
        && (forall i, j :: 0 <= i < j < |r.value.items| ==> r.value.items[i].updatedAt >= r.value.items[j].updatedAt)
  {
    var all := Matching(notices, ShopOf(userId), now, keyword);
    var r := PageOf(all, page, pageSize);
    if r.Ok? {
      var w := SqlWindow(all, (page - 1) * pageSize, pageSize);
      SqlWindowKeepsOrder(all, (page - 1) * pageSize, pageSize, UpdatedAtOf);
      forall i | 0 <= i < |r.value.items|
        ensures exists n :: n in notices && Visible(n, ShopOf(userId), now, keyword) && r.value.items[i] == ItemOf(n)
      {
        assert w.value[i] in all && r.value.items[i] == ItemOf(w.value[i]);
      }
    }
  }

  /** A page has a successor exactly when it is not the last of the pages
      counted. */
  lemma {:induction false} HasNextIffBeforeLastPage(total: nat, page: int, pageSize: int)
    requires pageSize > 0
    ensures page * pageSize < total <==> page < TotalPages(total, pageSize)
  {
    var t := TotalPages(total, pageSize);
    assert (t - 1) * pageSize < total <= t * pageSize;
    if page < t {
      MulMonotone(page, t - 1, pageSize);
    } else {
      MulMonotone(t, page, pageSize);
    }
  }

  lemma MulMonotone(a: int, b: int, c: nat)
    requires a <= b
    ensures a * c <= b * c
  {
    MulNonnegative(b - a, c);
    assert b * c - a * c == (b - a) * c;
  }

  /** Page `page` holds the matching notices from position
      (page - 1) * pageSize on: its item m is the notice at position
      (page - 1) * pageSize + m, for every m < pageSize that is a position. */
  lemma {:induction false} PageHoldsItsPositions(notices: seq<Notice>, userId: UserId, page: int, pageSize: int,
                                                  keyword: string, now: Time, m: nat)
    requires page >= 1 && m < pageSize
    requires (page - 1) * pageSize + m < |Matching(notices, ShopOf(userId), now, keyword)|
    ensures var r := GetNoticeList(notices, userId, page, pageSize, keyword, now);
      r.Ok? && m < |r.value.items| &&
      r.value.items[m] == ItemOf(Matching(notices, ShopOf(userId), now, keyword)[(page - 1) * pageSize + m])
  {
    var all := Matching(notices, ShopOf(userId), now, keyword);
    var offset := (page - 1) * pageSize;
    OffsetSign(page, pageSize);
    WindowHolds(all, offset, pageSize, m);
  }

  lemma WindowHolds(all: seq<Notice>, offset: int, pageSize: int, m: nat)
    requires 0 <= offset && m < pageSize && offset + m < |all|
    ensures SqlWindow(all, offset, pageSize).Ok?
    ensures m < |SqlWindow(all, offset, pageSize).value|
    ensures SqlWindow(all, offset, pageSize).value[m] == all[offset + m]
  {
  }

  /** What the query string turned into by Number(...). */
  datatype JsNumber = NaN | Num(n: int)

  /** Number(page) || 1: NaN and 0 fall back to 1, anything else passes,
      negative pages included. */
  function ClampPage(page: JsNumber): (p: int)
    ensures p != 0
    ensures page.Num? && page.n != 0 ==> p == page.n
    ensures page == NaN || page == Num(0) ==> p == 1
  {
    if page.Num? && page.n != 0 then page.n else 1
  }

  /** Math.min(Math.max(Number(pageSize) || 20, 1), 100) */
  function ClampPageSize(pageSize: JsNumber): (s: int)
    ensures 1 <= s <= 100
    ensures pageSize.Num? && 1 <= pageSize.n <= 100 ==> s == pageSize.n
    ensures pageSize == NaN || pageSize == Num(0) ==> s == 20
    ensures pageSize.Num? && pageSize.n < 0 ==> s == 1
    ensures pageSize.Num? && pageSize.n > 100 ==> s == 100
  {
    var v := if pageSize.Num? && pageSize.n != 0 then pageSize.n else 20;
    Min(Max(v, 1), 100)
  }

  /** GET /notice: the clamped values go to getNoticeList. */
  function List(notices: seq<Notice>, userId: UserId, page: JsNumber, pageSize: JsNumber, keyword: string,
                now: Time): (r: Result<NoticePage>)
    ensures r.Err? <==> page.Num? && page.n < 0
    ensures r.Ok? ==> |r.value.items| <= 100 && r.value.pageSize == ClampPageSize(pageSize)
    ensures r.Ok? ==> (r.value.hasNext <==> r.value.page < r.value.totalPages)
  {
    var r := GetNoticeList(notices, userId, ClampPage(page), ClampPageSize(pageSize), keyword, now);
    HasNextIffBeforeLastPage(|Matching(notices, ShopOf(userId), now, keyword)|, ClampPage(page), ClampPageSize(pageSize));
    r
  }
}

=== FILE: private_chat.dfy ===
/**
  The private (one-to-one) chat service: the room table, the membership
  table private_chat_users (one row per participant, soft-deleted on leave)
  and the message table, with the operations that send, read, leave, rejoin
  and list. Each service method body is one atomic step over the tables.
 */
module PrivateChat {
  import opened Common
  import opened Messages
  import opened Unread

  /** A private_chat_users row. The table has only a non-unique index on
      (roomId, contactId), so nothing stops two rows of one user in a room. */
  datatype Member = Member(roomId: RoomId, contactId: UserId, createdAt: Time, isDeleted: bool,
                           leftAt: Option<Time>, rejoinedAt: Option<Time>, lastRead: int,
                           allowNotification: bool)

  /** A row as `save({ roomId, contactId })` inserts it: the column defaults
      isDeleted = false, lastReadMessageOrder = 0, allowNotification = 1. */
  function NewMember(room: RoomId, u: UserId, now: Time): Member {
    Member(room, u, now, false, None, None, 0, true)
  }

  predicate IsRowOf(m: Member, room: RoomId, u: UserId) {
    m.roomId == room && m.contactId == u
  }

  predicate ActiveRowOf(m: Member, room: RoomId, u: UserId) {
    IsRowOf(m, room, u) && !m.isDeleted
  }

  predicate ActiveIn(m: Member, room: RoomId) {
    m.roomId == room && !m.isDeleted
  }

  /** The window anchor COALESCE(rejoinedAt, createdAt) of a row. */
  function AnchorOf(m: Member): Time {
    Anchor(m.createdAt, m.rejoinedAt)
  }

  // ---------------------------------------------------------------------------
  // Lookups

  /** getRoomUser: the first row of `u` in `room` that is not soft-deleted
      (its index), None when there is none. */
  function FindRoomUser(members: seq<Member>, room: RoomId, u: UserId): (r: Option<nat>)
    ensures r.None? <==> forall i :: 0 <= i < |members| ==> !ActiveRowOf(members[i], room, u)
    ensures r.Some? ==> r.value < |members| && ActiveRowOf(members[r.value], room, u)
    ensures r.Some? ==> forall i :: 0 <= i < r.value ==> !ActiveRowOf(members[i], room, u)
  {
    if members == [] then None
    else
      var prev := members[..|members| - 1];
      assert forall i :: 0 <= i < |prev| ==> prev[i] == members[i];
      var found := FindRoomUser(prev, room, u);
      if found.Some? then found
      else if ActiveRowOf(members[|members| - 1], room, u) then Some(|members| - 1)
      else None
  }

  /** getRoomUsers: the contactId of every active row of the room, one
      entry per row (a user with two active rows is listed twice). */
  function RoomUsers(members: seq<Member>, room: RoomId): (r: seq<UserId>)
    ensures |r| <= |members|
    ensures forall i :: 0 <= i < |r| ==>
      exists j :: 0 <= j < |members| && ActiveRowOf(members[j], room, r[i])
    ensures forall j :: 0 <= j < |members| && ActiveIn(members[j], room) ==> members[j].contactId in r
  {
    if members == [] then []
    else
      var prev := members[..|members| - 1];
      var last := members[|members| - 1];
      assert forall i :: 0 <= i < |prev| ==> prev[i] == members[i];
      var rest := RoomUsers(prev, room);
      if ActiveIn(last, room) then
        assert ActiveRowOf(members[|members| - 1], room, last.contactId);
        rest + [last.contactId]
      else rest
  }

  /** getRoomUsers returns one entry per active row: as many entries as
      the room has active rows, and each user as often as they have active
      rows in it. */
  lemma {:induction false} RoomUsersCount(members: seq<Member>, room: RoomId)
    ensures |RoomUsers(members, room)| == Count(members, m => ActiveIn(m, room))
    ensures forall v :: multiset(RoomUsers(members, room))[v] == Count(members, m => ActiveRowOf(m, room, v))
  {
    if members != [] {
      var prev := members[..|members| - 1];
      RoomUsersCount(prev, room);
    }
  }

  /** The room has no active row exactly when getRoomUsers returns nothing. */
  lemma RoomUsersEmpty(members: seq<Member>, room: RoomId)
    ensures RoomUsers(members, room) == [] <==> forall j :: 0 <= j < |members| ==> !ActiveIn(members[j], room)
  {
    var r := RoomUsers(members, room);
    if r != [] {
      var j :| 0 <= j < |members| && ActiveRowOf(members[j], room, r[0]);
      assert ActiveIn(members[j], room);
    }
  }

  /** Two rows appended to a room without active rows make its users
      exactly those two, in insertion order. */
  lemma NewRoomUsers(before: seq<Member>, room: RoomId, u: UserId, friend: UserId, t1: Time, t2: Time)
    requires RoomUsers(before, room) == []
    ensures RoomUsers(before + [NewMember(room, u, t1), NewMember(room, friend, t2)], room) == [u, friend]
  {
    var once := before + [NewMember(room, u, t1)];
    var twice := once + [NewMember(room, friend, t2)];
    assert before + [NewMember(room, u, t1), NewMember(room, friend, t2)] == twice;
    assert twice[..|twice| - 1] == once;
    assert once[..|once| - 1] == before;
  }

  /** The rows getMessagesByRoomId LEFT JOINs for reader `u`: the anchor of
      every active row of `u` in the room, one per row. No
      row means the join yields NULL and no message passes. */
  function ReaderAnchors(members: seq<Member>, room: RoomId, u: UserId): (r: seq<Time>)
    ensures |r| <= |members|
    ensures r == [] <==> FindRoomUser(members, room, u).None?
    ensures forall k :: 0 <= k < |r| ==>
      exists i :: 0 <= i < |members| && ActiveRowOf(members[i], room, u) && r[k] == AnchorOf(members[i])
    ensures forall i :: 0 <= i < |members| && ActiveRowOf(members[i], room, u) ==> AnchorOf(members[i]) in r
  {
    if members == [] then []
    else
      var prev := members[..|members| - 1];
      var last := members[|members| - 1];
      assert forall i :: 0 <= i < |prev| ==> prev[i] == members[i];
      var rest := ReaderAnchors(prev, room, u);
      if ActiveRowOf(last, room, u) then rest + [AnchorOf(last)] else rest
  }

  /** One anchor per active row of the reader. */
  lemma {:induction false} ReaderAnchorsCount(members: seq<Member>, room: RoomId, u: UserId)
    ensures |ReaderAnchors(members, room, u)| == Count(members, m => ActiveRowOf(m, room, u))
  {
    if members != [] {
      ReaderAnchorsCount(members[..|members| - 1], room, u);
    }
  }

  predicate HasRow(members: seq<Member>, room: RoomId, u: UserId) {
    exists i :: 0 <= i < |members| && IsRowOf(members[i], room, u)
  }

  // ---------------------------------------------------------------------------
  // Looking up the room two users share

  /** roomId of every row of `u`, deleted or not, one entry per row. */
  function RoomsOf(members: seq<Member>, u: UserId): (r: seq<RoomId>)
    ensures |r| <= |members|
    ensures forall k :: 0 <= k < |r| ==> HasRow(members, r[k], u)
    ensures forall i :: 0 <= i < |members| && members[i].contactId == u ==> members[i].roomId in r
  {
    if members == [] then []
    else
      var prev := members[..|members| - 1];
      var last := members[|members| - 1];
      assert forall i :: 0 <= i < |prev| ==> prev[i] == members[i];
      var rest := RoomsOf(prev, u);
      assert forall k :: 0 <= k < |rest| ==> HasRow(members, rest[k], u) by {
        forall k | 0 <= k < |rest| ensures HasRow(members, rest[k], u) {
          var i :| 0 <= i < |prev| && IsRowOf(prev[i], rest[k], u);
          assert IsRowOf(members[i], rest[k], u);
        }
      }
      if last.contactId == u then
        assert IsRowOf(members[|members| - 1], last.roomId, u);
        rest + [last.roomId]
      else rest
  }

  /** One entry per row of `u`: as many as `u` has rows, and each room as
      often as `u` has rows in it. */
  lemma {:induction false} RoomsOfCount(members: seq<Member>, u: UserId)
    ensures |RoomsOf(members, u)| == Count(members, (m: Member) => m.contactId == u)
    ensures forall room :: multiset(RoomsOf(members, u))[room] == Count(members, m => IsRowOf(m, room, u))
  {
    if members != [] {
      RoomsOfCount(members[..|members| - 1], u);
    }
  }

  /** getPrivateRoomIfExists AS WRITTEN:
        SELECT roomId FROM private_chat_users pcu1
        WHERE pcu1.roomId = (SELECT pcu2.roomId ... WHERE pcu2.contactId = friend)
          AND pcu1.contactId = user
      The comparison is against a scalar sub-query, which MySQL evaluates to
      NULL when the friend has no row and rejects with error 1242 when the
      friend has more than one. */
  function RoomIfExistsAsWritten(members: seq<Member>, u: UserId, friend: UserId): (r: Result<Option<RoomId>>)
    ensures r.Err? <==> |RoomsOf(members, friend)| > 1
    ensures r.Err? ==> r.error == QueryFailed
    ensures |RoomsOf(members, friend)| == 0 ==> r == Ok(None)
    ensures |RoomsOf(members, friend)| == 1 ==>
      (r == Ok(Some(RoomsOf(members, friend)[0])) <==> HasRow(members, RoomsOf(members, friend)[0], u))
    ensures r.Ok? && r.value.Some? ==> HasRow(members, r.value.value, u) && HasRow(members, r.value.value, friend)
  {
    var fr := RoomsOf(members, friend);
    if |fr| == 0 then Ok(None)
    else if |fr| > 1 then Err(QueryFailed)
    else if HasRow(members, fr[0], u) then Ok(Some(fr[0]))
    else Ok(None)
  }

  /** The first room, in table order of `u`'s rows, that also holds a row of
      `friend`. */
  function SharedIn(rows: seq<Member>, members: seq<Member>, u: UserId, friend: UserId): (r: Option<RoomId>)
    ensures r.Some? ==> HasRow(rows, r.value, u) && HasRow(members, r.value, friend)
    ensures r.None? ==> forall i :: 0 <= i < |rows| && rows[i].contactId == u ==> !HasRow(members, rows[i].roomId, friend)
  {
    if rows == [] then None
    else if rows[0].contactId == u && HasRow(members, rows[0].roomId, friend) then
      assert IsRowOf(rows[0], rows[0].roomId, u);
      Some(rows[0].roomId)
    else
      var rest := SharedIn(rows[1..], members, u, friend);
      assert forall i :: 0 < i < |rows| ==> rows[i] == rows[1..][i - 1];
      if rest.Some? then
        var k :| 0 <= k < |rows[1..]| && IsRowOf(rows[1..][k], rest.value, u);
        assert IsRowOf(rows[k + 1], rest.value, u);
        rest
      else rest
  }

  /** The lookup the service evidently means: a room holding a row of each
      user, None only when no room holds both. */
  function SharedRoom(members: seq<Member>, u: UserId, friend: UserId): (r: Option<RoomId>)
    ensures r.Some? ==> HasRow(members, r.value, u) && HasRow(members, r.value, friend)
    ensures r.None? ==> forall room :: !(HasRow(members, room, u) && HasRow(members, room, friend))
  {
    var r := SharedIn(members, members, u, friend);
    if r.None? then
      assert forall room :: HasRow(members, room, u) ==> !HasRow(members, room, friend) by {
        forall room | HasRow(members, room, u) ensures !HasRow(members, room, friend) {
          var i :| 0 <= i < |members| && IsRowOf(members[i], room, u);
          assert members[i].contactId == u;
        }
      }
      r
    else r
  }

  /** While the friend has at most one membership row, the query as written
      finds the same room as the intended lookup. */
  lemma AsWrittenAgreesWithOneFriendRow(members: seq<Member>, u: UserId, friend: UserId)
    requires |RoomsOf(members, friend)| <= 1
    ensures RoomIfExistsAsWritten(members, u, friend) == Ok(SharedRoom(members, u, friend))
  {
    var fr := RoomsOf(members, friend);
    var shared := SharedRoom(members, u, friend);
    if shared.Some? {
      var i :| 0 <= i < |members| && IsRowOf(members[i], shared.value, friend);
      assert members[i].roomId in fr;
    } else if |fr| == 1 {
      assert HasRow(members, fr[0], friend);
    }
  }

  /** As written, once a user has two private rooms, nobody can open or reopen
      a chat with that user: here a and b already share room 1, b also talks
      with c in room 2, and a's request for the room with b fails. */
  lemma LookupFailsForFriendWithTwoRooms()
    ensures var ms := [NewMember(1, "a", 0), NewMember(1, "b", 0), NewMember(2, "c", 0), NewMember(2, "b", 0)];
      RoomIfExistsAsWritten(ms, "a", "b") == Err(QueryFailed) && SharedRoom(ms, "a", "b") == Some(1)
  {
    var ms := [NewMember(1, "a", 0), NewMember(1, "b", 0), NewMember(2, "c", 0), NewMember(2, "b", 0)];
    assert ms[1].contactId == "b" && ms[3].contactId == "b";
    var fr := RoomsOf(ms, "b");
    assert 1 in fr && 2 in fr;
    assert IsRowOf(ms[1], 1, "b");
  }

  /** The sub-query counts membership rows, not rooms: a friend who once
      opened a chat with themself (createOrGetPrivateRoom(f, f) gives room 1
      two rows of f) already makes every lookup for that friend fail, even
      with a single room. */
  lemma LookupFailsForSelfRoomFriend()
    ensures var ms := [NewMember(1, "f", 0), NewMember(1, "f", 0)];
      RoomIfExistsAsWritten(ms, "a", "f") == Err(QueryFailed) && SharedRoom(ms, "a", "f") == None
  {
    var ms := [NewMember(1, "f", 0), NewMember(1, "f", 0)];
    assert ms[..1] == [ms[0]];
    assert |RoomsOf(ms, "f")| == 2;
  }

  // ---------------------------------------------------------------------------
  // Row updates

  /** readMessage: UPDATE ... SET lastReadMessageOrder = order WHERE roomId =
      room AND contactId = u. Every such row, deleted or not, takes exactly
      `order`, lower than before or not; no other row changes. */
  function SetLastRead(members: seq<Member>, room: RoomId, u: UserId, order: int): (r: seq<Member>)
    ensures |r| == |members|
    ensures forall i :: 0 <= i < |r| && IsRowOf(members[i], room, u) ==> r[i] == members[i].(lastRead := order)
    ensures forall i :: 0 <= i < |r| && !IsRowOf(members[i], room, u) ==> r[i] == members[i]
  {
    if members == [] then []
    else
      var prev := members[..|members| - 1];
      var last := members[|members| - 1];
      var rest := SetLastRead(prev, room, u, order);
      rest + [if IsRowOf(last, room, u) then last.(lastRead := order) else last]
  }

  /** The fields rejoinIfDeleted writes, apart from lastReadMessageOrder:
      isDeleted = false, leftAt = NULL, rejoinedAt = a clock reading taken
      during the call (after t0, at most t1). */
  predicate Reactivated(before: Member, after: Member, t0: Time, t1: Time) {
    && after.rejoinedAt.Some?
    && t0 < after.rejoinedAt.value <= t1
    && after == before.(isDeleted := false, leftAt := None, rejoinedAt := after.rejoinedAt,
                        lastRead := after.lastRead)
  }

  /** One row across rejoinIfDeleted(room): deleted rows of the room are
      reactivated with lastReadMessageOrder = maxOrder, the rest unchanged. */
  predicate RejoinStep(before: Member, after: Member, room: RoomId, maxOrder: int, t0: Time, t1: Time) {
    if before.roomId == room && before.isDeleted then
      Reactivated(before, after, t0, t1) && after.lastRead == maxOrder
    else after == before
  }

  /** One row across a send: rejoin, then readMessage(room, sender, order). */
  predicate SendStep(before: Member, after: Member, room: RoomId, sender: UserId, order: int,
                     maxOrder: int, t0: Time, t1: Time) {
    if before.roomId != room then after == before
    else if before.isDeleted then
      Reactivated(before, after, t0, t1) &&
      after.lastRead == (if before.contactId == sender then order else maxOrder)
    else after == before.(lastRead := if before.contactId == sender then order else before.lastRead)
  }

  /** The row leaveGroup saves: isDeleted = true, leftAt = now,
      rejoinedAt = NULL. */
  function LeftRow(m: Member, now: Time): Member {
    m.(isDeleted := true, leftAt := Some(now), rejoinedAt := None)
  }

  /** The row's timestamps are clock readings already handed out. */
  predicate Stamped(m: Member, clock: Time) {
    m.createdAt <= clock && (m.rejoinedAt.Some? ==> m.rejoinedAt.value <= clock)
  }

  /** The rows left by `DELETE ... WHERE roomId = room`. */
  function MembersWithoutRoom(members: seq<Member>, room: RoomId): (r: seq<Member>)
    ensures forall i :: 0 <= i < |r| ==> r[i] in members && r[i].roomId != room
    ensures forall i :: 0 <= i < |members| && members[i].roomId != room ==> members[i] in r
  {
    Filter(members, (m: Member) => m.roomId != room)
  }

  /** The columns of a row that the warm query reads. */
  function MarkerOf(m: Member): ReadMarker {
    ReadMarker(m.roomId, m.contactId, m.isDeleted, m.lastRead)
  }

  // ---------------------------------------------------------------------------
  // The room list

  /** One row of getRoomLastMessages. */
  datatype RoomPreview = RoomPreview(roomId: RoomId, createdAt: Time, message: Option<string>,
                                     roomName: string, unreadCount: int)

  function PreviewTime(x: RoomPreview): int { x.createdAt }

  /** The joins of getRoomLastMessages for the reader's row p, message m and
      row o: p is an active row of the reader; m is a message of p's room
      whose order is the largest inside p's window (createdAt >= anchor);
      o is a row of another user of the room (deleted or not) present in the
      users table, whose `username grade` names the room. */
  predicate Joined(p: Member, m: Message, o: Member, msgs: seq<Message>, u: UserId,
                   names: map<UserId, string>) {
    && p.contactId == u && !p.isDeleted
    && m.roomId == p.roomId
    && MaxWindowOrder(msgs, p.roomId, AnchorOf(p), true) == Some(m.order)
    && o.roomId == p.roomId && o.contactId != u && o.contactId in names
  }

  /** The selected columns for one combination; the name is looked up in
      the users join, which Joined guarantees holds it. */
  function PreviewOf(p: Member, m: Message, o: Member, names: map<UserId, string>): RoomPreview {
    RoomPreview(p.roomId, m.createdAt, PreviewText(m),
                if o.contactId in names then names[o.contactId] else "", m.order - p.lastRead)
  }

  /** The join condition as a value, so that the joins below are proved for
      any condition. */
  type JoinCond = (Member, Message, Member) -> bool

  function JoinOthers(p: Member, m: Message, os: seq<Member>, ok: JoinCond,
                      names: map<UserId, string>): (r: seq<RoomPreview>)
    ensures forall x :: x in r ==> exists k :: (0 <= k < |os| && ok(p, m, os[k]) &&
      x == PreviewOf(p, m, os[k], names))
    ensures forall k :: 0 <= k < |os| && ok(p, m, os[k]) ==> PreviewOf(p, m, os[k], names) in r
  {
    if os == [] then []
    else
      var prev := os[..|os| - 1];
      var last := os[|os| - 1];
      assert forall k :: 0 <= k < |prev| ==> prev[k] == os[k];
      var rest := JoinOthers(p, m, prev, ok, names);
      if ok(p, m, last) then rest + [PreviewOf(p, m, last, names)] else rest
  }

  function JoinMessages(p: Member, ms: seq<Message>, os: seq<Member>, ok: JoinCond,
                        names: map<UserId, string>): (r: seq<RoomPreview>)
    ensures forall x :: x in r ==> exists j, k :: (0 <= j < |ms| && 0 <= k < |os| &&
      ok(p, ms[j], os[k]) && x == PreviewOf(p, ms[j], os[k], names))
    ensures forall j, k :: 0 <= j < |ms| && 0 <= k < |os| && ok(p, ms[j], os[k]) ==>
      PreviewOf(p, ms[j], os[k], names) in r
  {
    if ms == [] then []
    else
      var prev := ms[..|ms| - 1];
      var last := ms[|ms| - 1];
      assert forall j :: 0 <= j < |prev| ==> prev[j] == ms[j];
      JoinMessages(p, prev, os, ok, names) + JoinOthers(p, last, os, ok, names)
  }

  function JoinRows(ps: seq<Member>, os: seq<Member>, msgs: seq<Message>, ok: JoinCond,
                    names: map<UserId, string>): (r: seq<RoomPreview>)
    ensures forall x :: x in r ==> exists i, j, k :: (0 <= i < |ps| && 0 <= j < |msgs| && 0 <= k < |os| &&
      ok(ps[i], msgs[j], os[k]) && x == PreviewOf(ps[i], msgs[j], os[k], names))
    ensures forall i, j, k :: (0 <= i < |ps| && 0 <= j < |msgs| && 0 <= k < |os| &&
      ok(ps[i], msgs[j], os[k])) ==> PreviewOf(ps[i], msgs[j], os[k], names) in r
  {
    if ps == [] then []
    else
      var prev := ps[..|ps| - 1];
      var last := ps[|ps| - 1];
      assert forall i :: 0 <= i < |prev| ==> prev[i] == ps[i];
      JoinRows(prev, os, msgs, ok, names) + JoinMessages(last, msgs, os, ok, names)
  }

  /** getRoomLastMessages(u): every combination the joins admit, newest
      message first. `names` maps each id present in the users table to
      CONCAT(username, ' ', grade). */
  function RoomLastMessages(members: seq<Member>, msgs: seq<Message>, u: UserId,
                            names: map<UserId, string>): (r: seq<RoomPreview>)
    ensures SortedDesc(r, PreviewTime)
    ensures forall x :: x in r ==> exists i, j, k :: (0 <= i < |members| && 0 <= j < |msgs| && 0 <= k < |members| &&
      Joined(members[i], msgs[j], members[k], msgs, u, names) && x == PreviewOf(members[i], msgs[j], members[k], names))
    ensures forall i, j, k :: (0 <= i < |members| && 0 <= j < |msgs| && 0 <= k < |members| &&
      Joined(members[i], msgs[j], members[k], msgs, u, names)) ==> PreviewOf(members[i], msgs[j], members[k], names) in r
  {
    var ok: JoinCond := (p, m, o) => Joined(p, m, o, msgs, u, names);
    var joined := JoinRows(members, members, msgs, ok, names);
    var r := SortDesc(joined, PreviewTime);
    assert forall x :: x in r <==> x in joined by {
      forall x ensures x in r <==> x in joined {
        SortDescElements(joined, PreviewTime, x);
      }
    }
    r
  }

  /** Rows reactivated after time t0 open their window after every message
      stored by then. */
  lemma RejoinedAfterMessages(before: seq<Member>, after: seq<Member>, msgs: seq<Message>, room: RoomId,
                              maxOrder: int, t0: Time, t1: Time)
    requires |after| == |before|
    requires forall k :: 0 <= k < |before| ==> RejoinStep(before[k], after[k], room, maxOrder, t0, t1)
    requires forall j :: 0 <= j < |msgs| ==> msgs[j].createdAt <= t0
    ensures forall i, j :: (0 <= i < |after| && before[i].roomId == room && before[i].isDeleted &&
      0 <= j < |msgs|) ==> msgs[j].createdAt < AnchorOf(after[i])
  {
  }

  // ---------------------------------------------------------------------------
  // The service

  class PrivateChatService {
    /** private_chat_room ids */
    var rooms: set<RoomId>
    /** private_chat_users */
    var members: seq<Member>
    /** private_chat_message */
    var messages: seq<Message>
    /** the AUTO_INCREMENT counters of the room and message tables */
    var nextRoomId: RoomId
    var nextMessageId: nat
    /** the last clock reading handed out */
    var clock: Time
    /** the user:{id}:private:unread keys */
    const unread: UnreadCache

    ghost predicate Valid()
      reads this
    {
      && OrderedLog(messages)
      && (forall r :: r in rooms ==> r < nextRoomId)
      && (forall i :: 0 <= i < |members| ==> members[i].roomId in rooms)
      && (forall i :: 0 <= i < |messages| ==> messages[i].roomId in rooms)
      && (forall i :: 0 <= i < |messages| ==> messages[i].createdAt <= clock)
      && (forall i :: 0 <= i < |members| ==> Stamped(members[i], clock))
    }

    constructor (cache: UnreadCache)
      ensures Valid() && unread == cache
      ensures rooms == {} && members == [] && messages == []
    {
      rooms := {};
      members := [];
      messages := [];
      nextRoomId := 1;
      nextMessageId := 1;
      clock := 0;
      unread := cache;
    }

    /** createPrivateRoom: inserts a room row with the next id. */
    method InsertRoom() returns (room: RoomId)
      requires Valid()
      modifies this
      ensures Valid()
      ensures room == old(nextRoomId) && room !in old(rooms) && rooms == old(rooms) + {room}
      ensures nextRoomId == old(nextRoomId) + 1
      ensures members == old(members) && messages == old(messages) && clock == old(clock)
      ensures nextMessageId == old(nextMessageId)
      ensures forall i :: 0 <= i < |members| ==> members[i].roomId != room
    {
      room := nextRoomId;
      nextRoomId := nextRoomId + 1;
      rooms := rooms + {room};
    }

    /** addUserToRoom: inserts a row with the column defaults. */
    method AddUserToRoom(room: RoomId, u: UserId)
      requires Valid() && room in rooms
      modifies this
      ensures Valid()
      ensures clock == old(clock) + 1
      ensures members == old(members) + [NewMember(room, u, clock)]
      ensures rooms == old(rooms) && messages == old(messages)
      ensures nextRoomId == old(nextRoomId) && nextMessageId == old(nextMessageId)
    {
      clock := clock + 1;
      members := members + [NewMember(room, u, clock)];
    }

    /** msgRepo.save of a new message row, stamped with the next clock
        reading. */
    method InsertMessage(room: RoomId, sender: UserId, kind: MessageKind, body: Body) returns (m: Message)
      requires Valid() && room in rooms
      modifies this
      ensures Valid()
      ensures clock == old(clock) + 1
      ensures m == Message(old(nextMessageId), room, sender, kind, body, MaxOrder(old(messages), room) + 1, clock)
      ensures messages == old(messages) + [m]
      ensures members == old(members) && rooms == old(rooms)
      ensures nextRoomId == old(nextRoomId) && nextMessageId == old(nextMessageId) + 1
    {
      var t := clock + 1;
      m := Message(nextMessageId, room, sender, kind, body, MaxOrder(messages, room) + 1, t);
      AppendKeepsOrderedLog(messages, m);
      var msgs := messages + [m];
      assert forall i :: 0 <= i < |msgs| ==> msgs[i].roomId in rooms && msgs[i].createdAt <= t by {
        forall i | 0 <= i < |msgs| ensures msgs[i].roomId in rooms && msgs[i].createdAt <= t {
          if i < |messages| {
            assert msgs[i] == messages[i];
          }
        }
      }
      assert forall i :: 0 <= i < |members| ==> Stamped(members[i], t);
      clock, messages, nextMessageId := t, msgs, nextMessageId + 1;
    }

    /** The three DELETEs that remove a room: its messages, its rows, the
        room row. */
    method DeleteRoom(room: RoomId)
      requires Valid()
      modifies this
      ensures Valid()
      ensures messages == WithoutRoom(old(messages), room)
      ensures members == MembersWithoutRoom(old(members), room)
      ensures rooms == old(rooms) - {room}
      ensures clock == old(clock) && nextRoomId == old(nextRoomId) && nextMessageId == old(nextMessageId)
    {
      WithoutRoomKeepsOrderedLog(messages, room);
      var msgs := WithoutRoom(messages, room);
      var rows := MembersWithoutRoom(members, room);
      var left := rooms - {room};
      forall i | 0 <= i < |msgs| ensures msgs[i].roomId in left && msgs[i].createdAt <= clock {
        var j :| 0 <= j < |messages| && messages[j] == msgs[i];
      }
      forall i | 0 <= i < |rows| ensures rows[i].roomId in left && Stamped(rows[i], clock) {
        var j :| 0 <= j < |members| && members[j] == rows[i];
      }
      messages := msgs;
      members := rows;
      rooms := left;
    }

    /** rejoinIfDeleted: every soft-deleted row of the room is reactivated,
        its marker set to the room's current maximum order; every message
        already stored then lies before the reactivated row's window. */
    method RejoinIfDeleted(room: RoomId)
      requires Valid()
      modifies this
      ensures Valid()
      ensures rooms == old(rooms) && messages == old(messages)
      ensures nextRoomId == old(nextRoomId) && nextMessageId == old(nextMessageId)
      ensures old(clock) <= clock
      ensures |members| == |old(members)|
      ensures forall i :: 0 <= i < |members| ==>
        RejoinStep(old(members)[i], members[i], room, MaxOrder(messages, room), old(clock), clock)
      ensures forall i, j :: (0 <= i < |members| && old(members)[i].roomId == room && old(members)[i].isDeleted &&
        0 <= j < |messages|) ==> messages[j].createdAt < AnchorOf(members[i])
    {
      var maxOrder := MaxOrder(messages, room);
      var rows, t := members, clock;
      var i := 0;
      while i < |rows|
        invariant 0 <= i <= |rows| == |members|
        invariant clock <= t
        invariant forall k :: 0 <= k < i ==> RejoinStep(members[k], rows[k], room, maxOrder, clock, t)
        invariant forall k :: i <= k < |rows| ==> rows[k] == members[k]
        invariant forall k :: 0 <= k < |rows| ==> rows[k].roomId == members[k].roomId && Stamped(rows[k], t)
      {
        if rows[i].roomId == room && rows[i].isDeleted {
          t := t + 1;
          rows := rows[i := rows[i].(isDeleted := false, leftAt := None, rejoinedAt := Some(t), lastRead := maxOrder)];
        }
        i := i + 1;
      }
      RejoinedAfterMessages(members, rows, messages, room, maxOrder, clock, t);
      members, clock := rows, t;
    }

    /** readMessage as a step of the service. */
    method ReadMessage(room: RoomId, u: UserId, order: int)
      requires Valid()
      modifies this
      ensures Valid()
      ensures members == SetLastRead(old(members), room, u, order)
      ensures rooms == old(rooms) && messages == old(messages) && clock == old(clock)
      ensures nextRoomId == old(nextRoomId) && nextMessageId == old(nextMessageId)
    {
      members := SetLastRead(members, room, u, order);
    }

    /** createTextMessage / createImageMessage / createCardMessage: a missing
        room fails with NotFound and stores nothing; otherwise the room's
        deleted rows are reactivated, the sender's marker moves to the new
        order, and the message is stored with order MAX + 1 (1 in an empty
        room). The sender is not checked for membership. Every row of the
        room is then active and its window holds the new message. */
    method SendMessage(sender: UserId, room: RoomId, kind: MessageKind, body: Body) returns (r: Result<Message>)
      requires Valid()
      modifies this
      ensures Valid()
      ensures room !in old(rooms) ==> r == Err(NotFound) && unchanged(this)
      ensures room in old(rooms) ==> r.Ok?
      ensures r.Ok? ==>
        && r.value == Message(old(nextMessageId), room, sender, kind, body,
                              MaxOrder(old(messages), room) + 1, clock)
        && old(clock) < clock
        && messages == old(messages) + [r.value]
        && rooms == old(rooms) && nextRoomId == old(nextRoomId) && nextMessageId == old(nextMessageId) + 1
        && |members| == |old(members)|
        && forall i :: 0 <= i < |members| ==>
             SendStep(old(members)[i], members[i], room, sender, r.value.order,
                      MaxOrder(old(messages), room), old(clock), clock)
      ensures r.Ok? ==> forall i :: 0 <= i < |members| && members[i].roomId == room ==>
        !members[i].isDeleted && Listed(r.value, room, AnchorOf(members[i]), "")
    {
      var maxOrder := MaxOrder(messages, room);
      if room !in rooms {
        return Err(NotFound);
      }
      ghost var before := members;
      ghost var t0 := clock;
      RejoinIfDeleted(room);
      ghost var mid := members;
      ghost var t1 := clock;
      ReadMessage(room, sender, maxOrder + 1);
      ghost var read := members;
      var m := InsertMessage(room, sender, kind, body);
      r := Ok(m);
      forall i | 0 <= i < |members|
        ensures SendStep(before[i], members[i], room, sender, m.order, maxOrder, t0, clock)
      {
        assert RejoinStep(before[i], mid[i], room, maxOrder, t0, t1);
        assert members[i] == read[i];
      }
      forall i | 0 <= i < |members| && members[i].roomId == room
        ensures !members[i].isDeleted && Listed(m, room, AnchorOf(members[i]), "")
      {
        assert Stamped(members[i], t1);
        assert SendStep(before[i], members[i], room, sender, m.order, maxOrder, t0, clock);
      }
    }

    /** leaveGroup (private): a caller without an active row gets NotFound.
        Otherwise that row is soft-deleted (leftAt = now, rejoinedAt = NULL);
        when the room then has no active row, its messages, rows and room row
        are deleted, else all three are kept. */
    method Leave(u: UserId, room: RoomId) returns (o: Outcome)
      requires Valid()
      modifies this
      ensures Valid()
      ensures FindRoomUser(old(members), room, u).None? ==> o == Fail(NotFound) && unchanged(this)
      ensures FindRoomUser(old(members), room, u).Some? ==>
        var k := FindRoomUser(old(members), room, u).value;
        var left := old(members)[k := LeftRow(old(members)[k], clock)];
        && o == Done && clock == old(clock) + 1
        && nextRoomId == old(nextRoomId) && nextMessageId == old(nextMessageId)
        && (RoomUsers(left, room) != [] ==>
              members == left && messages == old(messages) && rooms == old(rooms))
        && (RoomUsers(left, room) == [] ==>
              members == MembersWithoutRoom(left, room) && messages == WithoutRoom(old(messages), room) &&
              rooms == old(rooms) - {room})
    {
      var found := FindRoomUser(members, room, u);
      if found.None? {
        return Fail(NotFound);
      }
      var k := found.value;
      clock := clock + 1;
      members := members[k := LeftRow(members[k], clock)];
      var remaining := RoomUsers(members, room);
      if |remaining| == 0 {
        DeleteRoom(room);
      }
      o := Done;
    }

    /** The second half of createOrGetPrivateRoom, once the lookup has
        answered: a found room is returned after its deleted rows are
        reactivated; otherwise a new room is created with one fresh row for
        each user, and those two rows are all the new room has. */
    method OpenRoom(u: UserId, friend: UserId, existing: Option<RoomId>) returns (room: RoomId)
      requires Valid()
      modifies this
      ensures Valid()
      ensures existing.Some? ==>
        && room == existing.value
        && rooms == old(rooms) && messages == old(messages)
        && nextRoomId == old(nextRoomId) && nextMessageId == old(nextMessageId)
        && |members| == |old(members)|
        && forall i :: 0 <= i < |members| ==>
             RejoinStep(old(members)[i], members[i], room, MaxOrder(messages, room), old(clock), clock)
      ensures existing.None? ==>
        && room == old(nextRoomId) && room !in old(rooms)
        && rooms == old(rooms) + {room} && messages == old(messages)
        && nextRoomId == old(nextRoomId) + 1 && nextMessageId == old(nextMessageId)
        && clock == old(clock) + 2
        && members == old(members) + [NewMember(room, u, clock - 1), NewMember(room, friend, clock)]
        && RoomUsers(members, room) == [u, friend]
    {
      if existing.Some? {
        RejoinIfDeleted(existing.value);
        return existing.value;
      }
      room := InsertRoom();
      ghost var before := members;
      RoomUsersEmpty(before, room);
      AddUserToRoom(room, u);
      AddUserToRoom(room, friend);
      NewRoomUsers(before, room, u, friend, clock - 1, clock);
    }

    /** createOrGetPrivateRoom as written: an unknown friend gives NotFound;
        the lookup getPrivateRoomIfExists runs as written, and when it
        fails (the friend has more than one membership row) the whole call fails with
        nothing changed; a room it finds is rejoined, and when it finds none
        a new room is created. `users` is the users table. */
    method CreateOrGetPrivateRoom(u: UserId, friend: UserId, users: set<UserId>) returns (r: Result<RoomId>)
      requires Valid()
      modifies this
      ensures Valid()
      ensures friend !in users ==> r == Err(NotFound) && unchanged(this)
      ensures friend in users && RoomIfExistsAsWritten(old(members), u, friend).Err? ==>
        r == Err(QueryFailed) && unchanged(this)
      ensures friend in users && RoomIfExistsAsWritten(old(members), u, friend).Ok? ==>
        r.Ok? && (RoomIfExistsAsWritten(old(members), u, friend).value.Some? ==>
                  r.value == RoomIfExistsAsWritten(old(members), u, friend).value.value)
      ensures friend in users && r.Ok? && RoomIfExistsAsWritten(old(members), u, friend) == Ok(Some(r.value)) ==>
        && rooms == old(rooms) && messages == old(messages)
        && nextRoomId == old(nextRoomId) && nextMessageId == old(nextMessageId)
        && |members| == |old(members)|
        && forall i :: 0 <= i < |members| ==>
             RejoinStep(old(members)[i], members[i], r.value, MaxOrder(messages, r.value), old(clock), clock)
      ensures friend in users && RoomIfExistsAsWritten(old(members), u, friend) == Ok(None) ==>
        && r.Ok? && r.value == old(nextRoomId) && r.value !in old(rooms)
        && rooms == old(rooms) + {r.value} && messages == old(messages)
        && nextRoomId == old(nextRoomId) + 1 && nextMessageId == old(nextMessageId)
        && clock == old(clock) + 2
        && members == old(members) + [NewMember(r.value, u, clock - 1), NewMember(r.value, friend, clock)]
        && RoomUsers(members, r.value) == [u, friend]
    {
      if friend !in users {
        return Err(NotFound);
      }
      var existing := RoomIfExistsAsWritten(members, u, friend);
      if existing.Err? {
        return Err(QueryFailed);
      }
      var room := OpenRoom(u, friend, existing.value);
      r := Ok(room);
    }

    /** createOrGetPrivateRoom with the corrected lookup SharedRoom: it
        never fails for a known friend, returns the room both users already
        share (rejoined) and creates one only when there is none. */
    method CreateOrGetPrivateRoomCorrected(u: UserId, friend: UserId, users: set<UserId>) returns (r: Result<RoomId>)
      requires Valid()
      modifies this
      ensures Valid()
      ensures friend !in users ==> r == Err(NotFound) && unchanged(this)
      ensures friend in users ==> r.Ok?
      ensures friend in users && SharedRoom(old(members), u, friend).Some? ==>
        && r.value == SharedRoom(old(members), u, friend).value
        && rooms == old(rooms) && messages == old(messages)
        && nextRoomId == old(nextRoomId) && nextMessageId == old(nextMessageId)
        && |members| == |old(members)|
        && forall i :: 0 <= i < |members| ==>
             RejoinStep(old(members)[i], members[i], r.value, MaxOrder(messages, r.value), old(clock), clock)
      ensures friend in users && SharedRoom(old(members), u, friend).None? ==>
        && r.value == old(nextRoomId) && r.value !in old(rooms)
        && rooms == old(rooms) + {r.value} && messages == old(messages)
        && nextRoomId == old(nextRoomId) + 1 && nextMessageId == old(nextMessageId)
        && clock == old(clock) + 2
        && members == old(members) + [NewMember(r.value, u, clock - 1), NewMember(r.value, friend, clock)]
        && RoomUsers(members, r.value) == [u, friend]
    {
      if friend !in users {
        return Err(NotFound);
      }
      var room := OpenRoom(u, friend, SharedRoom(members, u, friend));
      r := Ok(room);
    }

    /** warmUnreadPrivteCache(u): the cache of `u` rebuilt from u's active
        rows. */
    method WarmUnread(u: UserId) returns (total: int)
      requires Valid()
      modifies unread
      ensures total == RowsTotal(UnreadRows(Markers(members, MarkerOf), messages, u))
      ensures unread.Hash(u) == RowsHash(UnreadRows(Markers(members, MarkerOf), messages, u)) && unread.Total(u) == total
      ensures forall v :: v != u ==> unread.Hash(v) == old(unread.Hash(v)) && unread.Total(v) == old(unread.Total(v))
      ensures DistinctRooms(UnreadRows(Markers(members, MarkerOf), messages, u)) ==> unread.Consistent(u)
    {
      total := unread.Warm(u, UnreadRows(Markers(members, MarkerOf), messages, u));
    }

    /** updateReadLastMessage: NotFound for a missing room; otherwise u's
        marker is set to the room's maximum order and u's cached count for the
        room is cleared. */
    method UpdateReadLastMessage(u: UserId, room: RoomId) returns (o: Outcome)
      requires Valid()
      modifies this, unread
      ensures Valid()
      ensures room !in old(rooms) ==> o == Fail(NotFound) && unchanged(this) && unchanged(unread)
      ensures room in old(rooms) ==>
        && o == Done
        && members == SetLastRead(old(members), room, u, MaxOrder(messages, room))
        && messages == old(messages) && rooms == old(rooms)
        && clock == old(clock) && nextRoomId == old(nextRoomId) && nextMessageId == old(nextMessageId)
        && unread.Hash(u) == (if old(unread.Count(u, room)) > 0 then old(unread.Hash(u))[room := 0] else old(unread.Hash(u)))
        && unread.Count(u, room) == (if old(unread.Count(u, room)) > 0 then 0 else old(unread.Count(u, room)))
        && unread.Total(u) == old(unread.Total(u)) - Max(old(unread.Count(u, room)), 0)
        && (forall v :: v != u ==> unread.Hash(v) == old(unread.Hash(v)) && unread.Total(v) == old(unread.Total(v)))
        && forall v :: old(unread.Consistent(v)) ==> unread.Consistent(v)
    {
      if room !in rooms {
        return Fail(NotFound);
      }
      ReadMessage(room, u, MaxOrder(messages, room));
      var _ := unread.ClearUnreadForRoom(u, room);
      o := Done;
    }
  }
}

=== FILE: room_path.dfy ===
/**
  parseRoomFromPath: which chat room a client page path points at. The part
  before the first '?' must be exactly /group-chat/<digits> or
  /private-chat/<digits>; anything else names no room.
 */
module RoomPath {
  import opened Common

  datatype RoomKind = Group | Private

  /** The returned object: `kind`, and `roomId` only when a room was
      recognised. */
  datatype RoomRef = RoomRef(kind: Option<RoomKind>, roomId: Option<nat>)

  const GroupPrefix: string := "/group-chat/"
  const PrivatePrefix: string := "/private-chat/"

  /** path.split('?')[0] */
  function BeforeQuery(path: string): (p: string)
    ensures p <= path
    ensures '?' !in p
    ensures |p| < |path| ==> path[|p|] == '?'
  {
    if path == [] then []
    else if path[0] == '?' then []
    else [path[0]] + BeforeQuery(path[1..])
  }

  predicate IsDigit(c: char) { '0' <= c <= '9' }

  /** The text matches \d+ in full. */
  predicate AllDigits(s: string) {
    |s| > 0 && forall i :: 0 <= i < |s| ==> IsDigit(s[i])
  }

  /** Number(s) for a string of decimal digits. */
  function DigitsValue(s: string): nat
    requires forall i :: 0 <= i < |s| ==> IsDigit(s[i])
  {
    if s == [] then 0
    else
      assert IsDigit(s[|s| - 1]);
      DigitsValue(s[..|s| - 1]) * 10 + (s[|s| - 1] as int - '0' as int)
  }

  /** The room reference of `path`; the empty path is rejected first. */
  function ParseRoomFromPath(path: string): (r: RoomRef)
    ensures path == [] ==> r == RoomRef(None, None)
    ensures r.kind.None? <==> r.roomId.None?
    ensures r.kind == Some(Group) ==> GroupPrefix <= path && !(PrivatePrefix <= path)
    ensures r.kind == Some(Private) ==> PrivatePrefix <= path && !(GroupPrefix <= path)
  {
    if path == [] then RoomRef(None, None)
    else
      var p := BeforeQuery(path);
      if GroupPrefix <= p && AllDigits(p[|GroupPrefix|..]) then
        assert path[1] == GroupPrefix[1] != PrivatePrefix[1];
        RoomRef(Some(Group), Some(DigitsValue(p[|GroupPrefix|..])))
      else if PrivatePrefix <= p && AllDigits(p[|PrivatePrefix|..]) then
        assert path[1] == PrivatePrefix[1] != GroupPrefix[1];
        RoomRef(Some(Private), Some(DigitsValue(p[|PrivatePrefix|..])))
      else RoomRef(None, None)
  }

  /** `path` is `prefix`, a run of digits, then nothing or a query string. */
  ghost predicate Shaped(path: string, prefix: string, digits: string, query: string) {
    path == prefix + digits + query && AllDigits(digits) && (query == [] || query[0] == '?')
  }

  lemma BeforeQueryOfShaped(prefix: string, digits: string, query: string)
    requires '?' !in prefix && AllDigits(digits) && (query == [] || query[0] == '?')
    ensures BeforeQuery(prefix + digits + query) == prefix + digits
  {
    var path := prefix + digits + query;
    var p := BeforeQuery(path);
    var w := prefix + digits;
    assert '?' !in w by {
      forall i | 0 <= i < |w| ensures w[i] != '?' {
        if i >= |prefix| {
          assert w[i] == digits[i - |prefix|];
        }
      }
    }
    BeforeQueryPrefix(w, query);
  }

  /** Every path of the form /group-chat/<digits>[?...] names that group,
      and /private-chat/<digits>[?...] that private room. */
  lemma {:induction false} ParseShaped(digits: string, query: string)
    requires AllDigits(digits) && (query == [] || query[0] == '?')
    ensures ParseRoomFromPath(GroupPrefix + digits + query) == RoomRef(Some(Group), Some(DigitsValue(digits)))
    ensures ParseRoomFromPath(PrivatePrefix + digits + query) == RoomRef(Some(Private), Some(DigitsValue(digits)))
  {
    BeforeQueryOfShaped(GroupPrefix, digits, query);
    assert (GroupPrefix + digits)[|GroupPrefix|..] == digits;
    BeforeQueryOfShaped(PrivatePrefix, digits, query);
    assert (PrivatePrefix + digits)[|PrivatePrefix|..] == digits;
    assert !(GroupPrefix <= PrivatePrefix + digits) by {
      assert (PrivatePrefix + digits)[1] != GroupPrefix[1];
    }
  }

  /** Conversely, a recognised room comes from a path of exactly that form,
      and the id is the digits' value. */
  lemma {:induction false} ParseSound(path: string)
    ensures ParseRoomFromPath(path).kind.None? <==> ParseRoomFromPath(path).roomId.None?
    ensures ParseRoomFromPath(path).kind == Some(Group) ==>
      exists digits, query :: Shaped(path, GroupPrefix, digits, query) &&
        ParseRoomFromPath(path).roomId == Some(DigitsValue(digits))
    ensures ParseRoomFromPath(path).kind == Some(Private) ==>
      exists digits, query :: Shaped(path, PrivatePrefix, digits, query) &&
        ParseRoomFromPath(path).roomId == Some(DigitsValue(digits))
  {
    if path != [] {
      var p := BeforeQuery(path);
      var query := path[|p|..];
      assert path == p + query;
      if GroupPrefix <= p && AllDigits(p[|GroupPrefix|..]) {
        var digits := p[|GroupPrefix|..];
        assert p == GroupPrefix + digits;
        assert Shaped(path, GroupPrefix, digits, query);
      } else if PrivatePrefix <= p && AllDigits(p[|PrivatePrefix|..]) {
        var digits := p[|PrivatePrefix|..];
        assert p == PrivatePrefix + digits;
        assert Shaped(path, PrivatePrefix, digits, query);
      }
    }
  }

  /** Anything after the first '?' is ignored. */
  lemma {:induction false} QueryIgnored(p: string, query: string)
    requires '?' !in p && p != []
    ensures ParseRoomFromPath(p + "?" + query) == ParseRoomFromPath(p)
  {
    BeforeQueryPrefix(p, "?" + query);
    BeforeQueryPrefix(p, []);
    assert p + [] == p;
    assert p + "?" + query == p + ("?" + query);
  }

  lemma {:induction false} BeforeQueryPrefix(p: string, rest: string)
    requires '?' !in p && (rest == [] || rest[0] == '?')
    ensures BeforeQuery(p + rest) == p
    decreases |p|
  {
    if p == [] {
      assert p + rest == rest;
    } else {
      assert (p + rest)[1..] == p[1..] + rest;
      BeforeQueryPrefix(p[1..], rest);
      assert [p[0]] + p[1..] == p;
    }
  }

  /** The decimal digits of n, most significant first. */
  function Decimal(n: nat): (s: string)
    ensures AllDigits(s)
    ensures DigitsValue(s) == n
  {
    var d := ['0' + (n % 10) as char];
    if n < 10 then d
    else
      var s := Decimal(n / 10) + d;
      assert s[..|s| - 1] == Decimal(n / 10);
      s
  }

  /** A room id written in decimal into a page path is read back. */
  lemma RoomIdRoundTrip(n: nat, kind: RoomKind, query: string)
    requires query == [] || query[0] == '?'
    ensures ParseRoomFromPath((if kind == Group then GroupPrefix else PrivatePrefix) + Decimal(n) + query) ==
      RoomRef(Some(kind), Some(n))
  {
    ParseShaped(Decimal(n), query);
  }
}

=== FILE: unread_cache.dfy ===
/**
  The per-user unread cache each service keeps in Redis under
  user:{id}:{kind}:unread (a hash room -> count) and
  user:{id}:{kind}:unread:total (an integer). A missing key or field reads
  as 0, as `Number(null || 0)` does. The cache is meant to satisfy
  total == sum of the per-room counts; `warm` rebuilds it from the tables,
  the two other operations adjust it.
 */
module Unread {
  import opened Common
  import opened Messages

  /** A field of a Redis hash, 0 when absent. */
  function Val(m: map<RoomId, int>, k: RoomId): int {
    if k in m then m[k] else 0
  }

  /** Sum of the fields of `m` whose keys lie in `keys`. */
  ghost function SumOver(m: map<RoomId, int>, keys: set<RoomId>): int
    decreases keys
  {
    if keys == {} then 0
    else
      HasElement(keys);
      var k :| k in keys;
      Val(m, k) + SumOver(m, keys - {k})
  }

  lemma HasElement(keys: set<RoomId>)
    requires keys != {}
    ensures exists k :: k in keys
  {
    if forall k :: k !in keys {
      assert false;
    }
  }

  /** Sum of all per-room counts of a hash. */
  ghost function Sum(m: map<RoomId, int>): int {
    SumOver(m, m.Keys)
  }

  /** Any key of the set can be taken out first. */
  lemma {:induction false} SumOverPick(m: map<RoomId, int>, keys: set<RoomId>, k: RoomId)
    requires k in keys
    ensures SumOver(m, keys) == Val(m, k) + SumOver(m, keys - {k})
    decreases keys
  {
    var j :| j in keys && SumOver(m, keys) == Val(m, j) + SumOver(m, keys - {j});
    if j != k {
      SumOverPick(m, keys - {j}, k);
      SumOverPick(m, keys - {k}, j);
      assert keys - {j} - {k} == keys - {k} - {j};
    }
  }

  lemma {:induction false} SumOverAgree(m: map<RoomId, int>, m': map<RoomId, int>, keys: set<RoomId>)
    requires forall k :: k in keys ==> Val(m, k) == Val(m', k)
    ensures SumOver(m, keys) == SumOver(m', keys)
    decreases keys
  {
    if keys != {} {
      HasElement(keys);
      var k :| k in keys;
      SumOverPick(m, keys, k);
      SumOverPick(m', keys, k);
      SumOverAgree(m, m', keys - {k});
    }
  }

  lemma {:induction false} SumOverAbsent(m: map<RoomId, int>, keys: set<RoomId>, k: RoomId)
    requires k !in m
    ensures SumOver(m, keys + {k}) == SumOver(m, keys)
  {
    if k in keys {
      assert keys + {k} == keys;
    } else {
      SumOverPick(m, keys + {k}, k);
      assert keys + {k} - {k} == keys;
    }
  }

  /** Writing field `k` moves the sum by the difference, as HSET / HINCRBY do. */
  lemma SumUpdate(m: map<RoomId, int>, k: RoomId, v: int)
    ensures Sum(m[k := v]) == Sum(m) - Val(m, k) + v
  {
    var m' := m[k := v];
    assert m'.Keys == m.Keys + {k};
    SumOverPick(m', m'.Keys, k);
    SumOverAgree(m', m, m'.Keys - {k});
    if k in m {
      SumOverPick(m, m.Keys, k);
      assert m'.Keys - {k} == m.Keys - {k};
    } else {
      assert m'.Keys - {k} == m.Keys;
    }
  }

  // ---------------------------------------------------------------------------
  // The rows warm writes

  /** One row of the warm query: a room and its GREATEST(max - lastRead, 0). */
  datatype UnreadRow = UnreadRow(roomId: RoomId, unread: int)

  /** The hash after one HSET per row, in row order (a later row of the same
      room overwrites an earlier one). */
  function RowsHash(rows: seq<UnreadRow>): (h: map<RoomId, int>)
    ensures forall k :: k in h <==> exists i :: 0 <= i < |rows| && rows[i].roomId == k
    ensures forall k :: k in h ==> exists i :: 0 <= i < |rows| && rows[i].roomId == k && h[k] == rows[i].unread
  {
    if rows == [] then map[]
    else
      var last := rows[|rows| - 1];
      var h := RowsHash(rows[..|rows| - 1]);
      assert forall i :: 0 <= i < |rows| - 1 ==> rows[..|rows| - 1][i] == rows[i];
      h[last.roomId := last.unread]
  }

  /** The running total of the warm loop. */
  function RowsTotal(rows: seq<UnreadRow>): int {
    if rows == [] then 0 else RowsTotal(rows[..|rows| - 1]) + rows[|rows| - 1].unread
  }

  predicate DistinctRooms(rows: seq<UnreadRow>) {
    forall i, j :: 0 <= i < j < |rows| ==> rows[i].roomId != rows[j].roomId
  }

  /** When no room repeats, the total warm stores is the sum of the hash it
      stores: the cache starts out consistent. */
  lemma {:induction false} WarmTotalIsSum(rows: seq<UnreadRow>)
    requires DistinctRooms(rows)
    ensures Sum(RowsHash(rows)) == RowsTotal(rows)
  {
    if rows != [] {
      var prev := rows[..|rows| - 1];
      var last := rows[|rows| - 1];
      assert DistinctRooms(prev);
      WarmTotalIsSum(prev);
      assert last.roomId !in RowsHash(prev);
      SumUpdate(RowsHash(prev), last.roomId, last.unread);
    }
  }

  /** With a repeated room the stored total is not the sum of the stored hash
      (the hash keeps one value per room, the total adds both). */
  lemma RepeatedRoomBreaksSum()
    ensures var rows := [UnreadRow(7, 2), UnreadRow(7, 2)];
      Sum(RowsHash(rows)) == 2 && RowsTotal(rows) == 4
  {
    var rows := [UnreadRow(7, 2), UnreadRow(7, 2)];
    assert rows[..1] == [UnreadRow(7, 2)];
    assert rows[..1][..0] == [];
    assert RowsHash(rows) == map[7 := 2];
    SumUpdate(map[], 7, 2);
  }

  // ---------------------------------------------------------------------------
  // The warm query

  /** The membership columns the warm query reads (private_chat_users and
      group_users share them). */
  datatype ReadMarker = ReadMarker(roomId: RoomId, contactId: UserId, isDeleted: bool, lastRead: int)

  predicate ActiveMarkerOf(m: ReadMarker, room: RoomId, u: UserId) {
    m.roomId == room && m.contactId == u && !m.isDeleted
  }

  /** The columns the warm query reads, row by row of a membership table. */
  function Markers<R>(rows: seq<R>, marker: R -> ReadMarker): (r: seq<ReadMarker>)
    ensures |r| == |rows|
    ensures forall i :: 0 <= i < |r| ==> r[i] == marker(rows[i])
  {
    seq(|rows|, i requires 0 <= i < |rows| => marker(rows[i]))
  }

  /** The row the query yields for one membership row: its room and
      GREATEST(COALESCE(MAX(messageOrder), 0) - lastReadMessageOrder, 0). */
  function UnreadRowOf(m: ReadMarker, msgs: seq<Message>): UnreadRow {
    UnreadRow(m.roomId, Max(MaxOrder(msgs, m.roomId) - m.lastRead, 0))
  }

  /** `row` is the warm row of some active membership row of `u`. */
  ghost predicate IsUnreadRowFor(row: UnreadRow, ms: seq<ReadMarker>, msgs: seq<Message>, u: UserId) {
    exists j :: 0 <= j < |ms| && ms[j].contactId == u && !ms[j].isDeleted && row == UnreadRowOf(ms[j], msgs)
  }

  /** The warm query: one row per active membership row of `u`, in table
      order. */
  function UnreadRows(ms: seq<ReadMarker>, msgs: seq<Message>, u: UserId): (r: seq<UnreadRow>)
    ensures forall i :: 0 <= i < |r| ==> IsUnreadRowFor(r[i], ms, msgs, u)
    ensures forall j :: 0 <= j < |ms| && ms[j].contactId == u && !ms[j].isDeleted ==>
      UnreadRowOf(ms[j], msgs) in r
  {
    if ms == [] then []
    else
      var prev := ms[..|ms| - 1];
      var last := ms[|ms| - 1];
      assert forall i :: 0 <= i < |prev| ==> prev[i] == ms[i];
      var rest := UnreadRows(prev, msgs, u);
      assert forall i :: 0 <= i < |rest| ==> IsUnreadRowFor(rest[i], ms, msgs, u) by {
        forall i | 0 <= i < |rest| ensures IsUnreadRowFor(rest[i], ms, msgs, u) {
          var j :| 0 <= j < |prev| && prev[j].contactId == u && !prev[j].isDeleted &&
            rest[i] == UnreadRowOf(prev[j], msgs);
          assert ms[j] == prev[j];
        }
      }
      if last.contactId == u && !last.isDeleted then
        var r := rest + [UnreadRowOf(last, msgs)];
        assert r[|r| - 1] == UnreadRowOf(ms[|ms| - 1], msgs);
        r
      else rest
  }

  /** The warm query yields exactly one row per active membership row of
      `u`. */
  lemma {:induction false} UnreadRowsCount(ms: seq<ReadMarker>, msgs: seq<Message>, u: UserId)
    ensures |UnreadRows(ms, msgs, u)| == Count(ms, (m: ReadMarker) => m.contactId == u && !m.isDeleted)
  {
    if ms != [] {
      UnreadRowsCount(ms[..|ms| - 1], msgs, u);
    }
  }

  /** The warm query yields, for each room, as many rows as `u` has active
      membership rows in it. */
  lemma {:induction false} UnreadRowsPerRoom(ms: seq<ReadMarker>, msgs: seq<Message>, u: UserId, room: RoomId)
    ensures multiset(RowRooms(UnreadRows(ms, msgs, u)))[room] ==
      Count(ms, (m: ReadMarker) => ActiveMarkerOf(m, room, u))
  {
    if ms != [] {
      var prev := ms[..|ms| - 1];
      UnreadRowsPerRoom(prev, msgs, u, room);
      var rest := UnreadRows(prev, msgs, u);
      var last := ms[|ms| - 1];
      if last.contactId == u && !last.isDeleted {
        var rows := rest + [UnreadRowOf(last, msgs)];
        assert rows[..|rows| - 1] == rest;
        assert RowRooms(rows) == RowRooms(rest) + [last.roomId];
      }
    }
  }

  /** The room column of the rows. */
  function RowRooms(rows: seq<UnreadRow>): (r: seq<RoomId>)
    ensures |r| == |rows|
    ensures forall i :: 0 <= i < |rows| ==> r[i] == rows[i].roomId
  {
    if rows == [] then [] else RowRooms(rows[..|rows| - 1]) + [rows[|rows| - 1].roomId]
  }

  /** When no user holds two membership rows in one room (the unique key of
      group_users), the warm rows of a user name each room at most once, so
      warm leaves the cache consistent. */
  lemma {:induction false} OneRowPerRoomDistinct(ms: seq<ReadMarker>, msgs: seq<Message>, u: UserId)
    requires forall i, j :: 0 <= i < j < |ms| && ms[i].contactId == ms[j].contactId ==> ms[i].roomId != ms[j].roomId
    ensures DistinctRooms(UnreadRows(ms, msgs, u))
  {
    if ms != [] {
      var prev := ms[..|ms| - 1];
      var last := ms[|ms| - 1];
      assert forall i :: 0 <= i < |prev| ==> prev[i] == ms[i];
      OneRowPerRoomDistinct(prev, msgs, u);
      var rest := UnreadRows(prev, msgs, u);
      if last.contactId == u && !last.isDeleted {
        forall i | 0 <= i < |rest| ensures rest[i].roomId != last.roomId {
          var j :| 0 <= j < |prev| && prev[j].contactId == u && !prev[j].isDeleted &&
            rest[i] == UnreadRowOf(prev[j], msgs);
          assert ms[j] == prev[j];
        }
      }
    }
  }

  /** After warm, the cached rooms of `u` are exactly the rooms of u's active
      rows. */
  lemma WarmedRooms(ms: seq<ReadMarker>, msgs: seq<Message>, u: UserId)
    ensures forall room :: room in RowsHash(UnreadRows(ms, msgs, u)) <==>
      exists j :: 0 <= j < |ms| && ActiveMarkerOf(ms[j], room, u)
  {
    var rows := UnreadRows(ms, msgs, u);
    var h := RowsHash(rows);
    forall room ensures room in h <==> exists j :: 0 <= j < |ms| && ActiveMarkerOf(ms[j], room, u) {
      if room in h {
        var i :| 0 <= i < |rows| && rows[i].roomId == room;
        assert IsUnreadRowFor(rows[i], ms, msgs, u);
        var j :| 0 <= j < |ms| && ms[j].contactId == u && !ms[j].isDeleted && rows[i] == UnreadRowOf(ms[j], msgs);
        assert ActiveMarkerOf(ms[j], room, u);
      }
      if exists j :: 0 <= j < |ms| && ActiveMarkerOf(ms[j], room, u) {
        var j :| 0 <= j < |ms| && ActiveMarkerOf(ms[j], room, u);
        assert UnreadRowOf(ms[j], msgs) in rows;
        var i :| 0 <= i < |rows| && rows[i] == UnreadRowOf(ms[j], msgs);
        assert rows[i].roomId == room;
      }
    }
  }

  /** After warm, the cached count of `u` for a room is
      max(0, maxOrder - lastRead) of one of u's active rows in that room. */
  lemma WarmedCount(ms: seq<ReadMarker>, msgs: seq<Message>, u: UserId, room: RoomId)
    requires room in RowsHash(UnreadRows(ms, msgs, u))
    ensures exists j :: (0 <= j < |ms| && ActiveMarkerOf(ms[j], room, u) &&
      RowsHash(UnreadRows(ms, msgs, u))[room] == Max(MaxOrder(msgs, room) - ms[j].lastRead, 0))
  {
    var rows := UnreadRows(ms, msgs, u);
    var h := RowsHash(rows);
    var i :| 0 <= i < |rows| && rows[i].roomId == room && h[room] == rows[i].unread;
    assert IsUnreadRowFor(rows[i], ms, msgs, u);
    var j :| 0 <= j < |ms| && ms[j].contactId == u && !ms[j].isDeleted && rows[i] == UnreadRowOf(ms[j], msgs);
    assert ActiveMarkerOf(ms[j], room, u);
  }

  // ---------------------------------------------------------------------------
  // The cache

  /** How many increments `incUnreadForMessage` gives user `u`: the number of
      times u is listed among the receivers, none for the sender. */
  function Hits(receivers: seq<UserId>, sender: UserId, u: UserId): nat {
    if u == sender then 0 else multiset(receivers)[u]
  }

  /** A hash whose field `room` has risen by n (untouched when n is 0). */
  function Bump(h: map<RoomId, int>, room: RoomId, n: nat): map<RoomId, int> {
    if n == 0 then h else h[room := Val(h, room) + n]
  }

  lemma HitsAppend(receivers: seq<UserId>, x: UserId, sender: UserId, u: UserId)
    ensures Hits(receivers + [x], sender, u) ==
      Hits(receivers, sender, u) + (if u == x && u != sender then 1 else 0)
  {
    assert multiset(receivers + [x]) == multiset(receivers) + multiset{x};
  }

  lemma BumpStep(h: map<RoomId, int>, room: RoomId, n: nat)
    ensures Bump(h, room, n + 1) == Bump(h, room, n)[room := Val(Bump(h, room, n), room) + 1]
  {
  }

  /** Raising one field by n raises the sum by n. */
  lemma BumpSum(h: map<RoomId, int>, room: RoomId, n: nat)
    ensures Sum(Bump(h, room, n)) == Sum(h) + n
  {
    if n > 0 {
      SumUpdate(h, room, Val(h, room) + n);
    }
  }

  /** The hash of `u` in a map of hashes; a missing key reads as empty. */
  function HashIn(hs: map<UserId, map<RoomId, int>>, u: UserId): map<RoomId, int> {
    if u in hs then hs[u] else map[]
  }

  /** The total of `u` in a map of totals; a missing key reads as 0. */
  function TotalIn(ts: map<UserId, int>, u: UserId): int {
    if u in ts then ts[u] else 0
  }

  /** The hashes after one receiver's HINCRBY (none for the sender). */
  function IncHash(hs: map<UserId, map<RoomId, int>>, x: UserId, room: RoomId, sender: UserId):
    map<UserId, map<RoomId, int>>
  {
    if x == sender then hs else hs[x := HashIn(hs, x)[room := Val(HashIn(hs, x), room) + 1]]
  }

  /** The totals after one receiver's INCR (none for the sender). */
  function IncTotal(ts: map<UserId, int>, x: UserId, sender: UserId): map<UserId, int> {
    if x == sender then ts else ts[x := TotalIn(ts, x) + 1]
  }

  /** One receiver more keeps "every user got one increment per listing". */
  lemma IncStep(hs0: map<UserId, map<RoomId, int>>, ts0: map<UserId, int>,
                hs: map<UserId, map<RoomId, int>>, ts: map<UserId, int>,
                rs: seq<UserId>, x: UserId, room: RoomId, sender: UserId)
    requires forall u :: HashIn(hs, u) == Bump(HashIn(hs0, u), room, Hits(rs, sender, u))
    requires forall u :: TotalIn(ts, u) == TotalIn(ts0, u) + Hits(rs, sender, u)
    ensures forall u :: HashIn(IncHash(hs, x, room, sender), u) == Bump(HashIn(hs0, u), room, Hits(rs + [x], sender, u))
    ensures forall u :: TotalIn(IncTotal(ts, x, sender), u) == TotalIn(ts0, u) + Hits(rs + [x], sender, u)
  {
    forall u ensures HashIn(IncHash(hs, x, room, sender), u) == Bump(HashIn(hs0, u), room, Hits(rs + [x], sender, u))
      && TotalIn(IncTotal(ts, x, sender), u) == TotalIn(ts0, u) + Hits(rs + [x], sender, u)
    {
      HitsAppend(rs, x, sender, u);
      if u == x && u != sender {
        BumpStep(HashIn(hs0, u), room, Hits(rs, sender, u));
      }
    }
  }

  class UnreadCache {
    /** user:{id}:{kind}:unread */
    var hashes: map<UserId, map<RoomId, int>>
    /** user:{id}:{kind}:unread:total */
    var totals: map<UserId, int>

    function Hash(u: UserId): map<RoomId, int>
      reads this
    {
      HashIn(hashes, u)
    }

    function Count(u: UserId, room: RoomId): int
      reads this
    {
      Val(Hash(u), room)
    }

    function Total(u: UserId): int
      reads this
    {
      TotalIn(totals, u)
    }

    /** The invariant the cache is meant to keep for user `u`. */
    ghost predicate Consistent(u: UserId)
      reads this
    {
      Total(u) == Sum(Hash(u))
    }

    constructor ()
      ensures hashes == map[] && totals == map[]
    {
      hashes := map[];
      totals := map[];
    }

    /** warmUnread*Cache after its query: DEL both keys, one HSET per row and
        SET of the running total, all sent in one pipeline. */
    method Warm(u: UserId, rows: seq<UnreadRow>) returns (total: int)
      modifies this
      ensures total == RowsTotal(rows)
      ensures Hash(u) == RowsHash(rows) && Total(u) == total
      ensures forall v :: v != u ==> Hash(v) == old(Hash(v)) && Total(v) == old(Total(v))
      ensures DistinctRooms(rows) ==> Consistent(u)
    {
      var h: map<RoomId, int> := map[];
      total := 0;
      var i := 0;
      while i < |rows|
        invariant 0 <= i <= |rows|
        invariant h == RowsHash(rows[..i])
        invariant total == RowsTotal(rows[..i])
      {
        assert rows[..i + 1][..i] == rows[..i];
        h := h[rows[i].roomId := rows[i].unread];
        total := total + rows[i].unread;
        i := i + 1;
      }
      assert rows[..i] == rows;
      hashes := hashes[u := h];
      totals := totals[u := total];
      if DistinctRooms(rows) {
        WarmTotalIsSum(rows);
      }
    }

    /** incUnreadForMessage: for every receiver other than the sender, HINCRBY
        the room's field by 1 and INCR the total. A receiver listed twice is
        counted twice; the sender's keys are left alone. */
    method IncUnreadForMessage(receivers: seq<UserId>, room: RoomId, sender: UserId)
      modifies this
      ensures forall u :: Hash(u) == Bump(old(Hash(u)), room, Hits(receivers, sender, u))
      ensures forall u :: Total(u) == old(Total(u)) + Hits(receivers, sender, u)
      ensures forall u :: old(Consistent(u)) ==> Consistent(u)
    {
      if |receivers| == 0 {
        return;
      }
      ghost var hs0, ts0 := hashes, totals;
      var hs, ts := hashes, totals;
      var i := 0;
      while i < |receivers|
        invariant 0 <= i <= |receivers|
        invariant forall u :: HashIn(hs, u) == Bump(HashIn(hs0, u), room, Hits(receivers[..i], sender, u))
        invariant forall u :: TotalIn(ts, u) == TotalIn(ts0, u) + Hits(receivers[..i], sender, u)
      {
        IncStep(hs0, ts0, hs, ts, receivers[..i], receivers[i], room, sender);
        assert receivers[..i + 1] == receivers[..i] + [receivers[i]];
        hs := IncHash(hs, receivers[i], room, sender);
        ts := IncTotal(ts, receivers[i], sender);
        i := i + 1;
      }
      assert receivers[..i] == receivers;
      forall u | TotalIn(ts0, u) == Sum(HashIn(hs0, u)) ensures TotalIn(ts, u) == Sum(HashIn(hs, u)) {
        BumpSum(HashIn(hs0, u), room, Hits(receivers, sender, u));
      }
      hashes := hs;
      totals := ts;
      assert forall u :: Hash(u) == HashIn(hs, u) && Total(u) == TotalIn(ts, u);
    }

    /** clearUnreadForRoom: reads the room's field; when it is positive,
        sets it to 0 and DECRBY the total by the same amount. Returns the
        total it then reads (the value it emits to the user). */
    method ClearUnreadForRoom(u: UserId, room: RoomId) returns (total: int)
      modifies this
      ensures old(Count(u, room)) > 0 ==>
        Hash(u) == old(Hash(u))[room := 0] && Total(u) == old(Total(u)) - old(Count(u, room))
      ensures old(Count(u, room)) <= 0 ==> Hash(u) == old(Hash(u)) && Total(u) == old(Total(u))
      ensures forall v :: v != u ==> Hash(v) == old(Hash(v)) && Total(v) == old(Total(v))
      ensures total == Total(u)
      ensures forall v :: old(Consistent(v)) ==> Consistent(v)
    {
      var prev := Count(u, room);
      if prev > 0 {
        SumUpdate(Hash(u), room, 0);
        hashes := hashes[u := Hash(u)[room := 0]];
        totals := totals[u := Total(u) - prev];
      }
      total := Total(u);
    }
  }
}
